=== FILE: README.md ===
# SharpOSM building extraction and the csg extrusion, in Dafny

This project models the core of SharpOSM, a C# library that turns an
OpenStreetMap document into 3D building and tree shapes. It also models the
`csg` experiment that extrudes a footprint and caps it.

## What is modelled

**The OSM document** (`Document`). A document is a sequence of nodes, ways and
relations. The Mercator projection is folded into a `Frame` parameter.
`CreateFootprint` resolves a way's node references into projected points. It
skips a reference that names no node.

**Polygons** (`Polygons`, `CsgPolygon`). The polygon and multipolygon classes of
both programs:
- `IsClosed`;
- the ray-casting `Contains(point)`, with its bounding-box prefilter and its
  `i`/`j` loop;
- SharpOSM's `Intersects` (0, -1 or +1);
- csg's `Contains(polygon)`.

**Tag parsing** (`Text`, `Numbers`, `ShapeData`, `Colors`, `Attributes`):
- `MatchFloat`: a regular-expression filter, then a French pass and an
  invariant-culture pass;
- `MatchShort`, with the range of `short`;
- `MatchColor`: an HTML code, or a keyword looked up in the 147-entry
  `OsmColor.Keywords` table;
- `Enum.TryParse` for shapes;
- the part, roof and tree tag loops;
- the height-estimation rule.

**Relations** (`Compounds`). The `Structure` and `Compound` constructors.
`ParseCompounds` classifies visible relations into building, multipolygon
building and multipolygon building part, keyed by id. A repeated id throws.

**Ring assembly** (`RingAssembly`). `Merge` stitches way fragments end to end
into closed rings. It keeps the source's order of the four end-point tests,
its `List.Remove` and its bookkeeping of consumed way ids. A ring that can
never close is the `Loops` outcome, because the source's inner loop never
exits.

**Building extraction** (`Provider`). The provider's pipeline:
- `Buildings` runs the three compound stages, then the simple ways.
- `Parts` and `Multipolygon`, including hole assignment by `Intersects`.
- `Compound`'s recursion through related compounds.
- `ParseSimple` and `ParseSimples`, which drop a building that contains a vertex
  of some part (`Intersects` is not 0).
- `Natural` for trees.

**Meshes** (`Meshes`, `ModelBuilder`, `Shapes`):
- SharpOSM's `Mesh` with its normals loop;
- `ModelBuilder.CreateMesh`, which gives walls, a roof from the triangulator
  and roof colours;
- the tree mesh;
- the lazily cached `Mesh` and `Footprint` getters.

**csg** (`CsgMesh`). csg's `Mesh` reads triangle corners in the opposite order
to SharpOSM. `ComputeBody` extrudes a footprint. `Cap` adds the triangulated
bottom and top faces and recolours the top corners.

The program's effects become values:
- a lazily filled field is returned with the updated object;
- the `ways` list of consumed ids is threaded through as a set;
- a thrown exception is `None` or a `Throws` halt, apart from the one
  `CreateMesh` raises before its `try` (a ring of fewer than three points
  given to Poly2Tri's `Polygon`). That one is the `ModelBuilder.Thrown`
  outcome, which the `Mesh` getter passes on instead of storing a mesh.

The triangulator (Poly2Tri), `Vector3.Normalize`, `ColorTranslator.FromHtml`
and `Random.Next` are parameters: a triangulation function, a `unit` function,
`Colors.Html` and a `HeightDraw` in the range [11, 18).

### Where the code decides

- `MatchFloat` on unreadable input returns false and writes 0 to its out
  parameter. A tag such as `height=tall` therefore sets the height to 0 rather
  than keeping the previous value. For a building, the estimation rule then
  applies. For a tree, the height stays 0 (`Attributes.UnreadableTreeHeight`).
- The random height is `rnd.Next(11, 18)` (`(int)(15 - 3.5)` and
  `(int)(15 + 3.5)`), so the upper bound 18 is exclusive.
- `Merge`'s inner `while (true)` has no exit for an open ring that no fragment
  extends. The model reports this as the `Loops` halt instead of hanging
  (`RingAssembly.StuckForever`).
- When a ring's end point also occurs earlier in the ring, `List.Remove(last)`
  drops the earlier occurrence (`RingAssembly.RemoveEarlierOccurrence`).
- A building is dropped only when `Intersects` finds a vertex of a part inside
  it. A part that crosses a building without any of its vertices inside the
  building, such as a long bar laid across a square, leaves the building kept
  (`Provider.BarCrossingKept`).
- A `building` or `building:part` way with fewer than three resolvable nodes
  gets an outline of fewer than three points. Poly2Tri's `Polygon` constructor
  rejects it before `CreateMesh` enters its `try`, so reading that part's
  `Mesh` throws, and it throws again on every later read
  (`Shapes.ShortFootprintThrows`).
- csg's `Vector3` is a value type, so its `normals[i] == null` test never holds.
  Accumulation there starts from zero.
- csg's `Cap` takes every second vertex as a bottom point. With an odd vertex
  count, the last bottom point has no top twin, so its top index `Idx + 1` is
  past the end of the vertex array (`CsgMesh.CapOddOverruns`).

## Model

| member | source | states |
|---|---|---|
| Text.Lower | SharpOSM/SharpOSM/OsmProvider.cs:743-749 | lower-casing keeps the length and maps each character through the ASCII lower-case map |
| Text.LowerIdempotent | SharpOSM/SharpOSM/OsmProvider.cs:743-749 | lower-casing an already lower-cased key changes nothing, so the switch keys match any spelling |
| Text.Filter | SharpOSM/SharpOSM/OsmProvider.cs:883 | the regular-expression replace keeps only accepted characters, never lengthens the text, and leaves all-accepted text as it is |
| Text.FilterAppend | SharpOSM/SharpOSM/OsmProvider.cs:883 | filtering two pieces and joining them is filtering the joined text |
| Text.FilterDropsSuffix | SharpOSM/SharpOSM/OsmProvider.cs:883 | a suffix of rejected characters, such as a unit " m", does not change the filtered text |
| Text.FilterDropsOne | SharpOSM/SharpOSM/OsmProvider.cs:883 | removing one rejected character joins the accepted runs on either side |
| Numbers.MatchFloat | SharpOSM/SharpOSM/OsmProvider.cs:874-888 | null input is false; any false result writes the value 0 |
| Numbers.MatchFloatIgnoresUnit | SharpOSM/SharpOSM/OsmProvider.cs:874-888 | a number followed by a unit reads exactly as the number alone |
| Numbers.MatchFloatWhole | SharpOSM/SharpOSM/OsmProvider.cs:874-888 | every whole number written in decimal reads back as itself |
| Numbers.MatchFloatNegative | SharpOSM/SharpOSM/OsmProvider.cs:874-888 | every negative whole number reads back as itself |
| Numbers.UnsignedDecimal | SharpOSM/SharpOSM/OsmProvider.cs:883-886 | digits, a separator and digits read as whole part plus fraction |
| Numbers.PointNotFrench | SharpOSM/SharpOSM/OsmProvider.cs:883 | a decimal point does not read in French notation, so the invariant pass decides |
| Numbers.MatchFloatComma | SharpOSM/SharpOSM/OsmProvider.cs:883 | a decimal with a comma reads back as its value in the French pass |
| Numbers.MatchFloatPoint | SharpOSM/SharpOSM/OsmProvider.cs:883-887 | a decimal with a point fails the French pass and reads back as its value in the invariant pass |
| Numbers.MatchFloatNegativePoint | SharpOSM/SharpOSM/OsmProvider.cs:883-887 | a negative decimal with a point reads back as its negated value |
| Numbers.MatchFloatExamplePoint | SharpOSMgl/SharpOSMTest/UnitTest1.cs:57-58 | example: "0.1" reads as true and 0.1 |
| Numbers.MatchFloatExampleNegative | SharpOSMgl/SharpOSMTest/UnitTest1.cs:59-60 | example: "-1.0" reads as true and -1 |
| Numbers.MatchFloatExamplesOther | SharpOSMgl/SharpOSMTest/UnitTest1.cs:61-64 | example: "1 m" reads as 1 and "0,1" reads as 0.1 |
| Numbers.MatchShort | SharpOSM/SharpOSM/OsmProvider.cs:896-899 | the value is always within the range of `short`; a failure writes 0 |
| Numbers.MatchShortRoundTrip | SharpOSM/SharpOSM/OsmProvider.cs:896-899 | every `short` written in decimal reads back as itself |
| Numbers.MatchShortOverflow | SharpOSM/SharpOSM/OsmProvider.cs:896-899 | an integer outside the `short` range does not read and gives 0 |
| Numbers.MatchShortExamples | SharpOSMgl/SharpOSMTest/UnitTest1.cs:76-81 | example: "1", "-1" and "1 m" read as 1, -1 and 1 |
| Colors.InitializeDistinct | SharpOSM/SharpOSM/OsmColors.cs:46-195 | a dictionary initializer with distinct keys does not throw and maps each key to its entry's value, keeping earlier keys |
| Colors.KeywordsWell | SharpOSM/SharpOSM/OsmColors.cs:46-195 | every key of the colour table is lower-case letters only, and the keys are strictly ascending |
| Colors.KeywordsDistinct | SharpOSM/SharpOSM/OsmColors.cs:46-195 | no key occurs twice, so the static initializer does not throw |
| Colors.KeywordMap | SharpOSM/SharpOSM/OsmColors.cs:46-195 | the dictionary's keys are exactly the entries' keys, each maps to its entry's code, and every key is lower-case letters only |
| Colors.Code | SharpOSM/SharpOSM/OsmProvider.cs:860-863 | a key is found exactly when some entry has it, and then the code found is that entry's code; a found key has the keyword shape |
| Colors.CodeGap | SharpOSM/SharpOSM/OsmColors.cs:46-195 | a key strictly between two neighbouring keys of the sorted table is not found |
| Colors.CodeBeyondLast | SharpOSM/SharpOSM/OsmColors.cs:46-195 | a key above the last keyword, yellowgreen, is not found |
| Colors.CodeUnknown | SharpOSM/SharpOSM/OsmColors.cs:46-195 | example: "zzz" is not found |
| Colors.RowEntry | SharpOSM/SharpOSM/OsmColors.cs:46-195 | every entry of the table is found under its own key with its own code |
| Colors.Synonyms | SharpOSM/SharpOSM/OsmColors.cs:46-195 | the "gray" and "grey" spellings of each grey name give the same code |
| Colors.Samples | SharpOSM/SharpOSM/OsmColors.cs:55-191 | example: black, red and white have codes #000000, #FF0000 and #FFFFFF |
| Attributes.MatchColor | SharpOSM/SharpOSM/OsmProvider.cs:851-866 | a value starting with '#' is an HTML code; otherwise the result is the default colour exactly when the space-free lower-case key is not in the table, and the table's colour when it is |
| Attributes.MatchColorKeyword | SharpOSM/SharpOSM/OsmProvider.cs:858-863 | every keyword of the table gives its own colour |
| Attributes.MatchColorNormalised | SharpOSM/SharpOSM/OsmProvider.cs:858-863 | any value whose spaces-removed lower-case form is a keyword gives that keyword's colour |
| Attributes.MatchColorUnknown | SharpOSM/SharpOSM/OsmProvider.cs:851-866 | a value without '#' whose key is no table key gives the default building colour |
| Attributes.MatchColorZzz | SharpOSM/SharpOSM/OsmProvider.cs:851-866 | example: "zzz" gives the default building colour |
| Attributes.MatchColorSpaced | SharpOSM/SharpOSM/OsmProvider.cs:858-863 | example: "Light Gray" gives light gray's colour |
| Attributes.MatchColorCodeOrName | SharpOSM/SharpOSM/OsmProvider.cs:851-866 | "#D3D3D3" and "lightgray" give the same colour |
| Attributes.ApplyPartTags | SharpOSM/SharpOSM/OsmProvider.cs:758-800 | the part tag loop never changes the volume flag |
| Attributes.ApplyPartTagsAppend | SharpOSM/SharpOSM/OsmProvider.cs:758-800 | the tag loop over a concatenation is the loop over the first list followed by the loop over the second |
| Attributes.LastPartTagWins | SharpOSM/SharpOSM/OsmProvider.cs:758-800 | the last tag is applied to the result of all earlier ones, so a later tag overrides an earlier one |
| Attributes.PartFieldKept | SharpOSM/SharpOSM/OsmProvider.cs:758-800 | a field that no tag sets keeps the value it came in with |
| Attributes.PartKeyAnyCase | SharpOSM/SharpOSM/OsmProvider.cs:760 | part keys are matched in any letter case |
| Attributes.EstimateHeight | SharpOSM/SharpOSM/OsmProvider.cs:802-814 | only the height may change; a volume ends with a non-zero height; a non-volume or a part that already has a height is unchanged; a drawn height lies in [11, 18) |
| Attributes.HeightEstimation | SharpOSM/SharpOSM/OsmProvider.cs:802-814 | a tagged height is kept; otherwise 3.5 per level when min_level + levels is positive, else a draw from (int)(15 - 3.5) up to but excluding (int)(15 + 3.5) |
| Attributes.ParsePart | SharpOSM/SharpOSM/OsmProvider.cs:710-720 | a parsed part is a volume with a non-zero height |
| Attributes.ParsePartUntagged | SharpOSM/SharpOSM/OsmProvider.cs:710-720 | an untagged part has the default building colour, no shape and the drawn height |
| Attributes.UnreadableHeightEstimated | SharpOSM/SharpOSM/OsmProvider.cs:766-814 | an unreadable height tag sets the height to 0, and the estimation rule then gives a non-zero height |
| Attributes.RoofFieldsKept | SharpOSM/SharpOSM/OsmProvider.cs:823-843 | roof tags set only shape, colour and material, and each of those only when its tag occurs |
| Attributes.RoofColours | SharpOSM/SharpOSM/OsmProvider.cs:727-736 | an untagged roof is light gray, but a roof:colour whose key is no table key gives the building default, light slate gray |
| Attributes.RoofColourUnknown | SharpOSM/SharpOSM/OsmProvider.cs:727-736 | example: roof:colour=zzz gives light slate gray |
| Attributes.RoofColourTag | SharpOSM/SharpOSM/OsmProvider.cs:833-835 | a roof:colour tag sets the roof colour to MatchColor of its value |
| Attributes.TreeDefaults | SharpOSM/SharpOSM/OsmProvider.cs:223-243 | tree fields no tag sets keep their defaults; no tag sets the species |
| Attributes.UnreadableTreeHeight | SharpOSM/SharpOSM/OsmProvider.cs:239-241 | an unreadable tree height tag leaves height 0, while an untagged tree has the default 10 |
| ShapeData.ParseEnum | SharpOSM/SharpOSM/OsmProvider.cs:796-798 | parsing succeeds exactly when some member name equals the value ignoring case, and then yields such a member |
| ShapeData.ParseEnumFinds | SharpOSM/SharpOSM/OsmProvider.cs:796-798 | the first member whose name matches ignoring case is the one parsed |
| ShapeData.ShapeNameAnyCase | SharpOSM/SharpOSM/Shapes/Building.cs:12-17 | example: "CYLINDER" parses as the Cylinder shape |
| ShapeData.UnknownShapeName | SharpOSM/SharpOSM/OsmProvider.cs:796-798 | example: an unknown name resets the shape to None |
| Document.FindNode | SharpOSM/SharpOSM/OsmProvider.cs:183-186 | none exactly when no node has the id; otherwise the first node with that id |
| Document.FindWay | SharpOSM/SharpOSM/OsmProvider.cs:193-196 | none exactly when no way has the id; otherwise the first way with that id |
| Document.FootprintPoints | SharpOSM/SharpOSM/OsmProvider.cs:690-701 | one point per resolvable reference; when all resolve, point i is the projected position of reference i's node |
| Document.CreateFootprint | SharpOSM/SharpOSM/OsmProvider.cs:687-703 | a plain polygon with at most one point per reference, and exactly one per reference when every reference names a node |
| Document.FootprintClosed | SharpOSM/SharpOSM/OsmProvider.cs:687-703 | a way whose references all resolve and whose last reference repeats its first gives a closed footprint |
| Document.NewTileBound | SharpOSM/SharpOSM/OsmProvider.cs:20-27 | the corners are stored and the centre lies midway between them |
| Polygons.Empty | SharpOSM/SharpOSM/Polygon.cs:176 | a new polygon or multipolygon has no points and no holes |
| Polygons.MultiOf | SharpOSM/SharpOSM/Polygon.cs:44-47 | a multipolygon built from points holds exactly those points and no holes |
| Polygons.AddHole | SharpOSM/SharpOSM/Polygon.cs:25-35 | adding a hole appends it and keeps the outline |
| Polygons.ClosedReverse | SharpOSM/SharpOSM/Polygon.cs:73-76 | reversing a ring does not change whether it is closed |
| Polygons.ClosedByRepeatingFirst | SharpOSM/SharpOSM/Polygon.cs:73-76 | a path of two or more points with its first point appended is closed |
| Polygons.Prev | SharpOSM/SharpOSM/Polygon.cs:162 | the loop pairs index 0 with the last index and every other index with its predecessor |
| Polygons.Range | SharpOSM/SharpOSM/Polygon.cs:144-155 | the min/max fold over a coordinate computes its least and greatest value |
| Polygons.BoundingBox | SharpOSM/SharpOSM/Polygon.cs:144-155 | the first loop computes the polygon's bounding box |
| Polygons.CrossScan | SharpOSM/SharpOSM/Polygon.cs:160-170 | the flag is set exactly when the ray crosses an odd number of edges |
| Polygons.CrossXOnLine | SharpOSM/SharpOSM/Polygon.cs:164-167 | the crossing abscissa lies on the line through the edge's end points |
| Polygons.ContainsPoint | SharpOSM/SharpOSM/Polygon.cs:142-170 | the method computes the reference containment test, and a contained point lies inside the bounding box |
| Polygons.OutsideNotContained | SharpOSM/SharpOSM/Polygon.cs:156-159 | a point beyond every polygon point on one side is not contained |
| Polygons.ContainsClosedRing | SharpOSM/SharpOSM/Polygon.cs:142-170 | a ring with its first point repeated at the end contains the same points as the ring without it |
| Polygons.ContainsRotate | SharpOSM/SharpOSM/Polygon.cs:160-170 | starting the ring at its second point changes no containment answer |
| Polygons.CountContained | SharpOSM/SharpOSM/Polygon.cs:125-132 | the count is zero exactly when no point is contained, and full exactly when all are |
| Polygons.Intersects | SharpOSM/SharpOSM/Polygon.cs:123-134 | 0 exactly when no point of the other is contained; -1 exactly when the other is non-empty and every point is contained; a throw exactly when this polygon is empty and the other is not |
| Polygons.IntersectsPartly | SharpOSM/SharpOSM/Polygon.cs:123-134 | +1 exactly when some points of the other are contained and some are not |
| Polygons.SquareScenario | SharpOSMgl/SharpOSMTest/UnitTest1.cs:85-107 | example: the big square contains the small one, not the other way round, and an offset rectangle only intersects |
| Polygons.SquareContains | SharpOSM/SharpOSM/Polygon.cs:142-170 | every point strictly inside the 20-by-20 square is contained |
| Polygons.OriginInside | SharpOSM/SharpOSM/Polygon.cs:142-170 | the origin is contained in every rectangle centred on it |
| Polygons.CrossingBar | SharpOSM/SharpOSM/Polygon.cs:123-134 | example: a bar laid across a square shares the origin with it, yet Intersects reports 0 because no corner of the bar is inside |
| CsgPolygon.ContainsPolygon | csg/csg/Polygon.cs:62-72 | true exactly when every point of the other polygon is contained (vacuously for an empty one); a throw exactly when this polygon is empty and the other is not |
| CsgPolygon.ContainsFrom | csg/csg/Polygon.cs:62-72 | the scan from a position is true exactly when every remaining point is contained |
| CsgPolygon.ContainsMeansIntersectsBelowZero | csg/csg/Polygon.cs:62-72 | for a non-empty polygon, csg's containment agrees with SharpOSM's Intersects returning -1, including when it throws |
| Meshes.NormalsOf | SharpOSM/SharpOSM/Mesh.cs:39-64 | one normal per vertex |
| Meshes.ComputeNormals | SharpOSM/SharpOSM/Mesh.cs:39-64 | null for null input; a throw exactly when a face names no vertex or the list is not whole triples; otherwise each normal is the normalised sum of its triangles' normals |
| Meshes.UnreferencedVertex | SharpOSM/SharpOSM/Mesh.cs:44-56 | a vertex that no face names keeps a zero accumulator |
| Meshes.AccumulatedIsWeightedSum | SharpOSM/SharpOSM/Mesh.cs:44-56 | the scatter loop sums, for each vertex, the normals of the triangles naming it, once per corner |
| Meshes.NewMesh | SharpOSM/SharpOSM/Mesh.cs:72-85 | the constructor stores its arrays and derives one normal per vertex, and throws exactly when faces are badly indexed |
| Meshes.NewMeshNormals | SharpOSM/SharpOSM/Mesh.cs:72-85 | the constructor's normals are the ones the normals loop computes |
| ModelBuilder.Rings | SharpOSM/SharpOSM/ModelBuilder.cs:43-47 | the numbered rings are the outline followed by each hole, in order |
| ModelBuilder.FlattenIndex | SharpOSM/SharpOSM/ModelBuilder.cs:55-87 | point i of ring r is vertex number Offset(r) + i |
| ModelBuilder.Vertices | SharpOSM/SharpOSM/ModelBuilder.cs:50-87 | two vertices per footprint point |
| ModelBuilder.RingWalls | SharpOSM/SharpOSM/ModelBuilder.cs:66-74 | a ring of n points has n - 1 wall quads |
| ModelBuilder.RoofFaces | SharpOSM/SharpOSM/ModelBuilder.cs:110-125 | three face entries per roof triangle |
| ModelBuilder.Paint | SharpOSM/SharpOSM/ModelBuilder.cs:126-129 | the roof-colour loop keeps the colour array's length |
| ModelBuilder.PaintSpec | SharpOSM/SharpOSM/ModelBuilder.cs:110-130 | after the loop, exactly the top copies of triangle corners have the roof colour and every other vertex keeps its colour |
| ModelBuilder.WallsAt | SharpOSM/SharpOSM/ModelBuilder.cs:66-98 | edge i of ring r has its quad at WallStart(r) + 6i, over points Offset(r) + i and the next |
| ModelBuilder.WallQuad | SharpOSM/SharpOSM/ModelBuilder.cs:66-98 | the six entries of an edge's quad together form that quad |
| ModelBuilder.VertexColors | SharpOSM/SharpOSM/ModelBuilder.cs:52 | one colour per vertex |
| ModelBuilder.FacesIndexed | SharpOSM/SharpOSM/ModelBuilder.cs:65-125 | with a triangulation over footprint points, every face entry names a vertex of the mesh |
| ModelBuilder.WallsMultipleOfSix | SharpOSM/SharpOSM/ModelBuilder.cs:66-98 | the walls are whole quads of six entries |
| ModelBuilder.CreateMesh | SharpOSM/SharpOSM/ModelBuilder.cs:38-139 | throws exactly when the outline or a hole has fewer than three points, since Poly2Tri's polygons are built at :63 and :100, before the `try`; otherwise returns the mesh of TriangulatedMesh, present exactly when the triangulator succeeds with corners on footprint points |
| ModelBuilder.TriangulatedMesh | SharpOSM/SharpOSM/ModelBuilder.cs:50-139 | with every ring accepted by Poly2Tri, a mesh exactly when the triangulator succeeds with corners on footprint points; then 2T vertices, well-indexed faces, one colour per vertex, and walls plus three entries per triangle |
| ModelBuilder.ShortOutlineThrows | SharpOSM/SharpOSM/ModelBuilder.cs:42-63 | a footprint of fewer than three points makes CreateMesh throw |
| ModelBuilder.MeshVertices | SharpOSM/SharpOSM/ModelBuilder.cs:55-87 | point i of ring r is lifted to the minimum height at vertex Offset + i and to the height at Offset + i + T |
| ModelBuilder.MeshWalls | SharpOSM/SharpOSM/ModelBuilder.cs:66-98 | each edge between consecutive ring points is two triangles joining both points at both levels; the last-to-first edge is not a wall |
| ModelBuilder.MeshRoof | SharpOSM/SharpOSM/ModelBuilder.cs:110-125 | roof triangle k is footprint triangle k at the top, corners reversed |
| ModelBuilder.MeshColors | SharpOSM/SharpOSM/ModelBuilder.cs:52-130 | a vertex has the roof colour exactly when it is a top corner of a roof triangle, and the body colour otherwise |
| ModelBuilder.TreeMesh | SharpOSM/SharpOSM/ModelBuilder.cs:146-166 | a tree is six vertices in two triangles, all green |
| ModelBuilder.TreeShape | SharpOSM/SharpOSM/ModelBuilder.cs:146-166 | both triangles share the apex above the anchor at the tree height and stand in crossing vertical planes with bases centred under it, as wide as the circumference |
| Shapes.NewBuildingPart | SharpOSM/SharpOSM/Shapes/Building.cs:169-175 | the constructor stores id, footprint, body, roof and colour, with no mesh yet |
| Shapes.GetFootprint | SharpOSM/SharpOSM/Shapes/Building.cs:153-162 | a stored footprint is returned unchanged; a null one is replaced by an empty polygon, which is stored |
| Shapes.FootprintStable | SharpOSM/SharpOSM/Shapes/Building.cs:153-162 | a second read of the footprint returns the same polygon and changes nothing |
| Shapes.GetMesh | SharpOSM/SharpOSM/Shapes/Building.cs:141-151 | a cached mesh is returned unchanged; a non-volume part gives null and is unchanged; a returned mesh is what is stored; a throw happens only for a volume without a mesh and stores nothing but the footprint read |
| Shapes.MeshCached | SharpOSM/SharpOSM/Shapes/Building.cs:141-151 | once a mesh is built, reading it again returns it without rebuilding |
| Shapes.NullMeshRetried | SharpOSM/SharpOSM/Shapes/Building.cs:141-151 | a build that returns null or throws leaves the mesh null, so the next read tries again and ends the same way |
| Shapes.ShortFootprintThrows | SharpOSM/SharpOSM/Shapes/Building.cs:141-175 | a volume with a null footprint or one of fewer than three points throws on every mesh read and never stores a mesh |
| Shapes.FreshPartMesh | SharpOSM/SharpOSM/Shapes/Building.cs:141-175 | a new part's first mesh read is the CreateMesh outcome (mesh, null or throw) for its footprint when it is a volume, and null otherwise |
| Shapes.NewNaturalId | SharpOSM/SharpOSM/Shapes/Natural.cs:74-76 | a tree built from an id alone is green, at the origin, with default data |
| Shapes.NewNatural | SharpOSM/SharpOSM/Shapes/Natural.cs:78-83 | the constructor stores id, anchor and data, green, with no mesh yet |
| Shapes.GetNaturalMesh | SharpOSM/SharpOSM/Shapes/Natural.cs:62-72 | a cached mesh is returned unchanged; otherwise one is built and stored |
| Shapes.NaturalMeshStable | SharpOSM/SharpOSM/Shapes/Natural.cs:62-72 | the first read builds the tree mesh, and a second read returns the same mesh |
| Compounds.ParseRole | SharpOSM/SharpOSM/OsmProvider.cs:86-109 | each role name, in any letter case, gives its role |
| Compounds.RoleAnyCase | SharpOSM/SharpOSM/OsmProvider.cs:86-109 | roles are case-insensitive, and any other name is no role |
| Compounds.NewStructure | SharpOSM/SharpOSM/OsmProvider.cs:86-109 | a new structure is unassigned, with no polygon or data yet |
| Compounds.Structures | SharpOSM/SharpOSM/OsmProvider.cs:125-138 | at most one unassigned, unassembled structure per member |
| Compounds.PartitionAppend | SharpOSM/SharpOSM/OsmProvider.cs:125-138 | partitioning a member list is partitioning its pieces and joining the results |
| Compounds.PartitionOne | SharpOSM/SharpOSM/OsmProvider.cs:125-138 | a way member gives one structure, a relation member with role "part" gives one reference, and nothing is both |
| Compounds.NewCompound | SharpOSM/SharpOSM/OsmProvider.cs:119-140 | a new compound keeps its type and relation, and every structure starts unassigned |
| Compounds.FirstValue | SharpOSM/SharpOSM/OsmProvider.cs:413-415 | none exactly when no tag has the key; otherwise the value of the first such tag |
| Compounds.BuildingKey | SharpOSM/SharpOSM/OsmProvider.cs:425-427 | none exactly when no tag is keyed building or building:part; otherwise the first such key |
| Compounds.ClassifyCases | SharpOSM/SharpOSM/OsmProvider.cs:413-444 | building type gives Building; a multipolygon with a first building key of building or building:part gives the matching kind; anything else is not filed |
| Compounds.FirstTypeDecides | SharpOSM/SharpOSM/OsmProvider.cs:413-415 | once an earlier type tag has decided, later ones do not matter |
| Compounds.Lookup | SharpOSM/SharpOSM/OsmProvider.cs:478 | none exactly when no entry has the id; otherwise the first entry with it |
| Compounds.AddCompoundsEntries | SharpOSM/SharpOSM/OsmProvider.cs:404-445 | the loop files exactly the classified visible relations, and throws exactly when two of them share an id |
| Compounds.ParseCompoundsEntries | SharpOSM/SharpOSM/OsmProvider.cs:401-447 | ParseCompounds succeeds exactly when the classified visible relations have distinct ids, and then holds them in document order |
| Compounds.EntriesClassified | SharpOSM/SharpOSM/OsmProvider.cs:404-444 | every filed entry is a visible relation under its own id, of the kind its tags give |
| RingAssembly.RemoveFirst | SharpOSM/SharpOSM/OsmProvider.cs:645 | List.Remove drops one element when the point occurs and changes nothing otherwise |
| RingAssembly.RemoveHead | SharpOSM/SharpOSM/OsmProvider.cs:660 | removing the first point removes exactly the head |
| RingAssembly.RemoveEnd | SharpOSM/SharpOSM/OsmProvider.cs:645 | removing the last point removes the end when that point does not occur earlier |
| RingAssembly.RemoveEarlierOccurrence | SharpOSM/SharpOSM/OsmProvider.cs:645 | example: when the end point also occurs earlier, Remove drops the earlier occurrence and keeps the end |
| RingAssembly.Stitch | SharpOSM/SharpOSM/OsmProvider.cs:643-675 | no join exactly when neither end of the ring meets either end of the fragment; a join shares one point |
| RingAssembly.StitchCloses | SharpOSM/SharpOSM/OsmProvider.cs:643-675 | an open path and a fragment sharing both end points, in either direction, stitch into a closed ring |
| RingAssembly.StitchSquare | SharpOSM/SharpOSM/OsmProvider.cs:643-675 | example: two halves of a square stitch into the closed square |
| RingAssembly.Unassigned | SharpOSM/SharpOSM/OsmProvider.cs:589-591 | the count of unassigned structures with the role is zero exactly when there is none |
| RingAssembly.AssignOne | SharpOSM/SharpOSM/OsmProvider.cs:611 | marking one candidate assigned lowers the count by one |
| RingAssembly.EvolvesCount | SharpOSM/SharpOSM/OsmProvider.cs:586-679 | structures only ever get assigned, so the count never grows |
| RingAssembly.Fragment | SharpOSM/SharpOSM/OsmProvider.cs:634-641 | a fragment exists exactly when the way exists, and is its footprint |
| RingAssembly.Fragments | SharpOSM/SharpOSM/OsmProvider.cs:627-641 | one fragment per structure, by position |
| RingAssembly.Scan | SharpOSM/SharpOSM/OsmProvider.cs:627-676 | a scan stops at a candidate with a way; it fails on an empty fragment and matches exactly with the fragment's stitch |
| RingAssembly.ScanSkips | SharpOSM/SharpOSM/OsmProvider.cs:627-676 | a structure passed over leaves the rest of the scan unchanged, having consumed it if it is a candidate with a way |
| RingAssembly.ScanStops | SharpOSM/SharpOSM/OsmProvider.cs:627-676 | a structure not passed over is where the scan stops and the only one it consumes |
| RingAssembly.ScanFirst | SharpOSM/SharpOSM/OsmProvider.cs:627-676 | the scan takes the first fitting structure: everything before it is passed over |
| RingAssembly.ScanConsumes | SharpOSM/SharpOSM/OsmProvider.cs:634-639 | the scan consumes every candidate with a way up to and including where it stops, fitting or not |
| RingAssembly.Close | SharpOSM/SharpOSM/OsmProvider.cs:613-678 | structures only get assigned; a closed outcome is a closed ring; a stuck one is an open ring that no structure extends |
| RingAssembly.StuckForever | SharpOSM/SharpOSM/OsmProvider.cs:613-678 | a stuck ring passes over every structure, so the loop repeats without end |
| RingAssembly.FirstCandidate | SharpOSM/SharpOSM/OsmProvider.cs:589-591 | none exactly when no structure is a candidate; otherwise the first candidate |
| RingAssembly.Seal | SharpOSM/SharpOSM/OsmProvider.cs:618-619 | sealing stores the way and ring in the seed and changes no other structure |
| RingAssembly.Seed | SharpOSM/SharpOSM/OsmProvider.cs:603-678 | one round assigns the seed, so the unassigned count strictly drops; a closed outcome is a closed ring |
| RingAssembly.Merge | SharpOSM/SharpOSM/OsmProvider.cs:583-680 | only assignment changes structures; the merged ids are new, distinct and recorded as consumed; every merged structure is closed and assembled; at most as many as got assigned |
| RingAssembly.MergeStep | SharpOSM/SharpOSM/OsmProvider.cs:598-608 | a seed whose id is checked unconsumed and then recorded keeps the merged ids fresh |
| Provider.PartsFrom | SharpOSM/SharpOSM/OsmProvider.cs:516-541 | every Part structure whose way exists is consumed, each emitted part is the way's green part with fresh id, and it always finishes |
| Provider.AddHoles | SharpOSM/SharpOSM/OsmProvider.cs:568-574 | the outline is kept, and a hole is added exactly when Intersects reports the outer polygon contains it |
| Provider.HoleAssignment | SharpOSM/SharpOSM/OsmProvider.cs:568-574 | an inner ring becomes a hole exactly when both are non-empty and the outer polygon contains every point of the inner one |
| Provider.OuterParts | SharpOSM/SharpOSM/OsmProvider.cs:561-576 | one part per merged outer ring, with the ring's id; each is light green with a closed multipolygon footprint and is the ring's way tags applied on copies of the relation's data, with the inner rings tried as holes |
| Provider.Multipolygon | SharpOSM/SharpOSM/OsmProvider.cs:550-577 | if merging the inner rings loops or throws, nothing is emitted and the stage ends the same way; otherwise every emitted part is an assembled outer ring's way tags applied on copies of the relation's parsed part and roof data, with the merged inner rings tried as holes; every part has a closed multipolygon footprint, is light green and has a fresh id |
| Provider.MultipolygonHoles | SharpOSM/SharpOSM/OsmProvider.cs:556-574 | the holes of each emitted part are exactly the merged inner rings whose every point its outline contains |
| Provider.CompoundStage | SharpOSM/SharpOSM/OsmProvider.cs:457-473 | the stage for a kind only assigns structures and emits fresh ids |
| Provider.CompoundRun | SharpOSM/SharpOSM/OsmProvider.cs:455-486 | a compound and its related compounds keep the dictionary's keys and emit fresh ids |
| Provider.RelationsRun | SharpOSM/SharpOSM/OsmProvider.cs:475-485 | following the related compounds keeps the keys and emits fresh ids |
| Provider.CompoundsRun | SharpOSM/SharpOSM/OsmProvider.cs:493-505 | the stage over all compounds of one kind keeps the keys and emits fresh ids |
| Provider.CompoundStages | SharpOSM/SharpOSM/OsmProvider.cs:256-274 | the three compound stages together emit distinct ids |
| Provider.ParseSimple | SharpOSM/SharpOSM/OsmProvider.cs:319-345 | every visible, unconsumed way keyed with a value other than "no" is consumed; each emitted simple is such a way, in its colour, with a fresh id |
| Provider.ParseSimpleComplete | SharpOSM/SharpOSM/OsmProvider.cs:319-345 | every selected way not consumed beforehand is emitted |
| Provider.Clear | SharpOSM/SharpOSM/OsmProvider.cs:364-371 | a building is kept exactly when Intersects is 0 against every part |
| Provider.Keep | SharpOSM/SharpOSM/OsmProvider.cs:360-394 | only clear buildings are kept; without a throw, every clear building is kept |
| Provider.KeepFresh | SharpOSM/SharpOSM/OsmProvider.cs:360-394 | dropping buildings keeps the emitted ids fresh |
| Provider.ParseSimples | SharpOSM/SharpOSM/OsmProvider.cs:351-395 | parts are building:part ways in light blue; buildings are building ways in blue that contain no vertex of any part (Intersects is 0 against every part); all ids are fresh; both keys' ways are consumed |
| Provider.BuildingKeptIff | SharpOSM/SharpOSM/OsmProvider.cs:360-394 | without a throw, a building is emitted exactly when it contains no vertex of any part (Intersects is 0 against every part) |
| Provider.BarCrossingKept | SharpOSM/SharpOSM/OsmProvider.cs:366-367 | example: a part crossing a building with every corner outside it leaves the building clear, although the two overlap |
| Provider.SimpleParts | SharpOSM/SharpOSM/OsmProvider.cs:277-280 | one building part per simple, under the simple's id |
| Provider.Buildings | SharpOSM/SharpOSM/OsmProvider.cs:253-280 | no id is emitted twice; a repeated relation id throws before anything is emitted |
| Provider.TreeTags | SharpOSM/SharpOSM/OsmProvider.cs:208-219 | a node yields no tree exactly when it has no natural=tree tag |
| Provider.Trees | SharpOSM/SharpOSM/OsmProvider.cs:206-247 | every tree is green, with no mesh yet |
| Provider.TreesAppend | SharpOSM/SharpOSM/OsmProvider.cs:208-219 | trees of a concatenation of node lists are the trees of each in turn |
| Provider.TreesOfNode | SharpOSM/SharpOSM/OsmProvider.cs:208-219 | a visible node yields one tree per natural=tree tag, all alike; an invisible one yields none |
| CsgMesh.ReversedInvolution | csg/csg/Mesh.cs:112-137 | reversing each triangle's corners twice gives the original face list |
| CsgMesh.CsgAccumulatedIsReversed | csg/csg/Mesh.cs:112-137 | csg's accumulation is SharpOSM's over the face list with every triangle's corners reversed |
| CsgMesh.CsgNormalsAreReversed | csg/csg/Mesh.cs:112-137 | csg's normals are SharpOSM's normals of the reversed face list |
| CsgMesh.CsgNormalsOf | csg/csg/Mesh.cs:112-137 | one normal per vertex |
| CsgMesh.ComputeNormals | csg/csg/Mesh.cs:112-137 | null for null input; a throw exactly when faces are badly indexed; otherwise csg's reference normals |
| CsgMesh.NewCsgMesh | csg/csg/Mesh.cs:149-155 | none exactly when a face index is out of range, where the constructor throws; otherwise it stores vertices, faces and colours, with one normal per vertex |
| CsgMesh.BodyVertices | csg/csg/SharpGLForm.cs:47-53 | two vertices per footprint point |
| CsgMesh.BodyFaces | csg/csg/SharpGLForm.cs:55-65 | n - 1 quads of six entries for n points |
| CsgMesh.BodyFacesShape | csg/csg/SharpGLForm.cs:55-65 | quad q joins bottom and top of points q and q + 1 |
| CsgMesh.BodyFacesIndexed | csg/csg/SharpGLForm.cs:55-65 | every body face entry names a vertex |
| CsgMesh.ComputeBody | csg/csg/SharpGLForm.cs:41-69 | the extruded body has the body vertices and faces, all in the given colour, with normals and well-indexed faces |
| CsgMesh.BottomPoints | csg/csg/Mesh.cs:64-68 | every second vertex, from the first, is a bottom point with its x and z |
| CsgMesh.BodyOutline | csg/csg/Mesh.cs:64-68 | the bottom points of an extruded body are its footprint with y negated |
| CsgMesh.CapFaces | csg/csg/Mesh.cs:78-91 | six entries per triangle |
| CsgMesh.CapSlice | csg/csg/Mesh.cs:78-91 | triangle t's six entries are the slice from 6t, in the order the loop adds them |
| CsgMesh.CapBottomCorners | csg/csg/Mesh.cs:84-86 | each bottom corner of a cap triangle is vertex 2i of its outline point |
| CsgMesh.CapTopMirrorsBottom | csg/csg/Mesh.cs:84-90 | each top triangle is the bottom one raised by one vertex, corners reversed |
| CsgMesh.CapIndexed | csg/csg/Mesh.cs:64-91 | with an even vertex count, every cap face entry names a vertex |
| CsgMesh.CapOddOverruns | csg/csg/Mesh.cs:64-91 | example: with seven vertices a top corner index reaches 7, past the end |
| CsgMesh.Recolor | csg/csg/Mesh.cs:91-94 | the writes succeed exactly when there are no triangles or every top corner is in range; then exactly the top corners get the colour |
| CsgMesh.Cap | csg/csg/Mesh.cs:55-105 | vertices never change; fewer than six vertices, a null face array or a failed triangulation is a no-op; faces and normals change only when every colour write succeeded, new faces being the old ones followed by the cap faces and new normals recomputed over well-indexed faces; colours change only to the recoloured top corners |
| CsgMesh.CapCompletes | csg/csg/Mesh.cs:72-98 | when nothing throws, faces gain the cap faces, colours are recoloured and normals recomputed |
| CsgMesh.CapBody | csg/csg/SharpGLForm.cs:131-135 | capping an extruded body gives body plus cap faces, 6(n - 1) + 6 per triangle entries, all indexed, with normals recomputed |
| CsgMesh.BodyCapIndexed | csg/csg/Mesh.cs:64-91 | body and cap faces of a triangulated footprint together name only vertices of the body |

## Left out

- Loading the document: XML parsing, the HTTP request, `Load` and `BBox` (OsmProvider.cs:907-972) are I/O. A document is a value of `Document.Doc`.
- The Mercator projection (`MercatorHelper.ToMeters`, minus the tile centre) is the `Frame` parameter.
- Poly2Tri triangulation is a parameter returning triangles or a failure. Its triangles are not checked to cover the polygon. Of the `Polygon` constructor, only its rejection of fewer than three points is modelled; its dropping of a repeated last point changes only what the triangulator is given.
- `Vector3.Normalize` is the `unit` parameter, since floating point is left out. Coordinates are reals.
- `ColorTranslator.FromHtml` is `Colors.Html`, a constructor that keeps the code string. Malformed codes do not throw.
- `Random.Next` is the `HeightDraw` parameter.
- Attributes.ParsePart: every part and roof parse of one `Buildings` call shares one draw, where the source creates a new generator each time.
- `Polygon.Clip`, the Clipper conversions and csg's `Mesh.Substract` are foreign code. They are not part of this model.
- `RandomColorSelector`, the `#if DEBUG` dump of leftover ways, `LoadModel`, `SharpOsm.cs` and the GL forms are UI or debugging.
- `Numbers.MatchFloat` reads only plain decimals. Exponents, group separators, currency signs and the special values that `NumberStyles.Any` accepts are not modelled. Values are exact rationals rather than `float`.
- `ShapeData.ParseEnum` matches member names only. `Enum.TryParse` also accepts numerals and comma-separated flag lists.
- `Text.Lower` lower-cases ASCII letters only; other letters are unchanged.
- Provider.CompoundRun: recursion through related compounds has a `fuel` bound. Running out stands for the stack overflow that a cycle of relations causes in the source.
- Provider.Buildings: the list of consumed way ids is modelled as a set. The source only ever asks whether an id is in it.
- `CompoundType.None` is never filed and has no stage.
- CsgMesh.Cap: the triangulator's corner indices are trusted to be points of the polygon. `TrisIn` is a premise of the lemmas, not a check in `Cap`.
- `NaturalData.species` is never set by any tag. The model keeps it as a field that only the default fills.

=== FILE: attributes.dfy ===
/**
 * How OsmProvider.cs turns tags into attribute records: `MatchColor`, the
 * two `Parse` overloads for `PartData` and `RoofData` with the height
 * estimation rule, `ParsePart`, `ParseRoof`, and the tag handling of
 * `Natural()`. Tags are applied in document order, so a later tag for the
 * same field overrides an earlier one; keys are compared after
 * lower-casing, values as written.
 */
module Attributes {
  import opened Wrappers
  import Text
  import Colors
  import Numbers
  import opened ShapeData
  import opened Document

  const DefaultTreeCircumference: real := 6.0
  const DefaultTreeHeight: real := 10.0
  const DefaultBuildingColor: Colors.Color := Colors.LightSlateGray
  const DefaultRoofColor: Colors.Color := Colors.LightGray
  const DefaultBuildingHeight: real := 15.0
  const DefaultFloorHeight: real := 3.5

  /**
   * The height drawn when a volume has neither a height nor levels:
   * `rnd.Next((int)(15 - 3.5), (int)(15 + 3.5))`, an integer from 11 up to
   * but excluding 18. The draw is a parameter.
   */
  type HeightDraw = x: int | 11 <= x < 18 witness 11

  function NotSpace(c: char): bool
  {
    c != ' '
  }

  /** The dictionary key MatchColor looks up: the value without spaces, lower-cased. */
  function ColorKey(str: string): string
  {
    Text.Lower(Text.Filter(str, NotSpace))
  }

  /**
   * `MatchColor`: a value starting with '#' is an HTML colour code; anything
   * else names a keyword once spaces are dropped and letters lower-cased;
   * an unknown name gives the default building colour.
   */
  function MatchColor(str: string): (c: Colors.Color)
    ensures |str| > 0 && str[0] == '#' ==> c == Colors.Html(str)
    ensures !(|str| > 0 && str[0] == '#') ==>
      (c == DefaultBuildingColor <==> Colors.Code(ColorKey(str)).None?)
    ensures !(|str| > 0 && str[0] == '#') && Colors.Code(ColorKey(str)).Some? ==>
      c == Colors.Html(Colors.Code(ColorKey(str)).value)
  {
    if |str| > 0 && str[0] == '#' then Colors.Html(str)
    else
      var code := Colors.Code(ColorKey(str));
      if code.Some? then Colors.Html(code.value) else DefaultBuildingColor
  }

  /** A key of the table is its own dictionary key: no space, nothing to lower-case. */
  lemma KeyIsOwnColorKey(k: string)
    requires Colors.KeyShape(k)
    ensures ColorKey(k) == k
  {
    assert Text.Filter(k, NotSpace) == k;
  }

  /** Every keyword of the table is reachable: its name gives its code. */
  lemma MatchColorKeyword(e: (string, string))
    requires e in Colors.Keywords
    ensures MatchColor(e.0) == Colors.Html(e.1)
  {
    Colors.CodeOfEntry(e);
    KeyIsOwnColorKey(e.0);
    assert Colors.KeyShape(e.0);
  }

  /**
   * A value that normalises to a keyword gives that keyword's colour,
   * whatever its spacing and letter case.
   */
  lemma MatchColorNormalised(str: string, e: (string, string))
    requires e in Colors.Keywords && ColorKey(str) == e.0
    ensures MatchColor(str) == Colors.Html(e.1)
  {
    Colors.CodeOfEntry(e);
    ColorKeyHead(str);
  }

  /** A leading '#' survives the space filter and lower-casing. */
  lemma ColorKeyHead(str: string)
    ensures |str| > 0 && str[0] == '#' ==> |ColorKey(str)| > 0 && ColorKey(str)[0] == '#'
  {
    if |str| > 0 && str[0] == '#' {
      assert Text.Filter(str, NotSpace)[0] == '#';
    }
  }

  /** Spacing and letter case do not matter: "Light Gray" is the keyword lightgray. */
  lemma MatchColorSpaced()
    ensures MatchColor("Light Gray") == Colors.Html("#D3D3D3")
  {
    ColorKeySpaced();
    Colors.CodeLightgray();
  }

  lemma ColorKeySpaced()
    ensures ColorKey("Light Gray") == "lightgray"
  {
    FilterSpaces();
    LowerLightGray();
  }

  lemma LowerLightGray()
    ensures Text.Lower("LightGray") == "lightgray"
  {
  }

  lemma FilterSpaces()
    ensures Text.Filter("Light Gray", NotSpace) == "LightGray"
  {
    assert forall i :: 0 <= i < |"Light"| ==> NotSpace("Light"[i]);
    assert forall i :: 0 <= i < |"Gray"| ==> NotSpace("Gray"[i]);
    Text.FilterDropsOne("Light", ' ', "Gray", NotSpace);
    assert "Light" + [' '] + "Gray" == "Light Gray";
    assert "Light" + "Gray" == "LightGray";
  }

  /** A value that is no code and whose key is no keyword gives the default building colour. */
  lemma MatchColorUnknown(str: string)
    requires !(|str| > 0 && str[0] == '#')
    requires forall i :: 0 <= i < |Colors.Keywords| ==> Colors.Keywords[i].0 != ColorKey(str)
    ensures MatchColor(str) == DefaultBuildingColor
  {
  }

  /** An unknown name such as "zzz" falls back to light slate gray. */
  lemma MatchColorZzz()
    ensures MatchColor("zzz") == DefaultBuildingColor
  {
    assert Colors.KeyShape("zzz");
    KeyIsOwnColorKey("zzz");
    Colors.CodeUnknown();
  }

  /** A keyword and its own HTML code name the same colour. */
  lemma MatchColorCodeOrName()
    ensures MatchColor("#D3D3D3") == MatchColor("lightgray")
  {
    Colors.CodeLightgray();
    assert Colors.KeyShape("lightgray");
    KeyIsOwnColorKey("lightgray");
  }

  /** The `PartData` field a tag key sets, after lower-casing; `Other` keys are ignored. */
  datatype PartKey = Name | Height | MinHeight | Levels | MinLevel | Colour | Material | Shape | Other

  function PartKeyOf(k: string): PartKey
  {
    var key := Text.Lower(k);
    if key == "name" then Name
    else if key == "height" || key == "building:height" then Height
    else if key == "min_height" || key == "building:min_height" then MinHeight
    else if key == "levels" || key == "building:levels" || key == "building:levels:aboveground" then Levels
    else if key == "min_levels" || key == "building:min_levels" then MinLevel
    else if key == "building:colour" || key == "building:facade:colour" then Colour
    else if key == "building:material" then Material
    else if key == "building:shape" then Shape
    else Other
  }

  /** One iteration of the tag loop of `Parse(node, ref part)`. */
  function ApplyPartTag(p: PartData, t: Tag): PartData
  {
    match PartKeyOf(t.k)
    case Name => p.(name := Some(t.v))
    case Height => p.(height := Numbers.MatchFloat(Some(t.v)).1)
    case MinHeight => p.(min_height := Numbers.MatchFloat(Some(t.v)).1)
    case Levels => p.(levels := Numbers.MatchShort(t.v).1)
    case MinLevel => p.(min_level := Numbers.MatchShort(t.v).1)
    case Colour => p.(surface := p.surface.(color := MatchColor(t.v)))
    case Material => p.(surface := p.surface.(material := Some(t.v)))
    case Shape => p.(shape := BuildingShapeOf(t.v))
    case Other => p
  }

  /** The tag loop: every tag applied, first to last. */
  function ApplyPartTags(p: PartData, tags: seq<Tag>): (q: PartData)
    ensures q.volume == p.volume
    decreases |tags|
  {
    if |tags| == 0 then p else ApplyPartTags(ApplyPartTag(p, tags[0]), tags[1..])
  }

  /**
   * The height estimation rule: a volume whose height is still 0 gets
   * 3.5 per level (levels counted from `min_level + levels`), or the draw
   * when that count is not positive.
   */
  function EstimateHeight(p: PartData, draw: HeightDraw): (q: PartData)
    ensures q == p.(height := q.height)
    ensures q.volume ==> q.height != 0.0
    ensures p.height != 0.0 || !p.volume ==> q == p
    ensures p.volume && p.height == 0.0 && p.min_level + p.levels <= 0 ==> 11.0 <= q.height < 18.0
  {
    if p.volume && p.height == 0.0 then
      var levels := p.min_level + p.levels;
      if levels > 0 then p.(height := levels as real * DefaultFloorHeight)
      else p.(height := draw as real)
    else p
  }

  /** `Parse(node, ref part)`: the tags applied onto `p`, then the height estimation rule. */
  function ParsePartData(tags: seq<Tag>, p: PartData, draw: HeightDraw): PartData
  {
    EstimateHeight(ApplyPartTags(p, tags), draw)
  }

  /** `ParsePart(node)`: a volume with no shape and the default building colour, parsed from the tags. */
  function ParsePart(tags: seq<Tag>, draw: HeightDraw): (p: PartData)
    ensures p.volume && p.height != 0.0
  {
    ParsePartData(tags, DefaultPart.(volume := true, surface := Surface(DefaultBuildingColor, Option.None)), draw)
  }

  /** Whether some tag sets the given field. */
  predicate SetsPart(tags: seq<Tag>, key: PartKey)
  {
    exists i :: 0 <= i < |tags| && PartKeyOf(tags[i].k) == key
  }

  /** Applying tags one list after another is applying the concatenation. */
  lemma {:induction false} ApplyPartTagsAppend(p: PartData, a: seq<Tag>, b: seq<Tag>)
    ensures ApplyPartTags(p, a + b) == ApplyPartTags(ApplyPartTags(p, a), b)
    decreases |a|
  {
    if |a| > 0 {
      assert (a + b)[0] == a[0];
      assert (a + b)[1..] == a[1..] + b;
      ApplyPartTagsAppend(ApplyPartTag(p, a[0]), a[1..], b);
    } else {
      assert a + b == b;
    }
  }

  /** The last tag applied decides its field: a later tag overrides an earlier one. */
  lemma LastPartTagWins(p: PartData, tags: seq<Tag>, t: Tag)
    ensures ApplyPartTags(p, tags + [t]) == ApplyPartTag(ApplyPartTags(p, tags), t)
  {
    ApplyPartTagsAppend(p, tags, [t]);
  }

  /** `q` has the same value as `p` in the field `key` names. */
  predicate KeepsField(q: PartData, p: PartData, key: PartKey)
  {
    match key
    case Name => q.name == p.name
    case Height => q.height == p.height
    case MinHeight => q.min_height == p.min_height
    case Levels => q.levels == p.levels
    case MinLevel => q.min_level == p.min_level
    case Colour => q.surface.color == p.surface.color
    case Material => q.surface.material == p.surface.material
    case Shape => q.shape == p.shape
    case Other => true
  }

  /** A field no tag sets keeps the value it came in with. */
  lemma {:induction false} PartFieldKept(p: PartData, tags: seq<Tag>, key: PartKey)
    requires !SetsPart(tags, key)
    ensures KeepsField(ApplyPartTags(p, tags), p, key)
    decreases |tags|
  {
    if |tags| > 0 {
      var q := ApplyPartTag(p, tags[0]);
      assert PartKeyOf(tags[0].k) != key;
      assert KeepsField(q, p, key);
      forall i | 0 <= i < |tags| - 1
        ensures PartKeyOf(tags[1..][i].k) != key
      {
        assert tags[1..][i] == tags[i + 1];
      }
      PartFieldKept(q, tags[1..], key);
    }
  }

  /** A string without upper-case letters is its own lower-case form. */
  lemma LowerFixed(s: string)
    requires forall i :: 0 <= i < |s| ==> !('A' <= s[i] <= 'Z')
    ensures Text.Lower(s) == s
  {
  }

  /** Keys are matched in any letter case. */
  lemma PartKeyAnyCase(k: string)
    ensures PartKeyOf(Text.Lower(k)) == PartKeyOf(k)
  {
    Text.LowerIdempotent(k);
  }

  /**
   * The estimation rule for a volume left without a height: 3.5 per level
   * when `min_level + levels` is positive, otherwise the draw; a height
   * given by a tag (or inherited) is kept.
   */
  lemma HeightEstimation(tags: seq<Tag>, p: PartData, draw: HeightDraw)
    ensures var a := ApplyPartTags(p, tags);
      var q := ParsePartData(tags, p, draw);
      && (a.height != 0.0 ==> q.height == a.height)
      && (a.volume && a.height == 0.0 && a.min_level + a.levels > 0 ==>
            q.height == (a.min_level + a.levels) as real * 3.5)
      && (a.volume && a.height == 0.0 && a.min_level + a.levels <= 0 ==>
            (DefaultBuildingHeight - DefaultFloorHeight).Floor as real <= q.height
            && q.height < (DefaultBuildingHeight + DefaultFloorHeight).Floor as real)
  {
  }

  /** A part without tags: default colour, no shape, no levels, so the drawn height. */
  lemma ParsePartUntagged(draw: HeightDraw)
    ensures ParsePart([], draw).surface.color == DefaultBuildingColor
    ensures ParsePart([], draw).shape == BuildingShape.None
    ensures ParsePart([], draw).height == draw as real
  {
  }

  /** A height tag that does not read as a number sets the height to 0, so the estimation rule applies. */
  lemma UnreadableHeightEstimated(p: PartData, v: string, draw: HeightDraw)
    requires p.volume && !Numbers.MatchFloat(Some(v)).0
    ensures ApplyPartTags(p, [Tag("height", v)]).height == 0.0
    ensures ParsePartData([Tag("height", v)], p, draw).height != 0.0
  {
    assert Text.Lower("height") == "height";
  }

  /** The `RoofData` field a tag key sets, after lower-casing. */
  datatype RoofKey = RoofShapeKey | RoofColour | RoofMaterial | RoofOther

  function RoofKeyOf(k: string): RoofKey
  {
    var key := Text.Lower(k);
    if key == "roof:shape" then RoofShapeKey
    else if key == "roof:colour" then RoofColour
    else if key == "roof:material" then RoofMaterial
    else RoofOther
  }

  function ApplyRoofTag(r: RoofData, t: Tag): RoofData
  {
    match RoofKeyOf(t.k)
    case RoofShapeKey => r.(shape := RoofShapeOf(t.v))
    case RoofColour => r.(surface := r.surface.(color := MatchColor(t.v)))
    case RoofMaterial => r.(surface := r.surface.(material := Some(t.v)))
    case RoofOther => r
  }

  /** `Parse(node, ref roof)`: every tag applied, first to last. */
  function ParseRoofData(tags: seq<Tag>, r: RoofData): RoofData
  {
    if |tags| == 0 then r else ParseRoofData(tags[1..], ApplyRoofTag(r, tags[0]))
  }

  /** `ParseRoof(node)`: no shape and the default roof colour, then the tags. */
  function ParseRoof(tags: seq<Tag>): RoofData
  {
    ParseRoofData(tags, DefaultRoof.(surface := Surface(DefaultRoofColor, Option.None)))
  }

  predicate SetsRoof(tags: seq<Tag>, key: RoofKey)
  {
    exists i :: 0 <= i < |tags| && RoofKeyOf(tags[i].k) == key
  }

  /**
   * Only shape, colour and material come from tags: every other roof
   * field keeps its value, and so do those three when no tag sets them.
   */
  lemma {:induction false} RoofFieldsKept(tags: seq<Tag>, r: RoofData)
    ensures var q := ParseRoofData(tags, r);
      q.orientation == r.orientation && q.height == r.height && q.angle == r.angle
      && q.levels == r.levels && q.direction == r.direction
    ensures !SetsRoof(tags, RoofShapeKey) ==> ParseRoofData(tags, r).shape == r.shape
    ensures !SetsRoof(tags, RoofColour) ==> ParseRoofData(tags, r).surface.color == r.surface.color
    ensures !SetsRoof(tags, RoofMaterial) ==> ParseRoofData(tags, r).surface.material == r.surface.material
  {
    if |tags| > 0 {
      RoofFieldsKept(tags[1..], ApplyRoofTag(r, tags[0]));
      forall key | SetsRoof(tags[1..], key)
        ensures SetsRoof(tags, key)
      {
        var i :| 0 <= i < |tags[1..]| && RoofKeyOf(tags[1..][i].k) == key;
        assert tags[i + 1] == tags[1..][i];
      }
      assert RoofKeyOf(tags[0].k) == RoofKeyOf(tags[0].k) && 0 < |tags|;
    }
  }

  /**
   * A roof without a colour tag is light gray, but a colour tag naming no
   * keyword gives the building default, light slate gray.
   */
  lemma RoofColours(v: string)
    requires !(|v| > 0 && v[0] == '#')
    requires forall i :: 0 <= i < |Colors.Keywords| ==> Colors.Keywords[i].0 != ColorKey(v)
    ensures ParseRoof([]).surface.color == Colors.LightGray
    ensures ParseRoof([Tag("roof:colour", v)]).surface.color == Colors.LightSlateGray
  {
    MatchColorUnknown(v);
    RoofColourTag(DefaultRoof.(surface := Surface(DefaultRoofColor, Option.None)), v);
  }

  /** "zzz" names no colour, so a roof tagged with it is light slate gray. */
  lemma RoofColourUnknown()
    ensures ParseRoof([Tag("roof:colour", "zzz")]).surface.color == Colors.LightSlateGray
  {
    MatchColorZzz();
    RoofColourTag(DefaultRoof.(surface := Surface(DefaultRoofColor, Option.None)), "zzz");
  }

  /** A single roof:colour tag sets the roof colour to what MatchColor makes of its value. */
  lemma RoofColourTag(r: RoofData, v: string)
    ensures ParseRoofData([Tag("roof:colour", v)], r).surface.color == MatchColor(v)
  {
    LowerFixed("roof:colour");
    assert RoofKeyOf("roof:colour") == RoofColour;
    var t := Tag("roof:colour", v);
    assert [t][1..] == [];
    assert ParseRoofData([t], r) == ParseRoofData([], ApplyRoofTag(r, t));
  }

  /** The `NaturalData` field a tag key sets, after lower-casing. */
  datatype NaturalKey = Genus | LeafType | Circumference | TreeHeight | NaturalOther

  function NaturalKeyOf(k: string): NaturalKey
  {
    var key := Text.Lower(k);
    if key == "genus" then Genus
    else if key == "leaf_type" then LeafType
    else if key == "circumference" then Circumference
    else if key == "height" then TreeHeight
    else NaturalOther
  }

  function ApplyNaturalTag(d: NaturalData, t: Tag): NaturalData
  {
    match NaturalKeyOf(t.k)
    case Genus => d.(genus := Some(t.v))
    case LeafType => d.(leaf_type := Some(t.v))
    case Circumference => d.(circumference := Numbers.MatchFloat(Some(t.v)).1)
    case TreeHeight => d.(height := Numbers.MatchFloat(Some(t.v)).1)
    case NaturalOther => d
  }

  function ApplyNaturalTags(d: NaturalData, tags: seq<Tag>): NaturalData
    decreases |tags|
  {
    if |tags| == 0 then d else ApplyNaturalTags(ApplyNaturalTag(d, tags[0]), tags[1..])
  }

  /** The tree data of `Natural()`: default circumference and height, then the node's tags. */
  function ParseTree(tags: seq<Tag>): NaturalData
  {
    ApplyNaturalTags(DefaultNatural.(circumference := DefaultTreeCircumference, height := DefaultTreeHeight), tags)
  }

  predicate SetsNatural(tags: seq<Tag>, key: NaturalKey)
  {
    exists i :: 0 <= i < |tags| && NaturalKeyOf(tags[i].k) == key
  }

  /**
   * Tree fields no tag sets keep their defaults (6 and 10 for circumference
   * and height); no tag ever sets the species.
   */
  lemma {:induction false} TreeDefaults(d: NaturalData, tags: seq<Tag>)
    ensures ApplyNaturalTags(d, tags).species == d.species
    ensures !SetsNatural(tags, Genus) ==> ApplyNaturalTags(d, tags).genus == d.genus
    ensures !SetsNatural(tags, LeafType) ==> ApplyNaturalTags(d, tags).leaf_type == d.leaf_type
    ensures !SetsNatural(tags, Circumference) ==> ApplyNaturalTags(d, tags).circumference == d.circumference
    ensures !SetsNatural(tags, TreeHeight) ==> ApplyNaturalTags(d, tags).height == d.height
    decreases |tags|
  {
    if |tags| > 0 {
      TreeDefaults(ApplyNaturalTag(d, tags[0]), tags[1..]);
      forall key | SetsNatural(tags[1..], key)
        ensures SetsNatural(tags, key)
      {
        var i :| 0 <= i < |tags[1..]| && NaturalKeyOf(tags[1..][i].k) == key;
        assert tags[i + 1] == tags[1..][i];
      }
      assert NaturalKeyOf(tags[0].k) == NaturalKeyOf(tags[0].k) && 0 < |tags|;
    }
  }

  /** A tree tag "height" that does not read as a number leaves height 0, not the default. */
  lemma UnreadableTreeHeight(v: string)
    requires !Numbers.MatchFloat(Some(v)).0
    ensures ParseTree([Tag("height", v)]).height == 0.0
    ensures ParseTree([]).height == DefaultTreeHeight
  {
    LowerFixed("height");
    assert NaturalKeyOf("height") == TreeHeight;
    var d := DefaultNatural.(circumference := DefaultTreeCircumference, height := DefaultTreeHeight);
    var t := Tag("height", v);
    assert [t][1..] == [];
    assert ParseTree([t]) == ApplyNaturalTags(d, [t]);
    assert ApplyNaturalTags(d, [t]) == ApplyNaturalTags(ApplyNaturalTag(d, t), []);
    assert ApplyNaturalTag(d, t).height == 0.0;
  }
}

=== FILE: colors.dfy ===
/**
 * The keyword table of OsmColors.cs (`OsmColor.Keywords`): colour names to
 * HTML colour codes, together with the facts MatchColor relies on: every key
 * is made of lower-case letters only (so lower-casing and stripping spaces
 * maps the key to itself) and no key occurs twice (so the dictionary
 * initializer does not throw).
 */
module Colors {
  import opened Wrappers
  import Text

  /**
   * A System.Drawing colour: a named constant such as `Color.Green`, or the
   * result of `ColorTranslator.FromHtml(code)`, whose decoding is not modelled.
   */
  datatype Color = Named(name: string) | Html(code: string)

  const Green: Color := Named("Green")
  const LightGreen: Color := Named("LightGreen")
  const Blue: Color := Named("Blue")
  const LightBlue: Color := Named("LightBlue")
  const LightGray: Color := Named("LightGray")
  const LightSlateGray: Color := Named("LightSlateGray")

  // The table in source order, cut into rows of five entries.
  const Row00: seq<(string, string)> :=
    [("aliceblue", "#F0F8FF"), ("antiquewhite", "#FAEBD7"), ("aqua", "#00FFFF"), ("aquamarine", "#7FFFD4"), ("azure", "#F0FFFF")]
  const Row01: seq<(string, string)> :=
    [("beige", "#F5F5DC"), ("bisque", "#FFE4C4"), ("black", "#000000"), ("blanchedalmond", "#FFEBCD"), ("blue", "#0000FF")]
  const Row02: seq<(string, string)> :=
    [("blueviolet", "#8A2BE2"), ("brown", "#A52A2A"), ("burlywood", "#DEB887"), ("cadetblue", "#5F9EA0"), ("chartreuse", "#7FFF00")]
  const Row03: seq<(string, string)> :=
    [("chocolate", "#D2691E"), ("coral", "#FF7F50"), ("cornflowerblue", "#6495ED"), ("cornsilk", "#FFF8DC"), ("crimson", "#DC143C")]
  const Row04: seq<(string, string)> :=
    [("cyan", "#00FFFF"), ("darkblue", "#00008B"), ("darkcyan", "#008B8B"), ("darkgoldenrod", "#B8860B"), ("darkgray", "#A9A9A9")]
  const Row05: seq<(string, string)> :=
    [("darkgreen", "#006400"), ("darkgrey", "#A9A9A9"), ("darkkhaki", "#BDB76B"), ("darkmagenta", "#8B008B"), ("darkolivegreen", "#556B2F")]
  const Row06: seq<(string, string)> :=
    [("darkorange", "#FF8C00"), ("darkorchid", "#9932CC"), ("darkred", "#8B0000"), ("darksalmon", "#E9967A"), ("darkseagreen", "#8FBC8F")]
  const Row07: seq<(string, string)> :=
    [("darkslateblue", "#483D8B"), ("darkslategray", "#2F4F4F"), ("darkslategrey", "#2F4F4F"), ("darkturquoise", "#00CED1"), ("darkviolet", "#9400D3")]
  const Row08: seq<(string, string)> :=
    [("deeppink", "#FF1493"), ("deepskyblue", "#00BFFF"), ("dimgray", "#696969"), ("dimgrey", "#696969"), ("dodgerblue", "#1E90FF")]
  const Row09: seq<(string, string)> :=
    [("firebrick", "#B22222"), ("floralwhite", "#FFFAF0"), ("forestgreen", "#228B22"), ("fuchsia", "#FF00FF"), ("gainsboro", "#DCDCDC")]
  const Row10: seq<(string, string)> :=
    [("ghostwhite", "#F8F8FF"), ("gold", "#FFD700"), ("goldenrod", "#DAA520"), ("gray", "#808080"), ("green", "#008000")]
  const Row11: seq<(string, string)> :=
    [("greenyellow", "#ADFF2F"), ("grey", "#808080"), ("honeydew", "#F0FFF0"), ("hotpink", "#FF69B4"), ("indianred", "#CD5C5C")]
  const Row12: seq<(string, string)> :=
    [("indigo", "#4B0082"), ("ivory", "#FFFFF0"), ("khaki", "#F0E68C"), ("lavender", "#E6E6FA"), ("lavenderblush", "#FFF0F5")]
  const Row13: seq<(string, string)> :=
    [("lawngreen", "#7CFC00"), ("lemonchiffon", "#FFFACD"), ("lightblue", "#ADD8E6"), ("lightcoral", "#F08080"), ("lightcyan", "#E0FFFF")]
  const Row14: seq<(string, string)> :=
    [("lightgoldenrodyellow", "#FAFAD2"), ("lightgray", "#D3D3D3"), ("lightgreen", "#90EE90"), ("lightgrey", "#D3D3D3"), ("lightpink", "#FFB6C1")]
  const Row15: seq<(string, string)> :=
    [("lightsalmon", "#FFA07A"), ("lightseagreen", "#20B2AA"), ("lightskyblue", "#87CEFA"), ("lightslategray", "#778899"), ("lightslategrey", "#778899")]
  const Row16: seq<(string, string)> :=
    [("lightsteelblue", "#B0C4DE"), ("lightyellow", "#FFFFE0"), ("lime", "#00FF00"), ("limegreen", "#32CD32"), ("linen", "#FAF0E6")]
  const Row17: seq<(string, string)> :=
    [("magenta", "#FF00FF"), ("maroon", "#800000"), ("mediumaquamarine", "#66CDAA"), ("mediumblue", "#0000CD"), ("mediumorchid", "#BA55D3")]
  const Row18: seq<(string, string)> :=
    [("mediumpurple", "#9370DB"), ("mediumseagreen", "#3CB371"), ("mediumslateblue", "#7B68EE"), ("mediumspringgreen", "#00FA9A"), ("mediumturquoise", "#48D1CC")]
  const Row19: seq<(string, string)> :=
    [("mediumvioletred", "#C71585"), ("midnightblue", "#191970"), ("mintcream", "#F5FFFA"), ("mistyrose", "#FFE4E1"), ("moccasin", "#FFE4B5")]
  const Row20: seq<(string, string)> :=
    [("navajowhite", "#FFDEAD"), ("navy", "#000080"), ("oldlace", "#FDF5E6"), ("olive", "#808000"), ("olivedrab", "#6B8E23")]
  const Row21: seq<(string, string)> :=
    [("orange", "#FFA500"), ("orangered", "#FF4500"), ("orchid", "#DA70D6"), ("palegoldenrod", "#EEE8AA"), ("palegreen", "#98FB98")]
  const Row22: seq<(string, string)> :=
    [("paleturquoise", "#AFEEEE"), ("palevioletred", "#DB7093"), ("papayawhip", "#FFEFD5"), ("peachpuff", "#FFDAB9"), ("peru", "#CD853F")]
  const Row23: seq<(string, string)> :=
    [("pink", "#FFC0CB"), ("plum", "#DDA0DD"), ("powderblue", "#B0E0E6"), ("purple", "#800080"), ("red", "#FF0000")]
  const Row24: seq<(string, string)> :=
    [("rosybrown", "#BC8F8F"), ("royalblue", "#4169E1"), ("saddlebrown", "#8B4513"), ("salmon", "#FA8072"), ("sandybrown", "#F4A460")]
  const Row25: seq<(string, string)> :=
    [("seagreen", "#2E8B57"), ("seashell", "#FFF5EE"), ("sienna", "#A0522D"), ("silver", "#C0C0C0"), ("skyblue", "#87CEEB")]
  const Row26: seq<(string, string)> :=
    [("slateblue", "#6A5ACD"), ("slategray", "#708090"), ("slategrey", "#708090"), ("snow", "#FFFAFA"), ("springgreen", "#00FF7F")]
  const Row27: seq<(string, string)> :=
    [("steelblue", "#4682B4"), ("tan", "#D2B48C"), ("teal", "#008080"), ("thistle", "#D8BFD8"), ("tomato", "#FF6347")]
  const Row28: seq<(string, string)> :=
    [("turquoise", "#40E0D0"), ("violet", "#EE82EE"), ("wheat", "#F5DEB3"), ("white", "#FFFFFF"), ("whitesmoke", "#F5F5F5")]
  const Row29: seq<(string, string)> :=
    [("yellow", "#FFFF00"), ("yellowgreen", "#9ACD32")]

  /** The rows in order. */
  const Rows: seq<seq<(string, string)>> :=
    [Row00, Row01, Row02, Row03, Row04, Row05, Row06, Row07, Row08, Row09,
     Row10, Row11, Row12, Row13, Row14, Row15, Row16, Row17, Row18, Row19,
     Row20, Row21, Row22, Row23, Row24, Row25, Row26, Row27, Row28, Row29]

  /** The rows from `k` on, concatenated. */
  function FlattenFrom(rows: seq<seq<(string, string)>>, k: nat): seq<(string, string)>
    decreases |rows| - k
  {
    if k >= |rows| then [] else rows[k] + FlattenFrom(rows, k + 1)
  }

  /** The initializer entries of `OsmColor.Keywords`, in source order. */
  const Keywords: seq<(string, string)> := FlattenFrom(Rows, 0)

  /**
   * A collection initializer: each entry is `Add`ed in turn, and adding a key
   * that is already present throws (None).
   */
  function Initialize(entries: seq<(string, string)>, m: map<string, string>): Option<map<string, string>>
  {
    if |entries| == 0 then Some(m)
    else if entries[0].0 in m then None
    else Initialize(entries[1..], m[entries[0].0 := entries[0].1])
  }

  /** Keys pairwise distinct. */
  predicate DistinctKeys(entries: seq<(string, string)>)
  {
    forall i, j :: 0 <= i < j < |entries| ==> entries[i].0 != entries[j].0
  }

  /** Initialization succeeds exactly when no key repeats, and then maps each key to its entry's value. */
  lemma {:induction false} InitializeDistinct(entries: seq<(string, string)>, m: map<string, string>)
    requires DistinctKeys(entries)
    requires forall i :: 0 <= i < |entries| ==> entries[i].0 !in m
    ensures Initialize(entries, m).Some?
    ensures forall i :: 0 <= i < |entries| ==>
      entries[i].0 in Initialize(entries, m).value && Initialize(entries, m).value[entries[i].0] == entries[i].1
    ensures forall k :: k in Initialize(entries, m).value <==>
      k in m || exists i :: 0 <= i < |entries| && entries[i].0 == k
    ensures forall k :: k in m ==> Initialize(entries, m).value[k] == m[k]
  {
    if |entries| > 0 {
      var rest := entries[1..];
      var m' := m[entries[0].0 := entries[0].1];
      forall i | 0 <= i < |rest|
        ensures rest[i].0 !in m'
      {
        assert rest[i] == entries[i + 1];
      }
      InitializeDistinct(rest, m');
      var r := Initialize(rest, m').value;
      forall k
        ensures k in r <==> k in m || exists i :: 0 <= i < |entries| && entries[i].0 == k
      {
        if k in r && k !in m && k != entries[0].0 {
          var i :| 0 <= i < |rest| && rest[i].0 == k;
          assert entries[i + 1].0 == k;
        }
        if exists i :: 0 <= i < |entries| && entries[i].0 == k {
          var i :| 0 <= i < |entries| && entries[i].0 == k;
          if i > 0 {
            assert rest[i - 1].0 == k;
          }
        }
      }
      forall i | 0 <= i < |entries|
        ensures entries[i].0 in r && r[entries[i].0] == entries[i].1
      {
        if i > 0 {
          assert rest[i - 1] == entries[i];
        } else {
          assert entries[0].0 in m';
        }
      }
    }
  }

  /** Lexicographic order on the suffixes of `a` and `b` from position `i`. */
  predicate LessFrom(a: string, b: string, i: nat)
    decreases |a| - i
  {
    if i >= |a| then i < |b|
    else if i >= |b| then false
    else if a[i] < b[i] then true
    else if a[i] > b[i] then false
    else LessFrom(a, b, i + 1)
  }

  lemma {:induction false} LessFromTransitive(a: string, b: string, c: string, i: nat)
    requires LessFrom(a, b, i) && LessFrom(b, c, i)
    ensures LessFrom(a, c, i)
    decreases |a| - i
  {
    if i < |a| && i < |b| && i < |c| && a[i] == b[i] && b[i] == c[i] {
      LessFromTransitive(a, b, c, i + 1);
    }
  }

  lemma {:induction false} LessFromIrreflexive(a: string, i: nat)
    ensures !LessFrom(a, a, i)
    decreases |a| - i
  {
    if i < |a| {
      LessFromIrreflexive(a, i + 1);
    }
  }

  /** A key MatchColor can produce: non-empty, lower-case ASCII letters only. */
  predicate KeyShape(s: string)
  {
    |s| > 0 && forall i :: 0 <= i < |s| ==> Text.IsLowerLetter(s[i])
  }

  /** From entry `i` on, every key has KeyShape and each key is below the next. */
  predicate WellFrom(t: seq<(string, string)>, i: nat)
    decreases |t| - i
  {
    i >= |t| || (KeyShape(t[i].0) && (i + 1 == |t| || LessFrom(t[i].0, t[i + 1].0, 0)) && WellFrom(t, i + 1))
  }

  lemma {:induction false} WellFromTail(t: seq<(string, string)>, i: nat)
    requires WellFrom(t, 0) && i <= |t|
    ensures WellFrom(t, i)
  {
    if i > 0 {
      var k := 0;
      while k < i
        invariant k <= i && WellFrom(t, k)
      {
        k := k + 1;
      }
    }
  }

  lemma {:induction false} WellFromAppend(a: seq<(string, string)>, b: seq<(string, string)>, i: nat)
    requires i <= |a| && WellFrom(a, i) && WellFrom(b, 0)
    requires |a| > 0 && |b| > 0 ==> LessFrom(a[|a| - 1].0, b[0].0, 0)
    ensures WellFrom(a + b, i)
    decreases |a| - i
  {
    if i == |a| {
      if |b| > 0 {
        WellFromShift(a, b, 0);
      }
    } else {
      WellFromAppend(a, b, i + 1);
      assert (a + b)[i] == a[i];
      if i + 1 < |a| {
        assert (a + b)[i + 1] == a[i + 1];
      } else if |b| > 0 {
        assert (a + b)[i + 1] == b[0];
      }
    }
  }

  lemma {:induction false} WellFromShift(a: seq<(string, string)>, b: seq<(string, string)>, j: nat)
    requires j <= |b| && WellFrom(b, j)
    ensures WellFrom(a + b, |a| + j)
    decreases |b| - j
  {
    if j < |b| {
      WellFromShift(a, b, j + 1);
      assert (a + b)[|a| + j] == b[j];
      if j + 1 < |b| {
        assert (a + b)[|a| + j + 1] == b[j + 1];
      }
    }
  }

  /** In a WellFrom table every earlier key is below every later one. */
  lemma {:induction false} WellFromOrdered(t: seq<(string, string)>, i: nat, j: nat)
    requires WellFrom(t, 0) && i < j < |t|
    ensures LessFrom(t[i].0, t[j].0, 0)
    decreases j - i
  {
    WellFromTail(t, i);
    if j > i + 1 {
      WellFromOrdered(t, i + 1, j);
      LessFromTransitive(t[i].0, t[i + 1].0, t[j].0, 0);
    }
  }

  lemma {:induction false} WellFromKeyShape(t: seq<(string, string)>, i: nat)
    requires WellFrom(t, 0) && i < |t|
    ensures KeyShape(t[i].0)
  {
    WellFromTail(t, i);
  }

  lemma Row00Well()
    ensures WellFrom(Row00, 0)
  {
    assert WellFrom(Row00, 4);
    assert WellFrom(Row00, 3);
    assert WellFrom(Row00, 2);
    assert WellFrom(Row00, 1);
  }

  lemma Row01Well()
    ensures WellFrom(Row01, 0)
  {
    assert WellFrom(Row01, 4);
    assert WellFrom(Row01, 3);
    assert WellFrom(Row01, 2);
    assert WellFrom(Row01, 1);
  }

  lemma Row02Well()
    ensures WellFrom(Row02, 0)
  {
    assert WellFrom(Row02, 4);
    assert WellFrom(Row02, 3);
    assert WellFrom(Row02, 2);
    assert WellFrom(Row02, 1);
  }

  lemma Row03Well()
    ensures WellFrom(Row03, 0)
  {
    assert WellFrom(Row03, 4);
    assert WellFrom(Row03, 3);
    assert WellFrom(Row03, 2);
    assert WellFrom(Row03, 1);
  }

  lemma Row04Well()
    ensures WellFrom(Row04, 0)
  {
    assert WellFrom(Row04, 4);
    assert WellFrom(Row04, 3);
    assert WellFrom(Row04, 2);
    assert WellFrom(Row04, 1);
  }

  lemma Row05Well()
    ensures WellFrom(Row05, 0)
  {
    assert WellFrom(Row05, 4);
    assert WellFrom(Row05, 3);
    assert WellFrom(Row05, 2);
    assert WellFrom(Row05, 1);
  }

  lemma Row06Well()
    ensures WellFrom(Row06, 0)
  {
    assert WellFrom(Row06, 4);
    assert WellFrom(Row06, 3);
    assert WellFrom(Row06, 2);
    assert WellFrom(Row06, 1);
  }

  lemma Row07Well()
    ensures WellFrom(Row07, 0)
  {
    assert WellFrom(Row07, 4);
    assert WellFrom(Row07, 3);
    assert WellFrom(Row07, 2);
    assert WellFrom(Row07, 1);
  }

  lemma Row08Well()
    ensures WellFrom(Row08, 0)
  {
    assert WellFrom(Row08, 4);
    assert WellFrom(Row08, 3);
    assert WellFrom(Row08, 2);
    assert WellFrom(Row08, 1);
  }

  lemma Row09Well()
    ensures WellFrom(Row09, 0)
  {
    assert WellFrom(Row09, 4);
    assert WellFrom(Row09, 3);
    assert WellFrom(Row09, 2);
    assert WellFrom(Row09, 1);
  }

  lemma Row10Well()
    ensures WellFrom(Row10, 0)
  {
    assert WellFrom(Row10, 4);
    assert WellFrom(Row10, 3);
    assert WellFrom(Row10, 2);
    assert WellFrom(Row10, 1);
  }

  lemma Row11Well()
    ensures WellFrom(Row11, 0)
  {
    assert WellFrom(Row11, 4);
    assert WellFrom(Row11, 3);
    assert WellFrom(Row11, 2);
    assert WellFrom(Row11, 1);
  }

  lemma Row12Well()
    ensures WellFrom(Row12, 0)
  {
    assert WellFrom(Row12, 4);
    assert WellFrom(Row12, 3);
    assert WellFrom(Row12, 2);
    assert WellFrom(Row12, 1);
  }

  lemma Row13Well()
    ensures WellFrom(Row13, 0)
  {
    assert WellFrom(Row13, 4);
    assert WellFrom(Row13, 3);
    assert WellFrom(Row13, 2);
    assert WellFrom(Row13, 1);
  }

  lemma Row14Well()
    ensures WellFrom(Row14, 0)
  {
    assert WellFrom(Row14, 4);
    assert WellFrom(Row14, 3);
    assert WellFrom(Row14, 2);
    assert WellFrom(Row14, 1);
  }

  lemma Row15Well()
    ensures WellFrom(Row15, 0)
  {
    assert WellFrom(Row15, 4);
    assert WellFrom(Row15, 3);
    assert WellFrom(Row15, 2);
    assert WellFrom(Row15, 1);
  }

  lemma Row16Well()
    ensures WellFrom(Row16, 0)
  {
    assert WellFrom(Row16, 4);
    assert WellFrom(Row16, 3);
    assert WellFrom(Row16, 2);
    assert WellFrom(Row16, 1);
  }

  lemma Row17Well()
    ensures WellFrom(Row17, 0)
  {
    assert WellFrom(Row17, 4);
    assert WellFrom(Row17, 3);
    assert WellFrom(Row17, 2);
    assert WellFrom(Row17, 1);
  }

  lemma Row18Well()
    ensures WellFrom(Row18, 0)
  {
    assert WellFrom(Row18, 4);
    assert WellFrom(Row18, 3);
    assert WellFrom(Row18, 2);
    assert WellFrom(Row18, 1);
  }

  lemma Row19Well()
    ensures WellFrom(Row19, 0)
  {
    assert WellFrom(Row19, 4);
    assert WellFrom(Row19, 3);
    assert WellFrom(Row19, 2);
    assert WellFrom(Row19, 1);
  }

  lemma Row20Well()
    ensures WellFrom(Row20, 0)
  {
    assert WellFrom(Row20, 4);
    assert WellFrom(Row20, 3);
    assert WellFrom(Row20, 2);
    assert WellFrom(Row20, 1);
  }

  lemma Row21Well()
    ensures WellFrom(Row21, 0)
  {
    assert WellFrom(Row21, 4);
    assert WellFrom(Row21, 3);
    assert WellFrom(Row21, 2);
    assert WellFrom(Row21, 1);
  }

  lemma Row22Well()
    ensures WellFrom(Row22, 0)
  {
    assert WellFrom(Row22, 4);
    assert WellFrom(Row22, 3);
    assert WellFrom(Row22, 2);
    assert WellFrom(Row22, 1);
  }

  lemma Row23Well()
    ensures WellFrom(Row23, 0)
  {
    assert WellFrom(Row23, 4);
    assert WellFrom(Row23, 3);
    assert WellFrom(Row23, 2);
    assert WellFrom(Row23, 1);
  }

  lemma Row24Well()
    ensures WellFrom(Row24, 0)
  {
    assert WellFrom(Row24, 4);
    assert WellFrom(Row24, 3);
    assert WellFrom(Row24, 2);
    assert WellFrom(Row24, 1);
  }

  lemma Row25Well()
    ensures WellFrom(Row25, 0)
  {
    assert WellFrom(Row25, 4);
    assert WellFrom(Row25, 3);
    assert WellFrom(Row25, 2);
    assert WellFrom(Row25, 1);
  }

  lemma Row26Well()
    ensures WellFrom(Row26, 0)
  {
    assert WellFrom(Row26, 4);
    assert WellFrom(Row26, 3);
    assert WellFrom(Row26, 2);
    assert WellFrom(Row26, 1);
  }

  lemma Row27Well()
    ensures WellFrom(Row27, 0)
  {
    assert WellFrom(Row27, 4);
    assert WellFrom(Row27, 3);
    assert WellFrom(Row27, 2);
    assert WellFrom(Row27, 1);
  }

  lemma Row28Well()
    ensures WellFrom(Row28, 0)
  {
    assert WellFrom(Row28, 4);
    assert WellFrom(Row28, 3);
    assert WellFrom(Row28, 2);
    assert WellFrom(Row28, 1);
  }

  lemma Row29Well()
    ensures WellFrom(Row29, 0)
  {
    assert WellFrom(Row29, 1);
  }

  /** From row `k` on: every row is WellFrom, non-empty, and its last key is below the next row's first. */
  predicate RowsWellFrom(rows: seq<seq<(string, string)>>, k: nat)
    decreases |rows| - k
  {
    k >= |rows|
    || (&& |rows[k]| > 0
        && WellFrom(rows[k], 0)
        && (k + 1 == |rows| || (|rows[k + 1]| > 0 && LessFrom(rows[k][|rows[k]| - 1].0, rows[k + 1][0].0, 0)))
        && RowsWellFrom(rows, k + 1))
  }

  lemma {:induction false} FlattenWell(rows: seq<seq<(string, string)>>, k: nat)
    requires RowsWellFrom(rows, k)
    ensures WellFrom(FlattenFrom(rows, k), 0)
    ensures k < |rows| ==> |FlattenFrom(rows, k)| > 0 && FlattenFrom(rows, k)[0] == rows[k][0]
    decreases |rows| - k
  {
    if k < |rows| {
      FlattenWell(rows, k + 1);
      WellFromAppend(rows[k], FlattenFrom(rows, k + 1), 0);
    }
  }

  lemma {:induction false} FlattenMember(rows: seq<seq<(string, string)>>, k: nat, r: nat, e: (string, string))
    requires k <= r < |rows| && e in rows[r]
    ensures e in FlattenFrom(rows, k)
    decreases r - k
  {
    if k < r {
      FlattenMember(rows, k + 1, r, e);
    }
  }

  lemma RowsWell00()
    requires RowsWellFrom(Rows, 5)
    ensures RowsWellFrom(Rows, 0)
  {
    Row00Well();
    Row01Well();
    Row02Well();
    Row03Well();
    Row04Well();
    assert RowsWellFrom(Rows, 4);
    assert RowsWellFrom(Rows, 3);
    assert RowsWellFrom(Rows, 2);
    assert RowsWellFrom(Rows, 1);
    assert RowsWellFrom(Rows, 0);
  }

  lemma RowsWell05()
    requires RowsWellFrom(Rows, 10)
    ensures RowsWellFrom(Rows, 5)
  {
    Row05Well();
    Row06Well();
    Row07Well();
    Row08Well();
    Row09Well();
    assert RowsWellFrom(Rows, 9);
    assert RowsWellFrom(Rows, 8);
    assert RowsWellFrom(Rows, 7);
    assert RowsWellFrom(Rows, 6);
    assert RowsWellFrom(Rows, 5);
  }

  lemma RowsWell10()
    requires RowsWellFrom(Rows, 15)
    ensures RowsWellFrom(Rows, 10)
  {
    Row10Well();
    Row11Well();
    Row12Well();
    Row13Well();
    Row14Well();
    assert RowsWellFrom(Rows, 14);
    assert RowsWellFrom(Rows, 13);
    assert RowsWellFrom(Rows, 12);
    assert RowsWellFrom(Rows, 11);
    assert RowsWellFrom(Rows, 10);
  }

  lemma RowsWell15()
    requires RowsWellFrom(Rows, 20)
    ensures RowsWellFrom(Rows, 15)
  {
    Row15Well();
    Row16Well();
    Row17Well();
    Row18Well();
    Row19Well();
    assert RowsWellFrom(Rows, 19);
    assert RowsWellFrom(Rows, 18);
    assert RowsWellFrom(Rows, 17);
    assert RowsWellFrom(Rows, 16);
    assert RowsWellFrom(Rows, 15);
  }

  lemma RowsWell20()
    requires RowsWellFrom(Rows, 25)
    ensures RowsWellFrom(Rows, 20)
  {
    Row20Well();
    Row21Well();
    Row22Well();
    Row23Well();
    Row24Well();
    assert RowsWellFrom(Rows, 24);
    assert RowsWellFrom(Rows, 23);
    assert RowsWellFrom(Rows, 22);
    assert RowsWellFrom(Rows, 21);
    assert RowsWellFrom(Rows, 20);
  }

  lemma RowsWell25()
    ensures RowsWellFrom(Rows, 25)
  {
    Row25Well();
    Row26Well();
    Row27Well();
    Row28Well();
    Row29Well();
    assert RowsWellFrom(Rows, 29);
    assert RowsWellFrom(Rows, 28);
    assert RowsWellFrom(Rows, 27);
    assert RowsWellFrom(Rows, 26);
    assert RowsWellFrom(Rows, 25);
  }

  /** Every key of the table is lower-case letters and the keys are strictly increasing. */
  lemma KeywordsWell()
    ensures WellFrom(Keywords, 0)
  {
    RowsWell25();
    RowsWell20();
    RowsWell15();
    RowsWell10();
    RowsWell05();
    RowsWell00();
    FlattenWell(Rows, 0);
  }

  /** No key occurs twice in the initializer, so building the dictionary does not throw. */
  lemma KeywordsDistinct()
    ensures DistinctKeys(Keywords)
  {
    KeywordsWell();
    forall i, j | 0 <= i < j < |Keywords|
      ensures Keywords[i].0 != Keywords[j].0
    {
      WellFromOrdered(Keywords, i, j);
      if Keywords[i].0 == Keywords[j].0 {
        LessFromIrreflexive(Keywords[i].0, 0);
      }
    }
  }

  /**
   * The dictionary `OsmColor.Keywords`: building it from the entries does not
   * throw, every entry's key maps to that entry's code, and every key is
   * lower-case letters only (no space, nothing ToLower would change).
   */
  function KeywordMap(): (m: map<string, string>)
    ensures forall k :: k in m <==> exists i :: 0 <= i < |Keywords| && Keywords[i].0 == k
    ensures forall e :: e in Keywords ==> e.0 in m
    ensures forall e {:trigger m[e.0]} :: e in Keywords ==> m[e.0] == e.1
    ensures forall k :: k in m ==> KeyShape(k)
  {
    KeywordsDistinct();
    InitializeDistinct(Keywords, map[]);
    KeywordKeysShape(Initialize(Keywords, map[]).value);
    Initialize(Keywords, map[]).value
  }

  lemma KeywordKeysShape(m: map<string, string>)
    requires forall k :: k in m <==> exists i :: 0 <= i < |Keywords| && Keywords[i].0 == k
    ensures forall k :: k in m ==> KeyShape(k)
  {
    KeywordsWell();
    forall k | k in m
      ensures KeyShape(k)
    {
      var i :| 0 <= i < |Keywords| && Keywords[i].0 == k;
      WellFromKeyShape(Keywords, i);
    }
  }

  /** `Keywords.TryGetValue(key, ...)`: the code of a keyword, if the table has it. */
  function Code(key: string): (r: Option<string>)
    ensures r.Some? <==> exists i :: 0 <= i < |Keywords| && Keywords[i].0 == key
    ensures r.Some? ==> exists i :: 0 <= i < |Keywords| && Keywords[i] == (key, r.value)
    ensures r.Some? ==> KeyShape(key)
  {
    if key in KeywordMap() then
      var i :| 0 <= i < |Keywords| && Keywords[i].0 == key;
      assert Keywords[i] in Keywords;
      Some(KeywordMap()[key])
    else None
  }

  /** In a WellFrom table, a key strictly between entries `i` and `i + 1` is no entry's key. */
  lemma {:induction false} WellFromGap(t: seq<(string, string)>, key: string, i: nat, j: nat)
    requires WellFrom(t, 0) && i + 1 < |t| && j < |t|
    requires LessFrom(t[i].0, key, 0) && LessFrom(key, t[i + 1].0, 0)
    ensures t[j].0 != key
  {
    if t[j].0 == key {
      if j < i {
        WellFromOrdered(t, j, i);
        LessFromTransitive(key, t[i].0, key, 0);
      } else if j > i + 1 {
        WellFromOrdered(t, i + 1, j);
        LessFromTransitive(key, t[i + 1].0, key, 0);
      }
      LessFromIrreflexive(key, 0);
    }
  }

  /** In a WellFrom table, a key above the last entry's is no entry's key. */
  lemma {:induction false} WellFromBeyond(t: seq<(string, string)>, key: string, j: nat)
    requires WellFrom(t, 0) && j < |t|
    requires LessFrom(t[|t| - 1].0, key, 0)
    ensures t[j].0 != key
  {
    if t[j].0 == key {
      if j < |t| - 1 {
        WellFromOrdered(t, j, |t| - 1);
        LessFromTransitive(key, t[|t| - 1].0, key, 0);
      }
      LessFromIrreflexive(key, 0);
    }
  }

  /** A key strictly between two neighbouring keys of the sorted table is not in it. */
  lemma CodeGap(key: string, i: nat)
    requires i + 1 < |Keywords|
    requires LessFrom(Keywords[i].0, key, 0) && LessFrom(key, Keywords[i + 1].0, 0)
    ensures Code(key).None?
  {
    KeywordsWell();
    forall j | 0 <= j < |Keywords|
      ensures Keywords[j].0 != key
    {
      WellFromGap(Keywords, key, i, j);
    }
  }

  /** A key above the table's last key ("yellowgreen") is not in it. */
  lemma CodeBeyondLast(key: string)
    requires LessFrom("yellowgreen", key, 0)
    ensures Code(key).None?
  {
    KeywordsWell();
    KeywordsLast();
    forall j | 0 <= j < |Keywords|
      ensures Keywords[j].0 != key
    {
      WellFromBeyond(Keywords, key, j);
    }
  }

  /** A name after every colour keyword, such as "zzz", has no code. */
  lemma CodeUnknown()
    ensures Code("zzz").None?
  {
    assert LessFrom("yellowgreen", "zzz", 0);
    CodeBeyondLast("zzz");
  }

  /** The last entry of the concatenated rows is the last entry of the last row. */
  lemma {:induction false} FlattenLast(rows: seq<seq<(string, string)>>, k: nat)
    requires k < |rows| && |rows[|rows| - 1]| > 0
    ensures |FlattenFrom(rows, k)| > 0
    ensures FlattenFrom(rows, k)[|FlattenFrom(rows, k)| - 1] == rows[|rows| - 1][|rows[|rows| - 1]| - 1]
    decreases |rows| - k
  {
    if k + 1 < |rows| {
      FlattenLast(rows, k + 1);
    } else {
      assert FlattenFrom(rows, k + 1) == [];
      assert FlattenFrom(rows, k) == rows[k];
    }
  }

  lemma KeywordsLast()
    ensures |Keywords| > 0 && Keywords[|Keywords| - 1].0 == "yellowgreen"
  {
    FlattenLast(Rows, 0);
    assert Rows[|Rows| - 1] == Row29;
  }

  /** Every entry of the table is found under its own key. */
  lemma CodeOfEntry(e: (string, string))
    requires e in Keywords
    ensures Code(e.0) == Some(e.1)
  {
    assert KeywordMap()[e.0] == e.1;
  }

  /** An entry of any row is found under its own key. */
  lemma RowEntry(r: nat, e: (string, string))
    requires r < |Rows| && e in Rows[r]
    ensures Code(e.0) == Some(e.1)
  {
    FlattenMember(Rows, 0, r, e);
    CodeOfEntry(e);
  }

  // One key per lemma: each lookup is cheap alone, costly together.
  lemma CodeGray() ensures Code("gray") == Some("#808080") { RowEntry(10, ("gray", "#808080")); }
  lemma CodeGrey() ensures Code("grey") == Some("#808080") { RowEntry(11, ("grey", "#808080")); }
  lemma CodeDarkgray() ensures Code("darkgray") == Some("#A9A9A9") { RowEntry(4, ("darkgray", "#A9A9A9")); }
  lemma CodeDarkgrey() ensures Code("darkgrey") == Some("#A9A9A9") { RowEntry(5, ("darkgrey", "#A9A9A9")); }
  lemma CodeDarkslategray() ensures Code("darkslategray") == Some("#2F4F4F") { RowEntry(7, ("darkslategray", "#2F4F4F")); }
  lemma CodeDarkslategrey() ensures Code("darkslategrey") == Some("#2F4F4F") { RowEntry(7, ("darkslategrey", "#2F4F4F")); }
  lemma CodeDimgray() ensures Code("dimgray") == Some("#696969") { RowEntry(8, ("dimgray", "#696969")); }
  lemma CodeDimgrey() ensures Code("dimgrey") == Some("#696969") { RowEntry(8, ("dimgrey", "#696969")); }
  lemma CodeLightgray() ensures Code("lightgray") == Some("#D3D3D3") { RowEntry(14, ("lightgray", "#D3D3D3")); }
  lemma CodeLightgrey() ensures Code("lightgrey") == Some("#D3D3D3") { RowEntry(14, ("lightgrey", "#D3D3D3")); }
  lemma CodeLightslategray() ensures Code("lightslategray") == Some("#778899") { RowEntry(15, ("lightslategray", "#778899")); }
  lemma CodeLightslategrey() ensures Code("lightslategrey") == Some("#778899") { RowEntry(15, ("lightslategrey", "#778899")); }
  lemma CodeSlategray() ensures Code("slategray") == Some("#708090") { RowEntry(26, ("slategray", "#708090")); }
  lemma CodeSlategrey() ensures Code("slategrey") == Some("#708090") { RowEntry(26, ("slategrey", "#708090")); }
  lemma CodeAqua() ensures Code("aqua") == Some("#00FFFF") { RowEntry(0, ("aqua", "#00FFFF")); }
  lemma CodeCyan() ensures Code("cyan") == Some("#00FFFF") { RowEntry(4, ("cyan", "#00FFFF")); }
  lemma CodeFuchsia() ensures Code("fuchsia") == Some("#FF00FF") { RowEntry(9, ("fuchsia", "#FF00FF")); }
  lemma CodeMagenta() ensures Code("magenta") == Some("#FF00FF") { RowEntry(17, ("magenta", "#FF00FF")); }
  lemma CodeBlack() ensures Code("black") == Some("#000000") { RowEntry(1, ("black", "#000000")); }
  lemma CodeRed() ensures Code("red") == Some("#FF0000") { RowEntry(23, ("red", "#FF0000")); }
  lemma CodeWhite() ensures Code("white") == Some("#FFFFFF") { RowEntry(28, ("white", "#FFFFFF")); }

  /** gray and grey spellings name the same code, and so do the aqua/cyan and fuchsia/magenta synonyms. */
  lemma Synonyms()
    ensures Code("gray") == Code("grey") == Some("#808080")
    ensures Code("darkgray") == Code("darkgrey") == Some("#A9A9A9")
    ensures Code("darkslategray") == Code("darkslategrey") == Some("#2F4F4F")
    ensures Code("dimgray") == Code("dimgrey") == Some("#696969")
    ensures Code("lightgray") == Code("lightgrey") == Some("#D3D3D3")
    ensures Code("lightslategray") == Code("lightslategrey") == Some("#778899")
    ensures Code("slategray") == Code("slategrey") == Some("#708090")
    ensures Code("aqua") == Code("cyan") == Some("#00FFFF")
    ensures Code("fuchsia") == Code("magenta") == Some("#FF00FF")
  {
    CodeGray();
    CodeGrey();
    CodeDarkgray();
    CodeDarkgrey();
    CodeDarkslategray();
    CodeDarkslategrey();
    CodeDimgray();
    CodeDimgrey();
    CodeLightgray();
    CodeLightgrey();
    CodeLightslategray();
    CodeLightslategrey();
    CodeSlategray();
    CodeSlategrey();
    CodeAqua();
    CodeCyan();
    CodeFuchsia();
    CodeMagenta();
  }

  /** A few well-known entries. */
  lemma Samples()
    ensures Code("black") == Some("#000000")
    ensures Code("red") == Some("#FF0000")
    ensures Code("white") == Some("#FFFFFF")
  {
    CodeBlack();
    CodeRed();
    CodeWhite();
  }
}

=== FILE: compounds.dfy ===
/**
 * Relations as OsmProvider.cs groups them. A relation member of type "way"
 * becomes a `Structure` with a parsed role and the flag `Unassigned`; a
 * member of type "relation" whose role is exactly "part" is kept as a
 * reference to another compound. `ParseCompounds` classifies the visible
 * relations and files them in a dictionary keyed by relation id, in
 * document order. The list of consumed way ids, shared by every stage of
 * `Buildings`, is a set here (the source only ever asks whether it
 * contains an id).
 */
module Compounds {
  import opened Wrappers
  import Text
  import opened Document
  import Polygons

  /** The three kinds of relation the provider builds from (the enum's unused `None` is left out). */
  datatype CompoundType = Building | MultipolygonBuilding | MultipolygonBuildingPart

  datatype PartRole = NoRole | Outline | Part | Outer | Inner

  /** The `Structure` constructor's switch: the role in lower case against the four role names. */
  function ParseRole(role: string): (r: PartRole)
    ensures r == Outline <==> Text.Lower(role) == "outline"
    ensures r == Part <==> Text.Lower(role) == "part"
    ensures r == Outer <==> Text.Lower(role) == "outer"
    ensures r == Inner <==> Text.Lower(role) == "inner"
  {
    var key := Text.Lower(role);
    if key == "outline" then Outline
    else if key == "part" then Part
    else if key == "outer" then Outer
    else if key == "inner" then Inner
    else NoRole
  }

  /** A role is recognised in any letter case, and anything else is no role. */
  lemma RoleAnyCase(role: string)
    ensures ParseRole(Text.Lower(role)) == ParseRole(role)
    ensures ParseRole(role) == NoRole <==>
      Text.Lower(role) != "outline" && Text.Lower(role) != "part" && Text.Lower(role) != "outer" && Text.Lower(role) != "inner"
  {
    Text.LowerIdempotent(role);
  }

  /**
   * A way member of a compound. `polygon` and `data` are set when `Merge`
   * assembles the ring the structure seeds.
   */
  datatype Structure = Structure(
    id: string,
    role: PartRole,
    polygon: Option<Polygons.Polygon>,
    data: Option<Way>,
    unassigned: bool)

  /** `new Structure(id, role)`: unassigned, nothing assembled yet. */
  function NewStructure(id: string, role: string): (s: Structure)
    ensures s.id == id && s.role == ParseRole(role)
    ensures s.unassigned && s.polygon.None? && s.data.None?
  {
    Structure(id, ParseRole(role), Option.None, Option.None, true)
  }

  /** A member whose type is "way" in any letter case. */
  predicate IsWayMember(m: Member)
  {
    Text.Lower(m.kind) == "way"
  }

  /** A member whose type is "relation" in any letter case and whose role is exactly "part". */
  predicate IsPartRelation(m: Member)
  {
    Text.Lower(m.kind) == "relation" && m.role == "part"
  }

  /** The `Structure`s of the way members, in member order. */
  function Structures(members: seq<Member>): (ss: seq<Structure>)
    ensures |ss| <= |members|
    ensures forall i :: 0 <= i < |ss| ==> ss[i].unassigned && ss[i].polygon.None? && ss[i].data.None?
  {
    if |members| == 0 then []
    else
      var rest := Structures(members[1..]);
      if IsWayMember(members[0]) then [NewStructure(members[0].ref, members[0].role)] + rest else rest
  }

  /** The references of the "part" relation members, in member order. */
  function RelationRefs(members: seq<Member>): (rs: seq<string>)
    ensures |rs| <= |members|
  {
    if |members| == 0 then []
    else
      var rest := RelationRefs(members[1..]);
      if IsPartRelation(members[0]) then [members[0].ref] + rest else rest
  }

  /** Partitioning a member list is partitioning its pieces and joining the results. */
  lemma {:induction false} PartitionAppend(a: seq<Member>, b: seq<Member>)
    ensures Structures(a + b) == Structures(a) + Structures(b)
    ensures RelationRefs(a + b) == RelationRefs(a) + RelationRefs(b)
  {
    if |a| == 0 {
      assert a + b == b;
    } else {
      assert (a + b)[0] == a[0];
      assert (a + b)[1..] == a[1..] + b;
      PartitionAppend(a[1..], b);
    }
  }

  /**
   * One member: a way member becomes one structure and no reference, a
   * "part" relation member one reference and no structure, any other
   * member nothing. With `PartitionAppend` this fixes both lists.
   */
  lemma PartitionOne(m: Member)
    ensures Structures([m]) == if IsWayMember(m) then [NewStructure(m.ref, m.role)] else []
    ensures RelationRefs([m]) == if IsPartRelation(m) then [m.ref] else []
    ensures !(IsWayMember(m) && IsPartRelation(m))
  {
    assert [m][1..] == [];
  }

  datatype Compound = Compound(kind: CompoundType, data: Relation, structures: seq<Structure>, relations: seq<string>)

  /** `new Compound(type, relation)`: the relation's members partitioned. */
  function NewCompound(kind: CompoundType, rel: Relation): (c: Compound)
    ensures c.kind == kind && c.data == rel
    ensures forall i :: 0 <= i < |c.structures| ==> c.structures[i].unassigned
  {
    Compound(kind, rel, Structures(rel.members), RelationRefs(rel.members))
  }

  // ----- classification -----

  /** The value of the first tag with the given key (`FirstOrDefault`). */
  function FirstValue(tags: seq<Tag>, key: string): (r: Option<string>)
    ensures r.None? <==> forall i :: 0 <= i < |tags| ==> tags[i].k != key
    ensures r.Some? ==>
      (exists i :: 0 <= i < |tags| && tags[i] == Tag(key, r.value) && forall j :: 0 <= j < i ==> tags[j].k != key)
  {
    if |tags| == 0 then Option.None
    else if tags[0].k == key then Some(tags[0].v)
    else
      var r := FirstValue(tags[1..], key);
      assert forall i :: 1 <= i < |tags| ==> tags[i] == tags[1..][i - 1];
      if r.Some? then
        var i :| 0 <= i < |tags| - 1 && tags[1..][i] == Tag(key, r.value)
          && forall j :: 0 <= j < i ==> tags[1..][j].k != key;
        assert tags[i + 1] == Tag(key, r.value);
        r
      else r
  }

  predicate IsBuildingKey(k: string)
  {
    k == "building" || k == "building:part"
  }

  /** The key of the first tag keyed "building" or "building:part". */
  function BuildingKey(tags: seq<Tag>): (r: Option<string>)
    ensures r.None? <==> forall i :: 0 <= i < |tags| ==> !IsBuildingKey(tags[i].k)
    ensures r.Some? ==> IsBuildingKey(r.value)
    ensures r.Some? ==>
      (exists i :: 0 <= i < |tags| && tags[i].k == r.value && forall j :: 0 <= j < i ==> !IsBuildingKey(tags[j].k))
  {
    if |tags| == 0 then Option.None
    else if IsBuildingKey(tags[0].k) then Some(tags[0].k)
    else
      var r := BuildingKey(tags[1..]);
      assert forall i :: 1 <= i < |tags| ==> tags[i] == tags[1..][i - 1];
      if r.Some? then
        var i :| 0 <= i < |tags| - 1 && tags[1..][i].k == r.value
          && forall j :: 0 <= j < i ==> !IsBuildingKey(tags[1..][j].k);
        assert tags[i + 1].k == r.value;
        r
      else r
  }

  /**
   * The switch of `ParseCompounds` on a relation's tags: the first "type"
   * tag decides; a multipolygon is a building or a building part by the
   * first building tag's key; anything else is not filed.
   */
  function Classify(tags: seq<Tag>): Option<CompoundType>
  {
    match FirstValue(tags, "type")
    case Some("building") => Some(Building)
    case Some("multipolygon") =>
      (match BuildingKey(tags)
       case Some("building") => Some(MultipolygonBuilding)
       case Some("building:part") => Some(MultipolygonBuildingPart)
       case _ => Option.None)
    case _ => Option.None
  }

  /** The kind of a relation is decided by its first "type" tag and, for a multipolygon, its first building key. */
  lemma ClassifyCases(tags: seq<Tag>)
    ensures Classify(tags) == Some(Building) <==> FirstValue(tags, "type") == Some("building")
    ensures Classify(tags) == Some(MultipolygonBuilding) <==>
      FirstValue(tags, "type") == Some("multipolygon") && BuildingKey(tags) == Some("building")
    ensures Classify(tags) == Some(MultipolygonBuildingPart) <==>
      FirstValue(tags, "type") == Some("multipolygon") && BuildingKey(tags) == Some("building:part")
    ensures Classify(tags).None? <==>
      FirstValue(tags, "type") != Some("building") &&
      (FirstValue(tags, "type") == Some("multipolygon") ==> BuildingKey(tags).None?)
  {
  }

  /** A later "type" tag does not matter once an earlier one has decided. */
  lemma FirstTypeDecides(a: seq<Tag>, v: string, b: seq<Tag>)
    requires forall i :: 0 <= i < |a| ==> a[i].k != "type"
    ensures FirstValue(a + [Tag("type", v)] + b, "type") == Some(v)
  {
    var t := a + [Tag("type", v)] + b;
    assert forall j :: 0 <= j < |a| ==> t[j] == a[j];
    assert t[|a|] == Tag("type", v);
  }

  // ----- the compound dictionary -----

  /** A `Dictionary<string, Compound>`: entries in insertion order, which is the order of `Values`. */
  type Dict = seq<(string, Compound)>

  function Keys(d: Dict): (ks: seq<string>)
    ensures |ks| == |d|
    ensures forall i :: 0 <= i < |d| ==> ks[i] == d[i].0
  {
    seq(|d|, i requires 0 <= i < |d| => d[i].0)
  }

  predicate Distinct(s: seq<string>)
  {
    forall i, j :: 0 <= i < j < |s| ==> s[i] != s[j]
  }

  /** `TryGetValue`: the position of the entry with that key, if any. */
  function Lookup(d: Dict, id: string): (r: Option<nat>)
    ensures r.None? <==> forall i :: 0 <= i < |d| ==> d[i].0 != id
    ensures r.Some? ==> r.value < |d| && d[r.value].0 == id
    ensures r.Some? ==> forall j :: 0 <= j < r.value ==> d[j].0 != id
  {
    if |d| == 0 then Option.None
    else if d[0].0 == id then Some(0)
    else
      var r := Lookup(d[1..], id);
      if r.Some? then Some(r.value + 1) else Option.None
  }

  /** The entries of the visible relations that classify, in document order. */
  function Entries(rels: seq<Relation>): (d: Dict)
    ensures |d| <= |rels|
  {
    if |rels| == 0 then []
    else
      var r := rels[0];
      var rest := Entries(rels[1..]);
      if r.visible && Classify(r.tags).Some? then [(r.id, NewCompound(Classify(r.tags).value, r))] + rest
      else rest
  }

  /**
   * The loop of `ParseCompounds` from the dictionary `d` on: each visible
   * relation that classifies is added under its id; adding an id already
   * present makes `Dictionary.Add` throw, which is `None`.
   */
  function AddCompounds(rels: seq<Relation>, d: Dict): Option<Dict>
  {
    if |rels| == 0 then Some(d)
    else
      var r := rels[0];
      if r.visible && Classify(r.tags).Some? then
        if Lookup(d, r.id).Some? then Option.None
        else AddCompounds(rels[1..], d + [(r.id, NewCompound(Classify(r.tags).value, r))])
      else AddCompounds(rels[1..], d)
  }

  /** `ParseCompounds()` over the document's relations. */
  function ParseCompounds(rels: seq<Relation>): Option<Dict>
  {
    AddCompounds(rels, [])
  }

  /**
   * The incremental loop files exactly the classified visible relations,
   * and fails exactly when two of them share an id.
   */
  lemma {:induction false} AddCompoundsEntries(rels: seq<Relation>, d: Dict)
    requires Distinct(Keys(d))
    ensures AddCompounds(rels, d) == if Distinct(Keys(d + Entries(rels))) then Some(d + Entries(rels)) else Option.None
  {
    if |rels| == 0 {
      assert d + Entries(rels) == d;
    } else {
      var r := rels[0];
      var rest := Entries(rels[1..]);
      if r.visible && Classify(r.tags).Some? {
        var e := (r.id, NewCompound(Classify(r.tags).value, r));
        assert Entries(rels) == [e] + rest;
        assert d + Entries(rels) == (d + [e]) + rest;
        var all := Keys(d + Entries(rels));
        if Lookup(d, r.id).Some? {
          var i := Lookup(d, r.id).value;
          assert all[i] == r.id && all[|d|] == r.id;
        } else {
          assert Distinct(Keys(d + [e]));
          AddCompoundsEntries(rels[1..], d + [e]);
        }
      } else {
        AddCompoundsEntries(rels[1..], d);
      }
    }
  }

  /** `ParseCompounds` succeeds exactly when the classified visible relations have distinct ids, and then holds them in order. */
  lemma ParseCompoundsEntries(rels: seq<Relation>)
    ensures ParseCompounds(rels) == if Distinct(Keys(Entries(rels))) then Some(Entries(rels)) else Option.None
  {
    AddCompoundsEntries(rels, []);
    assert [] + Entries(rels) == Entries(rels);
  }

  /** Every filed entry is a visible relation of its own kind under its own id, freshly partitioned. */
  lemma {:induction false} EntriesClassified(rels: seq<Relation>, k: nat)
    requires k < |Entries(rels)|
    ensures exists j :: (0 <= j < |rels| && rels[j].visible && Classify(rels[j].tags).Some? &&
      Entries(rels)[k] == (rels[j].id, NewCompound(Classify(rels[j].tags).value, rels[j])))
  {
    var r := rels[0];
    if r.visible && Classify(r.tags).Some? {
      if k == 0 {
        assert rels[0] == r;
      } else {
        EntriesClassified(rels[1..], k - 1);
        var j :| 0 <= j < |rels[1..]| && rels[1..][j].visible && Classify(rels[1..][j].tags).Some? &&
          Entries(rels[1..])[k - 1] == (rels[1..][j].id, NewCompound(Classify(rels[1..][j].tags).value, rels[1..][j]));
        assert rels[j + 1] == rels[1..][j];
      }
    } else {
      EntriesClassified(rels[1..], k);
      var j :| 0 <= j < |rels[1..]| && rels[1..][j].visible && Classify(rels[1..][j].tags).Some? &&
        Entries(rels[1..])[k] == (rels[1..][j].id, NewCompound(Classify(rels[1..][j].tags).value, rels[1..][j]));
      assert rels[j + 1] == rels[1..][j];
    }
  }

  // ----- consumed way ids -----

  /**
   * The ids a stage emits are fresh: each was not consumed before the stage,
   * is consumed after it, and none repeats. The consumed set only grows.
   */
  predicate FreshIds(ids: seq<string>, before: set<string>, after: set<string>)
  {
    && before <= after
    && Distinct(ids)
    && forall i :: 0 <= i < |ids| ==> ids[i] in after && ids[i] !in before
  }

  /** Two stages run one after the other emit fresh ids together. */
  lemma FreshAppend(a: seq<string>, b: seq<string>, s0: set<string>, s1: set<string>, s2: set<string>)
    requires FreshIds(a, s0, s1) && FreshIds(b, s1, s2)
    ensures FreshIds(a + b, s0, s2)
  {
    var ab := a + b;
    forall i, j | 0 <= i < j < |ab|
      ensures ab[i] != ab[j]
    {
      if j < |a| {
        assert ab[i] == a[i] && ab[j] == a[j];
      } else if i < |a| {
        assert ab[i] == a[i] && ab[j] == b[j - |a|];
      } else {
        assert ab[i] == b[i - |a|] && ab[j] == b[j - |a|];
      }
    }
  }
}

=== FILE: csg_mesh.dfy ===
/**
 * The csg experiment's mesh (Mesh.cs of csg) and its body extrusion
 * (`ComputeBody` of csg's SharpGLForm.cs). A body is a strip of walls over
 * interleaved vertices, bottom at even and top at odd positions; `Cap`
 * closes it with the triangulated bottom outline, once facing down and
 * once, one vertex up, facing up.
 *
 * csg's `Vector3` is a value type, so its `normals[i] == null` test is
 * never true and the accumulation starts from zero as in SharpOSM; the one
 * difference is that csg reads a face's corners in stored order.
 */
module CsgMesh {
  import opened Geometry
  import opened Wrappers
  import opened Colors
  import opened Meshes
  import ModelBuilder

  /** The four settable properties of csg's `Mesh`, each possibly null. */
  datatype CsgMesh = CsgMesh(
    vertices: Option<seq<Vector3>>,
    normals: Option<seq<Vector3>>,
    faces: Option<seq<int>>,
    colors: Option<seq<Color>>)

  // ----- ComputeNormals -----

  /** The face list with every triple's corners in reverse order. */
  function Reversed(faces: seq<int>): (r: seq<int>)
    requires |faces| % 3 == 0
    ensures |r| == |faces|
  {
    seq(|faces|, k requires 0 <= k < |faces| => faces[3 * (k / 3) + 2 - k % 3])
  }

  /** Triple `t` of the reversed faces is triple `t` of the faces read backwards. */
  lemma ReversedAt(faces: seq<int>, t: nat)
    requires |faces| % 3 == 0 && t < |faces| / 3
    ensures var r := Reversed(faces);
      r[3 * t] == faces[3 * t + 2] && r[3 * t + 1] == faces[3 * t + 1] && r[3 * t + 2] == faces[3 * t]
  {
    assert (3 * t) / 3 == t && (3 * t + 1) / 3 == t && (3 * t + 2) / 3 == t;
  }

  /** Reversing the triples twice gives the faces back. */
  lemma ReversedInvolution(faces: seq<int>)
    requires |faces| % 3 == 0
    ensures Reversed(Reversed(faces)) == faces
  {
    var r := Reversed(Reversed(faces));
    forall k | 0 <= k < |faces| ensures r[k] == faces[k] {
      var t := k / 3;
      assert k == 3 * t || k == 3 * t + 1 || k == 3 * t + 2;
    }
  }

  /** Reversal names the same vertices, so it keeps a face list well indexed. */
  lemma ReversedIndexed(faces: seq<int>, n: nat)
    requires Indexed(faces, n)
    ensures Indexed(Reversed(faces), n)
  {
    var r := Reversed(faces);
    forall k | 0 <= k < |r| ensures 0 <= r[k] < n {
      var t := k / 3;
      assert k == 3 * t || k == 3 * t + 1 || k == 3 * t + 2;
    }
  }

  /** The normal csg gives triangle `t`: corners in stored order. */
  function CsgTriangleNormal(vs: seq<Vector3>, faces: seq<int>, unit: Vector3 -> Vector3, t: nat): Vector3
    requires Indexed(faces, |vs|) && t < |faces| / 3
  {
    FaceNormal(unit, vs[faces[3 * t]], vs[faces[3 * t + 1]], vs[faces[3 * t + 2]])
  }

  /** The accumulator of vertex `v` after csg's first `t` triangles, corners added in stored order. */
  function CsgAccumulated(vs: seq<Vector3>, faces: seq<int>, unit: Vector3 -> Vector3, t: nat, v: int): Vector3
    requires Indexed(faces, |vs|) && t <= |faces| / 3
  {
    if t == 0 then Zero3
    else
      var n := CsgTriangleNormal(vs, faces, unit, t - 1);
      var b := 3 * (t - 1);
      AddIf(AddIf(AddIf(CsgAccumulated(vs, faces, unit, t - 1, v), v == faces[b], n), v == faces[b + 1], n), v == faces[b + 2], n)
  }

  /** csg's vertex normals, vertex by vertex. */
  function CsgNormalsOf(vs: seq<Vector3>, faces: seq<int>, unit: Vector3 -> Vector3): (ns: seq<Vector3>)
    requires Indexed(faces, |vs|)
    ensures |ns| == |vs|
  {
    seq(|vs|, v requires 0 <= v < |vs| => unit(CsgAccumulated(vs, faces, unit, |faces| / 3, v)))
  }

  /** csg's accumulation is SharpOSM's over the reversed triangles: same normals, added in the same order. */
  lemma {:induction false} CsgAccumulatedIsReversed(vs: seq<Vector3>, faces: seq<int>, unit: Vector3 -> Vector3, t: nat, v: int)
    requires Indexed(faces, |vs|) && t <= |faces| / 3
    ensures Indexed(Reversed(faces), |vs|)
    ensures CsgAccumulated(vs, faces, unit, t, v) == Accumulated(vs, Reversed(faces), unit, t, v)
  {
    ReversedIndexed(faces, |vs|);
    if t > 0 {
      CsgAccumulatedIsReversed(vs, faces, unit, t - 1, v);
      ReversedAt(faces, t - 1);
      assert CsgTriangleNormal(vs, faces, unit, t - 1) == TriangleNormal(vs, Reversed(faces), unit, t - 1);
    }
  }

  /** The two programs' normals of the same mesh differ exactly by the corner order of each face. */
  lemma CsgNormalsAreReversed(vs: seq<Vector3>, faces: seq<int>, unit: Vector3 -> Vector3)
    requires Indexed(faces, |vs|)
    ensures Indexed(Reversed(faces), |vs|)
    ensures CsgNormalsOf(vs, faces, unit) == NormalsOf(vs, Reversed(faces), unit)
  {
    ReversedIndexed(faces, |vs|);
    forall v | 0 <= v < |vs|
      ensures CsgNormalsOf(vs, faces, unit)[v] == NormalsOf(vs, Reversed(faces), unit)[v]
    {
      CsgAccumulatedIsReversed(vs, faces, unit, |faces| / 3, v);
    }
  }

  /**
   * csg's `ComputeNormals`: null in, null out; a face list that is not whole
   * triples or names a missing vertex throws; otherwise each vertex's normal
   * is the normalised sum of the normals of the faces naming it, each face
   * read in stored order.
   */
  method ComputeNormals(vertices: Option<seq<Vector3>>, faces: Option<seq<int>>, unit: Vector3 -> Vector3)
    returns (r: Normals)
    ensures r.Absent? <==> vertices.None? || faces.None?
    ensures vertices.Some? && faces.Some? ==> (r.Fault? <==> !Indexed(faces.value, |vertices.value|))
    ensures r.Computed? ==> Indexed(faces.value, |vertices.value|)
    ensures r.Computed? ==> r.ns == CsgNormalsOf(vertices.value, faces.value, unit)
  {
    if vertices.None? || faces.None? {
      return Absent;
    }
    var vs, fs := vertices.value, faces.value;
    var normals := seq(|vs|, _ => Zero3);
    var idx := 0;
    while idx < |fs|
      invariant 0 <= idx <= |fs| && idx % 3 == 0
      invariant forall k :: 0 <= k < idx ==> 0 <= fs[k] < |vs|
      invariant |normals| == |vs|
      invariant Indexed(fs, |vs|) ==>
        forall v :: 0 <= v < |vs| ==> normals[v] == CsgAccumulated(vs, fs, unit, idx / 3, v)
    {
      if idx + 2 >= |fs| || !(0 <= fs[idx] < |vs|) || !(0 <= fs[idx + 1] < |vs|) || !(0 <= fs[idx + 2] < |vs|) {
        return Fault;
      }
      var i, j, k := fs[idx], fs[idx + 1], fs[idx + 2];
      var normal := FaceNormal(unit, vs[i], vs[j], vs[k]);
      normals := normals[i := Add(normals[i], normal)];
      normals := normals[j := Add(normals[j], normal)];
      normals := normals[k := Add(normals[k], normal)];
      idx := idx + 3;
    }
    assert Indexed(fs, |vs|);
    var v := 0;
    while v < |normals|
      invariant 0 <= v <= |normals| == |vs|
      invariant forall w :: 0 <= w < v ==> normals[w] == unit(CsgAccumulated(vs, fs, unit, |fs| / 3, w))
      invariant forall w :: v <= w < |vs| ==> normals[w] == CsgAccumulated(vs, fs, unit, |fs| / 3, w)
    {
      normals := normals[v := unit(normals[v])];
      v := v + 1;
    }
    return Computed(normals);
  }

  /**
   * The data constructor `new Mesh(vertices, faces, colors)`: stored as
   * given, normals derived; a face index out of range throws (None).
   */
  function NewCsgMesh(vs: seq<Vector3>, faces: seq<int>, colors: seq<Color>, unit: Vector3 -> Vector3): (r: Option<CsgMesh>)
    ensures r.Some? <==> Indexed(faces, |vs|)
    ensures r.Some? ==> r.value.vertices == Some(vs) && r.value.faces == Some(faces) && r.value.colors == Some(colors)
    ensures r.Some? ==> r.value.normals.Some? && |r.value.normals.value| == |vs|
  {
    if Indexed(faces, |vs|) then Some(CsgMesh(Some(vs), Some(CsgNormalsOf(vs, faces, unit)), Some(faces), Some(colors)))
    else None
  }

  // ----- ComputeBody -----

  /** The extruded vertices: point `k` gives `2k` at height 0 and `2k+1` at height 5, both at `(x, -y)`. */
  function BodyVertices(pts: seq<Vector2>): (vs: seq<Vector3>)
    ensures |vs| == 2 * |pts|
  {
    seq(2 * |pts|, i requires 0 <= i < 2 * |pts| =>
      Vector3(pts[i / 2].x, if i % 2 == 0 then 0.0 else 5.0, -pts[i / 2].y))
  }

  /** The wall strip: for each bottom vertex `idx` but the last, the triangles `(idx+1, idx, idx+2)` and `(idx+1, idx+2, idx+3)`. */
  function BodyFaces(n: nat): (f: seq<int>)
    ensures |f| == if n == 0 then 0 else 6 * (n - 1)
  {
    if n <= 1 then [] else BodyFaces(n - 1) + [2 * n - 3, 2 * n - 4, 2 * n - 2, 2 * n - 3, 2 * n - 2, 2 * n - 1]
  }

  /** The two triangles of wall `q` join bottom and top of points `q` and `q+1`, and every index names one of the `2n` vertices. */
  lemma {:induction false} BodyFacesShape(n: nat, q: nat)
    requires q + 1 < n
    ensures BodyFaces(n)[6 * q .. 6 * q + 6] == [2 * q + 1, 2 * q, 2 * q + 2, 2 * q + 1, 2 * q + 2, 2 * q + 3]
  {
    if q + 2 < n {
      BodyFacesShape(n - 1, q);
      assert BodyFaces(n)[6 * q .. 6 * q + 6] == BodyFaces(n - 1)[6 * q .. 6 * q + 6];
    }
  }

  lemma {:induction false} BodyFacesIndexed(n: nat)
    ensures Indexed(BodyFaces(n), 2 * n)
  {
    if n > 1 {
      BodyFacesIndexed(n - 1);
    }
  }

  /** `ComputeBody(footprint, color)`: the extrusion of the footprint's points, every vertex in the one colour. */
  function ComputeBody(pts: seq<Vector2>, color: Color, unit: Vector3 -> Vector3): (m: CsgMesh)
    ensures m.vertices == Some(BodyVertices(pts)) && m.faces == Some(BodyFaces(|pts|))
    ensures m.colors.Some? && |m.colors.value| == 2 * |pts| && forall i :: 0 <= i < 2 * |pts| ==> m.colors.value[i] == color
    ensures m.normals.Some?
    ensures Indexed(m.faces.value, |m.vertices.value|)
  {
    BodyFacesIndexed(|pts|);
    NewCsgMesh(BodyVertices(pts), BodyFaces(|pts|), seq(2 * |pts|, _ => color), unit).value
  }

  // ----- Cap -----

  /** The bottom outline handed to the triangulator: every even vertex as `(X, Z)`; point `k` carries index `2k`. */
  function BottomPoints(vs: seq<Vector3>): (pts: seq<Vector2>)
    ensures |pts| == (|vs| + 1) / 2
    ensures forall k :: 0 <= k < |pts| ==> 2 * k < |vs| && pts[k] == Vector2(vs[2 * k].x, vs[2 * k].z)
  {
    seq((|vs| + 1) / 2, k requires 0 <= k < (|vs| + 1) / 2 => Vector2(vs[2 * k].x, vs[2 * k].z))
  }

  /** The outline `Cap` triangulates on an extruded body is the footprint, mirrored as the extrusion placed it. */
  lemma BodyOutline(pts: seq<Vector2>)
    ensures BottomPoints(BodyVertices(pts)) == seq(|pts|, k requires 0 <= k < |pts| => Vector2(pts[k].x, -pts[k].y))
  {
    var b := BottomPoints(BodyVertices(pts));
    forall k | 0 <= k < |pts| ensures b[k] == Vector2(pts[k].x, -pts[k].y) {
      assert (2 * k) / 2 == k && (2 * k) % 2 == 0;
    }
  }

  /** The six indices one triangle of the outline adds: the bottom face, then the top face one vertex up with its winding reversed. */
  function CapTriangle(t: ModelBuilder.Tri): seq<int>
  {
    [2 * t.i0, 2 * t.i1, 2 * t.i2, 2 * t.i0 + 1, 2 * t.i2 + 1, 2 * t.i1 + 1]
  }

  function CapFaces(tris: seq<ModelBuilder.Tri>): (f: seq<int>)
    ensures |f| == 6 * |tris|
  {
    if |tris| == 0 then [] else CapTriangle(tris[0]) + CapFaces(tris[1..])
  }

  /** Triangle `t` of the outline owns the slice of six indices from `6t`. */
  lemma {:induction false} CapSlice(tris: seq<ModelBuilder.Tri>, t: nat)
    requires t < |tris|
    ensures CapFaces(tris)[6 * t .. 6 * t + 6] == CapTriangle(tris[t])
  {
    var f := CapFaces(tris);
    assert f == CapTriangle(tris[0]) + CapFaces(tris[1..]);
    if t > 0 {
      CapSlice(tris[1..], t - 1);
      assert f[6 * t .. 6 * t + 6] == CapFaces(tris[1..])[6 * (t - 1) .. 6 * (t - 1) + 6];
    }
  }

  /** Each cap triangle's bottom face names the bottom vertices, `2i`, of its outline points. */
  lemma CapBottomCorners(tris: seq<ModelBuilder.Tri>, t: nat)
    requires t < |tris|
    ensures var w := CapFaces(tris)[6 * t .. 6 * t + 6];
      w[0] == 2 * tris[t].i0 && w[1] == 2 * tris[t].i1 && w[2] == 2 * tris[t].i2
  {
    CapSlice(tris, t);
  }

  /**
   * Each cap triangle's top face is its bottom face one vertex up with
   * corners reversed, so the two face opposite ways.
   */
  lemma CapTopMirrorsBottom(tris: seq<ModelBuilder.Tri>, t: nat)
    requires t < |tris|
    ensures var w := CapFaces(tris)[6 * t .. 6 * t + 6];
      w[3] == w[0] + 1 && w[4] == w[2] + 1 && w[5] == w[1] + 1
  {
    CapSlice(tris, t);
  }

  /** The triangles name points of the outline. */
  predicate TrisIn(tris: seq<ModelBuilder.Tri>, n: nat)
  {
    forall t :: 0 <= t < |tris| ==> tris[t].i0 < n && tris[t].i1 < n && tris[t].i2 < n
  }

  /** With an even vertex count, every cap index, bottom or top, names a vertex. */
  lemma {:induction false} CapIndexed(tris: seq<ModelBuilder.Tri>, nv: nat)
    requires nv % 2 == 0 && TrisIn(tris, nv / 2)
    ensures Indexed(CapFaces(tris), nv)
  {
    if |tris| > 0 {
      assert TrisIn(tris[1..], nv / 2) by {
        assert forall u :: 1 <= u < |tris| ==> tris[1..][u - 1] == tris[u];
      }
      CapIndexed(tris[1..], nv);
      var f := CapFaces(tris);
      assert tris[0].i0 < nv / 2 && tris[0].i1 < nv / 2 && tris[0].i2 < nv / 2;
      assert forall k :: 6 <= k < |f| ==> f[k] == CapFaces(tris[1..])[k - 6];
    }
  }

  /** With an odd vertex count the last outline point has no top vertex: its cap index is one past the end. */
  lemma CapOddOverruns()
    ensures var tris := [ModelBuilder.Tri(0, 1, 3)];
      TrisIn(tris, (7 + 1) / 2) && CapFaces(tris)[4] == 7 && !Indexed(CapFaces(tris), 7)
  {
    var tris := [ModelBuilder.Tri(0, 1, 3)];
    assert CapFaces(tris[1..]) == [];
    assert CapFaces(tris) == [0, 2, 6, 1, 7, 3];
  }

  /** Every top corner of every triangle is below `n`. */
  predicate TopsIn(tris: seq<ModelBuilder.Tri>, n: nat)
  {
    forall t :: 0 <= t < |tris| ==> 2 * tris[t].i0 + 1 < n && 2 * tris[t].i1 + 1 < n && 2 * tris[t].i2 + 1 < n
  }

  /** The recolouring result: the colours after the loop, and whether it ran to the end. */
  datatype Recolored = Recolored(colors: Option<seq<Color>>, ok: bool)

  /** The top corners of one triangle, in the order the source writes them. */
  predicate TopOf(t: ModelBuilder.Tri, v: int)
  {
    v == 2 * t.i0 + 1 || v == 2 * t.i2 + 1 || v == 2 * t.i1 + 1
  }

  /**
   * The colour writes of the triangle loop: each triangle paints its three
   * top vertices. A null colour array or a top index past its end throws
   * at that write; the writes before it stay done.
   */
  function Recolor(colors: Option<seq<Color>>, tris: seq<ModelBuilder.Tri>, color: Color): (r: Recolored)
    decreases |tris|
    ensures colors.None? ==> r.colors.None?
    ensures colors.Some? ==> r.colors.Some? && |r.colors.value| == |colors.value|
    ensures r.ok <==> |tris| == 0 || (colors.Some? && TopsIn(tris, |colors.value|))
    ensures r.ok && colors.Some? ==> forall v :: 0 <= v < |colors.value| ==>
      r.colors.value[v] == if exists t :: 0 <= t < |tris| && TopOf(tris[t], v) then color else colors.value[v]
  {
    if |tris| == 0 then Recolored(colors, true)
    else if colors.None? then Recolored(colors, false)
    else
      var cs := colors.value;
      var t := tris[0];
      var a, c, b := 2 * t.i0 + 1, 2 * t.i2 + 1, 2 * t.i1 + 1;
      if a >= |cs| then Recolored(colors, false)
      else if c >= |cs| then Recolored(Some(cs[a := color]), false)
      else if b >= |cs| then Recolored(Some(cs[a := color][c := color]), false)
      else
        var rest := Recolor(Some(cs[a := color][c := color][b := color]), tris[1..], color);
        assert forall u :: 1 <= u < |tris| ==> tris[u] == tris[1..][u - 1];
        rest
  }

  /**
   * `Cap(color)` with the triangulator `triangulate`. Fewer than six
   * vertices (or none) change nothing. A failed triangulation or a null
   * face array change nothing. Otherwise the loop recolours top vertices;
   * if a write throws, only those writes remain. When the loop completes,
   * the cap faces are appended to the old faces and the normals recomputed
   * from them; if that throws, the new faces remain with the old normals.
   */
  function Cap(m: CsgMesh, color: Color, triangulate: seq<Vector2> -> ModelBuilder.Triangulation,
               unit: Vector3 -> Vector3): (r: CsgMesh)
    ensures r.vertices == m.vertices
    ensures m.vertices.None? || |m.vertices.value| < 6 ==> r == m
    ensures m.faces.None? ==> r == m
    ensures m.vertices.Some? && |m.vertices.value| >= 6 && triangulate(BottomPoints(m.vertices.value)).Failed? ==> r == m
    ensures r.faces != m.faces ==>
      m.faces.Some? && r.faces.Some? && m.faces.value <= r.faces.value &&
      triangulate(BottomPoints(m.vertices.value)).Triangles? &&
      Recolor(m.colors, triangulate(BottomPoints(m.vertices.value)).tris, color).ok &&
      r.faces.value == m.faces.value + CapFaces(triangulate(BottomPoints(m.vertices.value)).tris)
    ensures r.colors != m.colors ==>
      m.faces.Some? && triangulate(BottomPoints(m.vertices.value)).Triangles? &&
      r.colors == Recolor(m.colors, triangulate(BottomPoints(m.vertices.value)).tris, color).colors
    ensures r.normals != m.normals ==>
      m.faces.Some? && triangulate(BottomPoints(m.vertices.value)).Triangles? &&
      Recolor(m.colors, triangulate(BottomPoints(m.vertices.value)).tris, color).ok &&
      r.faces.Some? && Indexed(r.faces.value, |r.vertices.value|) &&
      r.normals == Some(CsgNormalsOf(r.vertices.value, r.faces.value, unit))
  {
    if m.vertices.None? || |m.vertices.value| < 6 then m
    else
      var vs := m.vertices.value;
      match triangulate(BottomPoints(vs))
      case Failed => m
      case Triangles(tris) =>
        if m.faces.None? then m
        else
          var rc := Recolor(m.colors, tris, color);
          if !rc.ok then m.(colors := rc.colors)
          else
            var faces := m.faces.value + CapFaces(tris);
            var capped := m.(faces := Some(faces), colors := rc.colors);
            if Indexed(faces, |vs|) then capped.(normals := Some(CsgNormalsOf(vs, faces, unit)))
            else capped
  }

  /** When the triangle loop completes and the grown face list is well indexed, `Cap` appends the cap and recomputes the normals. */
  lemma CapCompletes(m: CsgMesh, color: Color, triangulate: seq<Vector2> -> ModelBuilder.Triangulation,
                     unit: Vector3 -> Vector3)
    requires m.vertices.Some? && |m.vertices.value| >= 6 && m.faces.Some?
    requires triangulate(BottomPoints(m.vertices.value)).Triangles?
    requires Recolor(m.colors, triangulate(BottomPoints(m.vertices.value)).tris, color).ok
    requires Indexed(m.faces.value + CapFaces(triangulate(BottomPoints(m.vertices.value)).tris), |m.vertices.value|)
    ensures var tris := triangulate(BottomPoints(m.vertices.value)).tris;
      var faces := m.faces.value + CapFaces(tris);
      var r := Cap(m, color, triangulate, unit);
      && r.faces == Some(faces)
      && r.colors == Recolor(m.colors, tris, color).colors
      && r.normals == Some(CsgNormalsOf(m.vertices.value, faces, unit))
  {
  }

  /**
   * Capping an extruded body whose outline triangulates into triangles of
   * its points: the faces grow by six per triangle, every index stays in
   * range, and the normals are recomputed over walls and caps.
   */
  lemma CapBody(pts: seq<Vector2>, color: Color, triangulate: seq<Vector2> -> ModelBuilder.Triangulation,
                unit: Vector3 -> Vector3)
    requires |pts| >= 3
    requires triangulate(BottomPoints(BodyVertices(pts))).Triangles?
    requires TrisIn(triangulate(BottomPoints(BodyVertices(pts))).tris, |pts|)
    ensures var tris := triangulate(BottomPoints(BodyVertices(pts))).tris;
      var r := Cap(ComputeBody(pts, color, unit), color, triangulate, unit);
      && r.faces == Some(BodyFaces(|pts|) + CapFaces(tris))
      && |r.faces.value| == 6 * (|pts| - 1) + 6 * |tris|
      && Indexed(r.faces.value, 2 * |pts|)
      && r.normals == Some(CsgNormalsOf(BodyVertices(pts), r.faces.value, unit))
  {
    var body := ComputeBody(pts, color, unit);
    var tris := triangulate(BottomPoints(BodyVertices(pts))).tris;
    BodyCapIndexed(pts, tris);
    assert TopsIn(tris, 2 * |pts|);
    assert Recolor(body.colors, tris, color).ok;
    CapCompletes(body, color, triangulate, unit);
  }

  /** The walls and the cap of an extruded body only name its `2n` vertices. */
  lemma BodyCapIndexed(pts: seq<Vector2>, tris: seq<ModelBuilder.Tri>)
    requires TrisIn(tris, |pts|)
    ensures Indexed(BodyFaces(|pts|) + CapFaces(tris), 2 * |pts|)
  {
    BodyFacesIndexed(|pts|);
    CapIndexed(tris, 2 * |pts|);
    IndexedAppend(BodyFaces(|pts|), CapFaces(tris), 2 * |pts|);
  }

  lemma IndexedAppend(a: seq<int>, b: seq<int>, n: nat)
    requires Indexed(a, n) && Indexed(b, n)
    ensures Indexed(a + b, n)
  {
    assert |a| == 3 * (|a| / 3) && |b| == 3 * (|b| / 3);
    assert |a + b| == 3 * (|a| / 3 + |b| / 3);
    forall k | 0 <= k < |a + b| ensures 0 <= (a + b)[k] < n {
      if k >= |a| {
        assert (a + b)[k] == b[k - |a|];
      }
    }
  }
}

=== FILE: csg_polygon.dfy ===
/**
 * Polygon.cs of the csg experiment. Its `IsClosed`, `Contains(Vector2)` and
 * getters are the same code as SharpOSM's and are shared with the Polygons
 * module; what it adds is the polygon-in-polygon test.
 */
module CsgPolygon {
  import opened Geometry
  import opened Wrappers
  import opened Polygons

  /**
   * `Contains(Polygon other)`: scan the points of `other`, answering false at
   * the first one that is not contained, true when none fails. An empty
   * `other` is contained in anything; a non-empty one against a polygon
   * without points throws at `points[0]` (None).
   */
  function ContainsPolygon(poly: Polygon, other: Polygon): (r: Option<bool>)
    ensures r.None? <==> |poly.points| == 0 && |other.points| > 0
    ensures r == Some(true) <==>
      |other.points| == 0 || (|poly.points| > 0 && forall i :: 0 <= i < |other.points| ==> Contains(poly.points, other.points[i]))
  {
    ContainsFrom(poly.points, other.points, 0)
  }

  /** The scan from position `k` of `others` on. */
  function ContainsFrom(pts: seq<Vector2>, others: seq<Vector2>, k: nat): (r: Option<bool>)
    requires k <= |others|
    ensures r.None? <==> |pts| == 0 && k < |others|
    ensures r == Some(true) <==>
      k == |others| || (|pts| > 0 && forall i :: k <= i < |others| ==> Contains(pts, others[i]))
    decreases |others| - k
  {
    if k == |others| then Some(true)
    else if |pts| == 0 then None
    else if !Contains(pts, others[k]) then Some(false)
    else ContainsFrom(pts, others, k + 1)
  }

  /**
   * For a non-empty `other`, the csg test and SharpOSM's `Intersects` agree:
   * contained exactly when `Intersects` reports -1.
   */
  lemma ContainsMeansIntersectsBelowZero(poly: Polygon, other: Polygon)
    requires |other.points| > 0
    ensures ContainsPolygon(poly, other) == Some(true) <==> Intersects(poly, other) == Some(-1)
    ensures ContainsPolygon(poly, other).None? <==> Intersects(poly, other).None?
  {
  }
}

=== FILE: document.dfy ===
/**
 * The OSM document as the provider reads it: nodes, ways and relations in
 * document order, each with its tags. Element lookup by id is the
 * first-match LINQ query of the source over every element of that kind,
 * visible or not. The Mercator projection and the tile centre form a
 * `Frame`; the projection is a parameter.
 */
module Document {
  import opened Geometry
  import opened Wrappers
  import Polygons

  datatype Tag = Tag(k: string, v: string)

  /** A `node`; `visible` says the attribute reads exactly "true". Coordinates are already numbers. */
  datatype Node = Node(id: string, visible: bool, lat: real, lon: real, tags: seq<Tag>)

  /** A `way` with the `ref` of each of its `nd` children, in order. */
  datatype Way = Way(id: string, visible: bool, refs: seq<string>, tags: seq<Tag>)

  /** A relation `member`: its `type`, `ref` and `role` attributes. */
  datatype Member = Member(kind: string, ref: string, role: string)

  datatype Relation = Relation(id: string, visible: bool, members: seq<Member>, tags: seq<Tag>)

  datatype Doc = Doc(nodes: seq<Node>, ways: seq<Way>, relations: seq<Relation>)

  /** `MercatorHelper.ToMeters` and the centre of the tile every position is taken relative to. */
  datatype Frame = Frame(project: (real, real) -> Vector2, center: Vector2)

  /** `FindNodeById`: the first node with that id, if any. */
  function FindNode(nodes: seq<Node>, id: string): (r: Option<Node>)
    ensures r.None? <==> forall i :: 0 <= i < |nodes| ==> nodes[i].id != id
    ensures r.Some? ==> r.value.id == id
    ensures r.Some? ==>
      (exists i :: 0 <= i < |nodes| && nodes[i] == r.value && forall j :: 0 <= j < i ==> nodes[j].id != id)
  {
    if |nodes| == 0 then None
    else if nodes[0].id == id then Some(nodes[0])
    else
      var r := FindNode(nodes[1..], id);
      assert forall i :: 1 <= i < |nodes| ==> nodes[i] == nodes[1..][i - 1];
      if r.Some? then
        var i :| 0 <= i < |nodes| - 1 && nodes[1..][i] == r.value && r.value.id == id
          && forall j :: 0 <= j < i ==> nodes[1..][j].id != id;
        assert nodes[i + 1] == r.value;
        r
      else r
  }

  /** `FindWayById`: the first way with that id, if any. */
  function FindWay(ways: seq<Way>, id: string): (r: Option<Way>)
    ensures r.None? <==> forall i :: 0 <= i < |ways| ==> ways[i].id != id
    ensures r.Some? ==> r.value.id == id
    ensures r.Some? ==>
      (exists i :: 0 <= i < |ways| && ways[i] == r.value && forall j :: 0 <= j < i ==> ways[j].id != id)
  {
    if |ways| == 0 then None
    else if ways[0].id == id then Some(ways[0])
    else
      var r := FindWay(ways[1..], id);
      assert forall i :: 1 <= i < |ways| ==> ways[i] == ways[1..][i - 1];
      if r.Some? then
        var i :| 0 <= i < |ways| - 1 && ways[1..][i] == r.value && r.value.id == id
          && forall j :: 0 <= j < i ==> ways[1..][j].id != id;
        assert ways[i + 1] == r.value;
        r
      else r
  }

  /** A node's position on the tile: projected, then taken relative to the tile centre. */
  function Position(frame: Frame, n: Node): Vector2
  {
    var pos := frame.project(n.lat, n.lon);
    Vector2(pos.x - frame.center.x, pos.y - frame.center.y)
  }

  /** How many of the refs name a node of the document. */
  function ResolvedCount(nodes: seq<Node>, refs: seq<string>): (c: nat)
    ensures c <= |refs|
    ensures c == |refs| <==> forall i :: 0 <= i < |refs| ==> FindNode(nodes, refs[i]).Some?
  {
    if |refs| == 0 then 0
    else
      assert forall i :: 1 <= i < |refs| ==> refs[i] == refs[1..][i - 1];
      (if FindNode(nodes, refs[0]).Some? then 1 else 0) + ResolvedCount(nodes, refs[1..])
  }

  /** The footprint points of the refs: one per ref that names a node, in ref order. */
  function FootprintPoints(frame: Frame, nodes: seq<Node>, refs: seq<string>): (pts: seq<Vector2>)
    ensures |pts| == ResolvedCount(nodes, refs)
    ensures (forall i :: 0 <= i < |refs| ==> FindNode(nodes, refs[i]).Some?) ==>
      forall i :: 0 <= i < |refs| ==> pts[i] == Position(frame, FindNode(nodes, refs[i]).value)
  {
    if |refs| == 0 then []
    else
      var rest := FootprintPoints(frame, nodes, refs[1..]);
      assert forall i :: 1 <= i < |refs| ==> refs[i] == refs[1..][i - 1];
      match FindNode(nodes, refs[0])
      case Some(n) => [Position(frame, n)] + rest
      case None => rest
  }

  /**
   * `CreateFootprint(way)`: a plain polygon through the positions of the
   * way's nodes; a ref naming no node is skipped.
   */
  function CreateFootprint(doc: Doc, frame: Frame, way: Way): (p: Polygons.Polygon)
    ensures p.Plain?
    ensures |p.points| <= |way.refs|
    ensures |p.points| == |way.refs| <==> forall i :: 0 <= i < |way.refs| ==> FindNode(doc.nodes, way.refs[i]).Some?
  {
    Polygons.Plain(FootprintPoints(frame, doc.nodes, way.refs))
  }

  /** A way whose refs all name nodes, and whose last ref repeats its first, gives a closed footprint. */
  lemma FootprintClosed(frame: Frame, nodes: seq<Node>, refs: seq<string>)
    requires |refs| >= 3
    requires forall i :: 0 <= i < |refs| ==> FindNode(nodes, refs[i]).Some?
    requires refs[0] == refs[|refs| - 1]
    ensures Polygons.IsClosed(FootprintPoints(frame, nodes, refs))
  {
    var pts := FootprintPoints(frame, nodes, refs);
    var n := |refs|;
    assert |pts| == n;
    assert pts[0] == Position(frame, FindNode(nodes, refs[0]).value);
    assert pts[n - 1] == Position(frame, FindNode(nodes, refs[n - 1]).value);
  }

  /** `TileBound`: the two corners and the centre computed from them. */
  datatype TileBound = TileBound(topLeft: Vector2, bottomRight: Vector2, center: Vector2)

  /** The `TileBound` constructor: the centre is the midpoint of the two corners. */
  function NewTileBound(topLeft: Vector2, bottomRight: Vector2): (t: TileBound)
    ensures t.topLeft == topLeft && t.bottomRight == bottomRight
    ensures t.center.x - topLeft.x == bottomRight.x - t.center.x
    ensures t.center.y - bottomRight.y == topLeft.y - t.center.y
  {
    var width := bottomRight.x - topLeft.x;
    var height := topLeft.y - bottomRight.y;
    TileBound(topLeft, bottomRight, Vector2(topLeft.x + width * 0.5, bottomRight.y + height * 0.5))
  }
}

=== FILE: geometry.dfy ===
/**
 * Plane and space vectors. Coordinates are reals, so equality of two points is
 * exact coordinate equality and real division is exact.
 */
module Geometry {

  datatype Vector2 = Vector2(x: real, y: real)

  datatype Vector3 = Vector3(x: real, y: real, z: real)

  const Zero3: Vector3 := Vector3(0.0, 0.0, 0.0)

  function Add(a: Vector3, b: Vector3): Vector3
  {
    Vector3(a.x + b.x, a.y + b.y, a.z + b.z)
  }

  function Sub(a: Vector3, b: Vector3): Vector3
  {
    Vector3(a.x - b.x, a.y - b.y, a.z - b.z)
  }

  function Cross(a: Vector3, b: Vector3): Vector3
  {
    Vector3(a.y * b.z - a.z * b.y, a.z * b.x - a.x * b.z, a.x * b.y - a.y * b.x)
  }
}

=== FILE: mesh.dfy ===
/**
 * Mesh.cs of SharpOSM: vertex, face and colour arrays plus per-vertex normals.
 * A vertex normal is the normalised sum of the normals of the faces that
 * name it. `Vector3.Normalize` is a parameter `unit`; only which face
 * normals are added into which vertex is modelled.
 */
module Meshes {
  import opened Geometry
  import opened Wrappers
  import opened Colors

  /** A mesh built by one of the data constructors: arrays stored as given, normals derived. */
  datatype Mesh = Mesh(vertices: seq<Vector3>, faces: seq<int>, colors: Option<seq<Color>>, normals: seq<Vector3>)

  /** What `ComputeNormals` yields: null (a null input), an exception (bad indexing), or the normals. */
  datatype Normals = Absent | Fault | Computed(ns: seq<Vector3>)

  /** Faces come in triples and every index names one of `n` vertices. */
  predicate Indexed(faces: seq<int>, n: nat)
  {
    |faces| % 3 == 0 && forall k :: 0 <= k < |faces| ==> 0 <= faces[k] < n
  }

  /** `ComputeFaceNormal`: the normalised cross product of the two edges leaving `p0`. */
  function FaceNormal(unit: Vector3 -> Vector3, p0: Vector3, p1: Vector3, p2: Vector3): Vector3
  {
    unit(Cross(Sub(p1, p0), Sub(p2, p0)))
  }

  function AddIf(acc: Vector3, b: bool, n: Vector3): Vector3
  {
    if b then Add(acc, n) else acc
  }

  /**
   * The normal of triangle `t` as SharpOSM computes it: corners read in the
   * reverse of their stored order, `faces[3t+2]`, `faces[3t+1]`, `faces[3t]`.
   */
  function TriangleNormal(vs: seq<Vector3>, faces: seq<int>, unit: Vector3 -> Vector3, t: nat): Vector3
    requires Indexed(faces, |vs|) && t < |faces| / 3
  {
    FaceNormal(unit, vs[faces[3 * t + 2]], vs[faces[3 * t + 1]], vs[faces[3 * t]])
  }

  /**
   * The accumulator of vertex `v` after the first `t` triangles: each
   * triangle adds its normal once for every corner that is `v`.
   */
  function Accumulated(vs: seq<Vector3>, faces: seq<int>, unit: Vector3 -> Vector3, t: nat, v: int): Vector3
    requires Indexed(faces, |vs|) && t <= |faces| / 3
  {
    if t == 0 then Zero3
    else
      var n := TriangleNormal(vs, faces, unit, t - 1);
      var b := 3 * (t - 1);
      AddIf(AddIf(AddIf(Accumulated(vs, faces, unit, t - 1, v), v == faces[b + 2], n), v == faces[b + 1], n), v == faces[b], n)
  }

  /** The normals of a well-indexed mesh, vertex by vertex. */
  function NormalsOf(vs: seq<Vector3>, faces: seq<int>, unit: Vector3 -> Vector3): (ns: seq<Vector3>)
    requires Indexed(faces, |vs|)
    ensures |ns| == |vs|
  {
    seq(|vs|, v requires 0 <= v < |vs| => unit(Accumulated(vs, faces, unit, |faces| / 3, v)))
  }

  /**
   * `ComputeNormals`, loop by loop: a zeroed array with one slot per vertex,
   * each triangle's normal added into its three corners' slots, then every
   * slot normalised. Null input gives null; a face list that is not whole
   * triples, or an index outside the vertex array, throws.
   */
  method ComputeNormals(vertices: Option<seq<Vector3>>, faces: Option<seq<int>>, unit: Vector3 -> Vector3)
    returns (r: Normals)
    ensures r.Absent? <==> vertices.None? || faces.None?
    ensures vertices.Some? && faces.Some? ==> (r.Fault? <==> !Indexed(faces.value, |vertices.value|))
    ensures r.Computed? ==> Indexed(faces.value, |vertices.value|)
    ensures r.Computed? ==> |r.ns| == |vertices.value|
    ensures r.Computed? ==>
      forall v :: 0 <= v < |r.ns| ==> r.ns[v] == unit(Accumulated(vertices.value, faces.value, unit, |faces.value| / 3, v))
  {
    if vertices.None? || faces.None? {
      return Absent;
    }
    var vs, fs := vertices.value, faces.value;
    var normals := seq(|vs|, _ => Zero3);
    var idx := 0;
    while idx < |fs|
      invariant 0 <= idx <= |fs| && idx % 3 == 0
      invariant forall k :: 0 <= k < idx ==> 0 <= fs[k] < |vs|
      invariant |normals| == |vs|
      invariant Indexed(fs, |vs|) ==>
        forall v :: 0 <= v < |vs| ==> normals[v] == Accumulated(vs, fs, unit, idx / 3, v)
    {
      if idx + 2 >= |fs| || !(0 <= fs[idx + 2] < |vs|) || !(0 <= fs[idx + 1] < |vs|) || !(0 <= fs[idx] < |vs|) {
        return Fault;
      }
      var i, j, k := fs[idx + 2], fs[idx + 1], fs[idx];
      var normal := FaceNormal(unit, vs[i], vs[j], vs[k]);
      normals := normals[i := Add(normals[i], normal)];
      normals := normals[j := Add(normals[j], normal)];
      normals := normals[k := Add(normals[k], normal)];
      idx := idx + 3;
    }
    assert Indexed(fs, |vs|);
    var v := 0;
    while v < |normals|
      invariant 0 <= v <= |normals| == |vs|
      invariant forall w :: 0 <= w < v ==> normals[w] == unit(Accumulated(vs, fs, unit, |fs| / 3, w))
      invariant forall w :: v <= w < |vs| ==> normals[w] == Accumulated(vs, fs, unit, |fs| / 3, w)
    {
      normals := normals[v := unit(normals[v])];
      v := v + 1;
    }
    return Computed(normals);
  }

  /** A vertex that no face names keeps a zero accumulator; its normal is `unit` of zero. */
  lemma {:induction false} UnreferencedVertex(vs: seq<Vector3>, faces: seq<int>, unit: Vector3 -> Vector3, t: nat, v: int)
    requires Indexed(faces, |vs|) && t <= |faces| / 3
    requires forall k :: 0 <= k < 3 * t ==> faces[k] != v
    ensures Accumulated(vs, faces, unit, t, v) == Zero3
  {
    if t > 0 {
      UnreferencedVertex(vs, faces, unit, t - 1, v);
    }
  }

  /** `n` added `m` times. */
  function Times(m: nat, n: Vector3): Vector3
  {
    if m == 0 then Zero3 else Add(Times(m - 1, n), n)
  }

  /** How many corners of triangle `t` are vertex `v` (0 to 3). */
  function Multiplicity(faces: seq<int>, t: nat, v: int): (m: nat)
    requires 3 * t + 2 < |faces|
    ensures m <= 3
    ensures m == 0 <==> faces[3 * t] != v && faces[3 * t + 1] != v && faces[3 * t + 2] != v
  {
    (if faces[3 * t] == v then 1 else 0) + (if faces[3 * t + 1] == v then 1 else 0) + (if faces[3 * t + 2] == v then 1 else 0)
  }

  /** Every triangle's normal weighted by how often the triangle names `v`, summed. */
  function WeightedSum(vs: seq<Vector3>, faces: seq<int>, unit: Vector3 -> Vector3, t: nat, v: int): Vector3
    requires Indexed(faces, |vs|) && t <= |faces| / 3
  {
    if t == 0 then Zero3
    else Add(WeightedSum(vs, faces, unit, t - 1, v), Times(Multiplicity(faces, t - 1, v), TriangleNormal(vs, faces, unit, t - 1)))
  }

  /**
   * The scatter loop of `ComputeNormals` computes, for every vertex, the sum
   * of the normals of the triangles naming it, each counted once per corner.
   */
  lemma {:induction false} AccumulatedIsWeightedSum(vs: seq<Vector3>, faces: seq<int>, unit: Vector3 -> Vector3, t: nat, v: int)
    requires Indexed(faces, |vs|) && t <= |faces| / 3
    ensures Accumulated(vs, faces, unit, t, v) == WeightedSum(vs, faces, unit, t, v)
  {
    if t > 0 {
      AccumulatedIsWeightedSum(vs, faces, unit, t - 1, v);
      var n := TriangleNormal(vs, faces, unit, t - 1);
      var m := Multiplicity(faces, t - 1, v);
      assert Times(1, n) == Add(Zero3, n);
      assert Times(2, n) == Add(Add(Zero3, n), n);
      assert Times(3, n) == Add(Add(Add(Zero3, n), n), n);
    }
  }

  /**
   * `new Mesh(vertices, faces)` and `new Mesh(vertices, faces, colors)`: the
   * arrays are stored unchanged and the normals derived from them; a badly
   * indexed face list makes the constructor throw (None).
   */
  function NewMesh(vertices: seq<Vector3>, faces: seq<int>, colors: Option<seq<Color>>, unit: Vector3 -> Vector3): (r: Option<Mesh>)
    ensures r.Some? <==> Indexed(faces, |vertices|)
    ensures r.Some? ==> r.value.vertices == vertices && r.value.faces == faces && r.value.colors == colors
    ensures r.Some? ==> |r.value.normals| == |vertices|
  {
    if Indexed(faces, |vertices|) then Some(Mesh(vertices, faces, colors, NormalsOf(vertices, faces, unit))) else None
  }

  /** The constructor's normals are the ones the `ComputeNormals` loop produces. */
  method NewMeshNormals(vertices: seq<Vector3>, faces: seq<int>, colors: Option<seq<Color>>, unit: Vector3 -> Vector3)
    returns (r: Normals)
    ensures NewMesh(vertices, faces, colors, unit).Some? <==> r.Computed?
    ensures r.Computed? ==> r.ns == NewMesh(vertices, faces, colors, unit).value.normals
  {
    r := ComputeNormals(Some(vertices), Some(faces), unit);
  }
}

=== FILE: model_builder.dfy ===
/**
 * ModelBuilder.cs: the extruded mesh of a building part and the crossed-quad
 * mesh of a tree.
 *
 * A footprint with `T` points in all (outline, then the holes in order) gives
 * `2T` vertices: vertex `v < T` is footprint point `v` at the bottom height,
 * vertex `v + T` the same point at the top height. Each ring contributes two
 * wall triangles per edge between consecutive points, and the triangulation of
 * the footprint, lifted to the top level with its winding reversed, forms the
 * roof. The Poly2Tri triangulator is a parameter: what it made of the
 * footprint, or that it threw.
 */
module ModelBuilder {
  import opened Geometry
  import opened Wrappers
  import Colors
  import opened Polygons
  import opened Meshes
  import opened ShapeData

  /** A triangle of the triangulated footprint: the footprint numbers of its corners. */
  datatype Tri = Tri(i0: nat, i1: nat, i2: nat)

  /** The outcome of `P2T.Triangulate`: an exception, or the triangles. */
  datatype Triangulation = Failed | Triangles(tris: seq<Tri>)

  /** The outline, then each hole's points: the rings whose points are numbered in turn. */
  function Rings(poly: Polygon): (rs: seq<seq<Vector2>>)
    ensures |rs| == 1 + |poly.Holes()| && rs[0] == poly.points
    ensures forall h :: 0 <= h < |poly.Holes()| ==> rs[h + 1] == poly.Holes()[h].points
  {
    [poly.points] + seq(|poly.Holes()|, h requires 0 <= h < |poly.Holes()| => poly.Holes()[h].points)
  }

  function Flatten(rs: seq<seq<Vector2>>): seq<Vector2>
  {
    if |rs| == 0 then [] else rs[0] + Flatten(rs[1..])
  }

  /** The number of the first point of ring `r`: the points of the rings before it. */
  function Offset(rs: seq<seq<Vector2>>, r: nat): nat
    requires r <= |rs|
  {
    if r == 0 then 0 else |rs[0]| + Offset(rs[1..], r - 1)
  }

  /** Point `i` of ring `r` has number `Offset(rs, r) + i`. */
  lemma {:induction false} FlattenIndex(rs: seq<seq<Vector2>>, r: nat, i: nat)
    requires r < |rs| && i < |rs[r]|
    ensures Offset(rs, r) + i < |Flatten(rs)|
    ensures Flatten(rs)[Offset(rs, r) + i] == rs[r][i]
  {
    if r > 0 {
      FlattenIndex(rs[1..], r - 1, i);
    }
  }

  lemma {:induction false} FlattenLength(rs: seq<seq<Vector2>>, r: nat)
    requires r <= |rs|
    ensures Offset(rs, r) + |Flatten(rs[r..])| == |Flatten(rs)|
  {
    if r > 0 {
      FlattenLength(rs[1..], r - 1);
      assert rs[1..][r - 1..] == rs[r..];
    }
  }

  /** `total`: the points of the outline and of every hole. */
  function Total(poly: Polygon): nat
  {
    |Flatten(Rings(poly))|
  }

  /** A footprint point at height `y`; the map's y axis becomes minus z. */
  function Lift(p: Vector2, y: real): Vector3
  {
    Vector3(p.x, y, -p.y)
  }

  /** The vertex array: every footprint point at the bottom, then every one at the top. */
  function Vertices(poly: Polygon, minY: real, maxY: real): (vs: seq<Vector3>)
    ensures |vs| == 2 * Total(poly)
  {
    var pts := Flatten(Rings(poly));
    var t := |pts|;
    seq(2 * t, v requires 0 <= v < 2 * t => if v < t then Lift(pts[v], minY) else Lift(pts[v - t], maxY))
  }

  /** The two wall triangles of the edge from point `a` to point `a + 1`. */
  function Quad(a: nat, t: nat): seq<int>
  {
    [a + t, a, a + 1, a + t, a + 1, a + t + 1]
  }

  /** The walls of a ring of `n` points numbered from `o`: one quad per edge between consecutive points. */
  function RingWalls(n: nat, o: nat, t: nat): (w: seq<int>)
    ensures |w| == if n == 0 then 0 else 6 * (n - 1)
  {
    if n <= 1 then [] else RingWalls(n - 1, o, t) + Quad(o + n - 2, t)
  }

  /** The walls of every ring, the first ring numbered from `o`. */
  function Walls(rs: seq<seq<Vector2>>, o: nat, t: nat): seq<int>
  {
    if |rs| == 0 then [] else RingWalls(|rs[0]|, o, t) + Walls(rs[1..], o + |rs[0]|, t)
  }

  /** Where the walls of ring `r` start in the face list. */
  function WallStart(rs: seq<seq<Vector2>>, r: nat): nat
    requires r <= |rs|
  {
    if r == 0 then 0 else |RingWalls(|rs[0]|, 0, 0)| + WallStart(rs[1..], r - 1)
  }

  /** Corner `m` of the roof triangle over `tri`: the corners top-level and in reverse order. */
  function RoofCorner(tri: Tri, m: nat, t: nat): int
  {
    if m == 0 then tri.i2 + t else if m == 1 then tri.i1 + t else tri.i0 + t
  }

  function RoofFaces(tris: seq<Tri>, t: nat): (f: seq<int>)
    ensures |f| == 3 * |tris|
  {
    seq(3 * |tris|, k requires 0 <= k < 3 * |tris| => RoofCorner(tris[k / 3], k % 3, t))
  }

  /** Every triangle names footprint points only. */
  predicate TrisIn(tris: seq<Tri>, t: nat)
  {
    forall k :: 0 <= k < |tris| ==> tris[k].i0 < t && tris[k].i1 < t && tris[k].i2 < t
  }

  /** The roof-colour loop: each triangle recolours its three top vertices. */
  function Paint(colors: seq<Colors.Color>, tris: seq<Tri>, t: nat, c: Colors.Color): (r: seq<Colors.Color>)
    requires |colors| == 2 * t && TrisIn(tris, t)
    ensures |r| == |colors|
    decreases |tris|
  {
    if |tris| == 0 then colors
    else
      var tri := tris[0];
      Paint(colors[tri.i0 + t := c][tri.i2 + t := c][tri.i1 + t := c], tris[1..], t, c)
  }

  /** Vertex `v` is the top copy of a corner of some triangle. */
  predicate Painted(v: int, tris: seq<Tri>, t: nat)
  {
    exists k :: 0 <= k < |tris| && (v == tris[k].i0 + t || v == tris[k].i1 + t || v == tris[k].i2 + t)
  }

  /** After the loop, exactly the top copies of triangle corners have the roof colour; the rest keep theirs. */
  lemma {:induction false} PaintSpec(colors: seq<Colors.Color>, tris: seq<Tri>, t: nat, c: Colors.Color, v: nat)
    requires |colors| == 2 * t && TrisIn(tris, t) && v < 2 * t
    ensures Paint(colors, tris, t, c)[v] == if Painted(v, tris, t) then c else colors[v]
    decreases |tris|
  {
    if |tris| > 0 {
      var tri := tris[0];
      var next := colors[tri.i0 + t := c][tri.i2 + t := c][tri.i1 + t := c];
      assert TrisIn(tris[1..], t) by {
        forall k | 0 <= k < |tris| - 1
          ensures tris[1..][k].i0 < t && tris[1..][k].i1 < t && tris[1..][k].i2 < t
        {
          assert tris[1..][k] == tris[k + 1];
        }
      }
      PaintSpec(next, tris[1..], t, c, v);
      if Painted(v, tris[1..], t) {
        var k :| 0 <= k < |tris| - 1 && (v == tris[1..][k].i0 + t || v == tris[1..][k].i1 + t || v == tris[1..][k].i2 + t);
        assert tris[1..][k] == tris[k + 1];
        assert Painted(v, tris, t);
      } else if v == tri.i0 + t || v == tri.i1 + t || v == tri.i2 + t {
        assert Painted(v, tris, t);
      } else {
        assert !Painted(v, tris, t) by {
          forall k | 0 <= k < |tris|
            ensures !(v == tris[k].i0 + t || v == tris[k].i1 + t || v == tris[k].i2 + t)
          {
            if k > 0 {
              assert tris[k] == tris[1..][k - 1];
            }
          }
        }
      }
    }
  }

  /** The quads of a ring name only its own points, at either level. */
  lemma {:induction false} RingWallsIndexed(n: nat, o: nat, t: nat)
    requires o + n <= t
    ensures forall k :: 0 <= k < |RingWalls(n, o, t)| ==> 0 <= RingWalls(n, o, t)[k] < 2 * t
  {
    if n > 1 {
      RingWallsIndexed(n - 1, o, t);
    }
  }

  lemma {:induction false} WallsIndexed(rs: seq<seq<Vector2>>, o: nat, t: nat)
    requires o + |Flatten(rs)| <= t
    ensures forall k :: 0 <= k < |Walls(rs, o, t)| ==> 0 <= Walls(rs, o, t)[k] < 2 * t
  {
    if |rs| > 0 {
      RingWallsIndexed(|rs[0]|, o, t);
      WallsIndexed(rs[1..], o + |rs[0]|, t);
      var a, b := RingWalls(|rs[0]|, o, t), Walls(rs[1..], o + |rs[0]|, t);
      assert forall k :: 0 <= k < |a + b| ==> (a + b)[k] == if k < |a| then a[k] else b[k - |a|];
    }
  }

  /** Edge `i` of a ring numbered from `o` has its quad at `6 * i`. */
  lemma {:induction false} RingWallsAt(n: nat, o: nat, t: nat, i: nat, j: nat)
    requires i + 1 < n && j < 6
    ensures 6 * i + j < |RingWalls(n, o, t)|
    ensures RingWalls(n, o, t)[6 * i + j] == Quad(o + i, t)[j]
  {
    if i + 2 < n {
      RingWallsAt(n - 1, o, t, i, j);
    }
  }

  /** Edge `i` of ring `r` has its quad at `WallStart(rs, r) + 6 * i`, over points `Offset(rs, r) + i` and the next. */
  lemma {:induction false} WallsAt(rs: seq<seq<Vector2>>, o: nat, t: nat, r: nat, i: nat, j: nat)
    requires r < |rs| && i + 1 < |rs[r]| && j < 6
    ensures WallStart(rs, r) + 6 * i + j < |Walls(rs, o, t)|
    ensures Walls(rs, o, t)[WallStart(rs, r) + 6 * i + j] == Quad(o + Offset(rs, r) + i, t)[j]
  {
    if r == 0 {
      RingWallsAt(|rs[0]|, o, t, i, j);
    } else {
      WallsAt(rs[1..], o + |rs[0]|, t, r - 1, i, j);
    }
  }

  /** The six wall entries of edge `i` of ring `r`, together. */
  lemma WallQuad(rs: seq<seq<Vector2>>, o: nat, t: nat, r: nat, i: nat)
    requires r < |rs| && i + 1 < |rs[r]|
    ensures WallStart(rs, r) + 6 * i + 6 <= |Walls(rs, o, t)|
    ensures var s := WallStart(rs, r) + 6 * i;
      Walls(rs, o, t)[s..s + 6] == Quad(o + Offset(rs, r) + i, t)
  {
    WallsAt(rs, o, t, r, i, 0);
    WallsAt(rs, o, t, r, i, 1);
    WallsAt(rs, o, t, r, i, 2);
    WallsAt(rs, o, t, r, i, 3);
    WallsAt(rs, o, t, r, i, 4);
    WallsAt(rs, o, t, r, i, 5);
  }

  /** The face list: the walls of every ring, then the roof. */
  function Faces(poly: Polygon, tris: seq<Tri>): seq<int>
  {
    Walls(Rings(poly), 0, Total(poly)) + RoofFaces(tris, Total(poly))
  }

  /** The colour array: the body colour everywhere, then the roof colour on the roof's vertices. */
  function VertexColors(poly: Polygon, body: PartData, roof: RoofData, tris: seq<Tri>): (cs: seq<Colors.Color>)
    requires TrisIn(tris, Total(poly))
    ensures |cs| == 2 * Total(poly)
  {
    Paint(seq(2 * Total(poly), _ => body.surface.color), tris, Total(poly), roof.surface.color)
  }

  /** The faces of a well-triangulated footprint name only vertices of the mesh. */
  lemma FacesIndexed(poly: Polygon, tris: seq<Tri>)
    requires TrisIn(tris, Total(poly))
    ensures Indexed(Faces(poly, tris), 2 * Total(poly))
  {
    var t := Total(poly);
    WallsIndexed(Rings(poly), 0, t);
    var w, f := Walls(Rings(poly), 0, t), RoofFaces(tris, t);
    assert |w| % 3 == 0 by {
      WallsMultipleOfSix(Rings(poly), 0, t);
    }
    forall k | 0 <= k < |f|
      ensures 0 <= f[k] < 2 * t
    {
      assert tris[k / 3].i0 < t && tris[k / 3].i1 < t && tris[k / 3].i2 < t;
    }
    assert forall k :: 0 <= k < |w + f| ==> (w + f)[k] == if k < |w| then w[k] else f[k - |w|];
  }

  lemma {:induction false} WallsMultipleOfSix(rs: seq<seq<Vector2>>, o: nat, t: nat)
    ensures |Walls(rs, o, t)| % 6 == 0
  {
    if |rs| > 0 {
      WallsMultipleOfSix(rs[1..], o + |rs[0]|, t);
    }
  }

  /**
   * The rings handed to Poly2Tri's `Polygon` constructor: the outline, then
   * each hole. That constructor rejects a list of fewer than three points
   * with an exception, and `CreateMesh` calls it before its `try`.
   */
  predicate OutlineRejected(poly: Polygon)
  {
    exists k :: 0 <= k < |Rings(poly)| && |Rings(poly)[k]| < 3
  }

  /** What `CreateMesh` gives back: a mesh or null, or an exception it does not catch. */
  datatype Built = Returned(mesh: Option<Mesh>) | Thrown

  /**
   * `CreateMesh(BuildingPart)`: the rings are handed to the triangulator's
   * polygon constructors before the `try`, so a ring of fewer than three
   * points throws out of `CreateMesh`. Otherwise the result is the mesh of
   * `TriangulatedMesh`, which is null when the triangulation fails.
   */
  function CreateMesh(poly: Polygon, body: PartData, roof: RoofData, tri: Triangulation, unit: Vector3 -> Vector3): (r: Built)
    ensures r.Thrown? <==> exists k :: 0 <= k < |Rings(poly)| && |Rings(poly)[k]| < 3
    ensures r.Thrown? ==> |poly.points| < 3 || exists h :: 0 <= h < |poly.Holes()| && |poly.Holes()[h].points| < 3
    ensures r.Returned? ==> (r.mesh.Some? <==> tri.Triangles? && TrisIn(tri.tris, Total(poly)))
    ensures r.Returned? ==> r.mesh == TriangulatedMesh(poly, body, roof, tri, unit)
  {
    if OutlineRejected(poly) then
      var k :| 0 <= k < |Rings(poly)| && |Rings(poly)[k]| < 3;
      assert k > 0 ==> Rings(poly)[k] == poly.Holes()[k - 1].points;
      Thrown
    else Returned(TriangulatedMesh(poly, body, roof, tri, unit))
  }

  /**
   * The part of `CreateMesh` from the `try` on: the extruded footprint with
   * a roof between the part's minimum height and its height. Null when the
   * triangulator throws, or when one of its triangles has a corner that is
   * not a footprint point (the cast to the indexed point type fails).
   */
  function TriangulatedMesh(poly: Polygon, body: PartData, roof: RoofData, tri: Triangulation, unit: Vector3 -> Vector3): (r: Option<Mesh>)
    ensures r.Some? <==> tri.Triangles? && TrisIn(tri.tris, Total(poly))
    ensures r.Some? ==> |r.value.vertices| == 2 * Total(poly)
    ensures r.Some? ==> Indexed(r.value.faces, |r.value.vertices|)
    ensures r.Some? ==> r.value.colors.Some? && |r.value.colors.value| == |r.value.vertices|
    ensures r.Some? ==> |r.value.faces| == |Walls(Rings(poly), 0, Total(poly))| + 3 * |tri.tris|
  {
    if tri.Failed? || !TrisIn(tri.tris, Total(poly)) then Option.None
    else
      FacesIndexed(poly, tri.tris);
      NewMesh(Vertices(poly, body.min_height, body.height), Faces(poly, tri.tris),
        Some(VertexColors(poly, body, roof, tri.tris)), unit)
  }

  /** A footprint of fewer than three points, such as the empty one, makes `CreateMesh` throw. */
  lemma ShortOutlineThrows(poly: Polygon, body: PartData, roof: RoofData, tri: Triangulation, unit: Vector3 -> Vector3)
    requires |poly.points| < 3
    ensures CreateMesh(poly, body, roof, tri, unit).Thrown?
  {
    assert |Rings(poly)[0]| < 3;
  }

  /** Footprint point `i` of ring `r` is vertex `Offset + i` at the bottom and `Offset + i + T` at the top. */
  lemma MeshVertices(poly: Polygon, body: PartData, roof: RoofData, tri: Triangulation, unit: Vector3 -> Vector3, r: nat, i: nat)
    requires TriangulatedMesh(poly, body, roof, tri, unit).Some?
    requires r < |Rings(poly)| && i < |Rings(poly)[r]|
    ensures var m := TriangulatedMesh(poly, body, roof, tri, unit).value;
      var v := Offset(Rings(poly), r) + i;
      && v < Total(poly)
      && m.vertices[v] == Lift(Rings(poly)[r][i], body.min_height)
      && m.vertices[v + Total(poly)] == Lift(Rings(poly)[r][i], body.height)
  {
    FlattenIndex(Rings(poly), r, i);
  }

  /**
   * Each edge between consecutive points of a ring is a wall of two
   * triangles joining the two points at both levels. A ring's last point is
   * not joined to its first: an open ring leaves that wall out.
   */
  lemma MeshWalls(poly: Polygon, body: PartData, roof: RoofData, tri: Triangulation, unit: Vector3 -> Vector3, r: nat, i: nat)
    requires TriangulatedMesh(poly, body, roof, tri, unit).Some?
    requires r < |Rings(poly)| && i + 1 < |Rings(poly)[r]|
    ensures var f := TriangulatedMesh(poly, body, roof, tri, unit).value.faces;
      var s := WallStart(Rings(poly), r) + 6 * i;
      var a := Offset(Rings(poly), r) + i;
      var t := Total(poly);
      && s + 6 <= |f|
      && f[s..s + 6] == [a + t, a, a + 1, a + t, a + 1, a + t + 1]
  {
    var rs, t := Rings(poly), Total(poly);
    var f := TriangulatedMesh(poly, body, roof, tri, unit).value.faces;
    var w := Walls(rs, 0, t);
    assert f == w + RoofFaces(tri.tris, t);
    var s := WallStart(rs, r) + 6 * i;
    WallQuad(rs, 0, t, r, i);
    assert f[s..s + 6] == w[s..s + 6];
  }

  /** Roof triangle `k` is triangle `k` of the footprint lifted to the top, corners in reverse order. */
  lemma MeshRoof(poly: Polygon, body: PartData, roof: RoofData, tri: Triangulation, unit: Vector3 -> Vector3, k: nat)
    requires TriangulatedMesh(poly, body, roof, tri, unit).Some?
    requires k < |tri.tris|
    ensures var f := TriangulatedMesh(poly, body, roof, tri, unit).value.faces;
      var s := |Walls(Rings(poly), 0, Total(poly))| + 3 * k;
      var t := Total(poly);
      && s + 3 <= |f|
      && f[s..s + 3] == [tri.tris[k].i2 + t, tri.tris[k].i1 + t, tri.tris[k].i0 + t]
  {
    var t := Total(poly);
    var w := Walls(Rings(poly), 0, t);
    var rf := RoofFaces(tri.tris, t);
    var f := TriangulatedMesh(poly, body, roof, tri, unit).value.faces;
    assert f == w + rf;
    assert (3 * k) / 3 == k && (3 * k + 1) / 3 == k && (3 * k + 2) / 3 == k;
    assert rf[3 * k] == tri.tris[k].i2 + t;
    assert rf[3 * k + 1] == tri.tris[k].i1 + t;
    assert rf[3 * k + 2] == tri.tris[k].i0 + t;
  }

  /** A vertex has the roof colour exactly when it is a top corner of a roof triangle, else the body colour. */
  lemma MeshColors(poly: Polygon, body: PartData, roof: RoofData, tri: Triangulation, unit: Vector3 -> Vector3, v: nat)
    requires TriangulatedMesh(poly, body, roof, tri, unit).Some?
    requires v < 2 * Total(poly)
    ensures TriangulatedMesh(poly, body, roof, tri, unit).value.colors.value[v] ==
      if Painted(v, tri.tris, Total(poly)) then roof.surface.color else body.surface.color
  {
    PaintSpec(seq(2 * Total(poly), _ => body.surface.color), tri.tris, Total(poly), roof.surface.color, v);
  }

  /**
   * `CreateMesh(Natural)`: two upright triangles crossing at the tree's
   * anchor, each as wide as the circumference, from height 1 to the tree
   * height, all green.
   */
  function TreeMesh(anchor: Vector2, data: NaturalData, unit: Vector3 -> Vector3): (m: Mesh)
    ensures |m.vertices| == 6 && m.faces == [0, 1, 2, 3, 4, 5]
    ensures m.colors == Some(seq(6, _ => Colors.Green))
  {
    var x, z, h, r := anchor.x, -anchor.y, data.height, data.circumference * 0.5;
    var vs := [Vector3(x - r, 1.0, z), Vector3(x, h, z), Vector3(x + r, 1.0, z),
               Vector3(x, 1.0, z - r), Vector3(x, h, z), Vector3(x, 1.0, z + r)];
    var fs := [0, 1, 2, 3, 4, 5];
    assert Indexed(fs, |vs|);
    NewMesh(vs, fs, Some(seq(6, _ => Colors.Green)), unit).value
  }

  /**
   * The two tree triangles share their apex above the anchor at the tree
   * height; the first stands in the plane of constant z, the second in the
   * plane of constant x, each with a base centred under the apex and as wide
   * as the circumference.
   */
  lemma TreeShape(anchor: Vector2, data: NaturalData, unit: Vector3 -> Vector3)
    ensures var vs := TreeMesh(anchor, data, unit).vertices;
      && vs[1] == vs[4] == Vector3(anchor.x, data.height, -anchor.y)
      && vs[0].z == vs[1].z == vs[2].z && vs[3].x == vs[4].x == vs[5].x
      && vs[0].y == vs[2].y == vs[3].y == vs[5].y == 1.0
      && vs[0].x + vs[2].x == 2.0 * anchor.x && vs[3].z + vs[5].z == -2.0 * anchor.y
      && vs[2].x - vs[0].x == data.circumference && vs[5].z - vs[3].z == data.circumference
  {
  }
}

=== FILE: numbers.dfy ===
/**
 * `MatchFloat` and `MatchShort` of OsmProvider.cs: tag values such as
 * "12 m" or "3,5" read as numbers. Both first drop every character that
 * cannot belong to a number; then `MatchFloat` tries the French notation
 * (decimal comma) and, failing that, the invariant one (decimal point),
 * while `MatchShort` reads an optionally negative integer that must fit
 * in 16 bits. A failed parse reports false and leaves 0 in the out field.
 */
module Numbers {
  import opened Wrappers
  import Text

  predicate AllDigits(s: string)
  {
    forall i :: 0 <= i < |s| ==> Text.IsDigit(s[i])
  }

  function DigitValue(c: char): (d: nat)
    requires Text.IsDigit(c)
    ensures d < 10
  {
    c as int - '0' as int
  }

  /** The value of a run of decimal digits, most significant first ("" reads as 0). */
  function DigitsValue(s: string): nat
    requires AllDigits(s)
  {
    if |s| == 0 then 0 else 10 * DigitsValue(s[..|s| - 1]) + DigitValue(s[|s| - 1])
  }

  function Pow10(n: nat): (p: nat)
    ensures p > 0
  {
    if n == 0 then 1 else 10 * Pow10(n - 1)
  }

  /** The position of the first `c` in `s`, or `|s|` when there is none. */
  function IndexOf(s: string, c: char): (i: nat)
    ensures i <= |s|
    ensures i < |s| ==> s[i] == c
    ensures forall j :: 0 <= j < i ==> s[j] != c
  {
    if |s| == 0 then 0
    else if s[0] == c then 0
    else 1 + IndexOf(s[1..], c)
  }

  /**
   * An unsigned number with `sep` as the decimal separator: digits,
   * optionally followed by the separator and more digits, with at least one
   * digit in all.
   */
  function Unsigned(s: string, sep: char): (r: Option<real>)
    ensures r.Some? ==> r.value >= 0.0
  {
    var i := IndexOf(s, sep);
    if i == |s| then
      if |s| > 0 && AllDigits(s) then Some(DigitsValue(s) as real) else None
    else
      var whole, fraction := s[..i], s[i + 1..];
      if |whole| + |fraction| > 0 && AllDigits(whole) && AllDigits(fraction) then
        Some(Decimal(whole, fraction))
      else None
  }

  /** The value of whole digits `w` followed by fraction digits `f`. */
  function Decimal(w: string, f: string): (v: real)
    requires AllDigits(w) && AllDigits(f)
    ensures v >= 0.0
  {
    DigitsValue(w) as real + DigitsValue(f) as real / Pow10(|f|) as real
  }

  function Negate(r: Option<real>): Option<real>
  {
    if r.Some? then Some(-r.value) else None
  }

  /** A number under `NumberStyles.Any`: one minus sign, leading or trailing, is allowed. */
  function Signed(s: string, sep: char): Option<real>
  {
    if |s| > 0 && s[0] == '-' then Negate(Unsigned(s[1..], sep))
    else if |s| > 0 && s[|s| - 1] == '-' then Negate(Unsigned(s[..|s| - 1], sep))
    else Unsigned(s, sep)
  }

  /** The characters `[0-9-,.]` that MatchFloat keeps. */
  predicate IsFloatChar(c: char)
  {
    Text.IsDigit(c) || c == '-' || c == ',' || c == '.'
  }

  /** The characters `[0-9-]` that MatchShort keeps. */
  predicate IsShortChar(c: char)
  {
    Text.IsDigit(c) || c == '-'
  }

  /**
   * `MatchFloat(exp, out value)`: whether the filtered expression reads as a
   * number, French notation first, and the value read; null or unreadable
   * input gives false and 0.
   */
  function MatchFloat(exp: Option<string>): (r: (bool, real))
    ensures !r.0 ==> r.1 == 0.0
    ensures exp.None? ==> !r.0
  {
    if exp.None? then (false, 0.0)
    else
      var s := Text.Filter(exp.value, IsFloatChar);
      var french := Signed(s, ',');
      if french.Some? then (true, french.value)
      else
        var neutral := Signed(s, '.');
        if neutral.Some? then (true, neutral.value) else (false, 0.0)
  }

  /** An integer under `NumberStyles.Integer`: an optional leading minus sign, then at least one digit. */
  function Integer(s: string): Option<int>
  {
    if |s| > 0 && s[0] == '-' then
      if |s| > 1 && AllDigits(s[1..]) then Some(0 - DigitsValue(s[1..])) else None
    else if |s| > 0 && AllDigits(s) then Some(DigitsValue(s))
    else None
  }

  /**
   * `MatchShort(exp, out value)`: whether the filtered expression reads as an
   * integer in the range of `short`, and its value; otherwise false and 0.
   */
  function MatchShort(exp: string): (r: (bool, int))
    ensures -32768 <= r.1 <= 32767
    ensures !r.0 ==> r.1 == 0
  {
    var v := Integer(Text.Filter(exp, IsShortChar));
    if v.Some? && -32768 <= v.value <= 32767 then (true, v.value) else (false, 0)
  }

  /** The decimal digits of a natural number, as `ToString` writes them. */
  function Render(n: nat): string
  {
    if n < 10 then [('0' as int + n) as char]
    else Render(n / 10) + [('0' as int + n % 10) as char]
  }

  /** Writing a number and reading its digits back gives the number. */
  lemma {:induction false} RenderValue(n: nat)
    ensures |Render(n)| > 0 && AllDigits(Render(n))
    ensures DigitsValue(Render(n)) == n
  {
    if n >= 10 {
      RenderValue(n / 10);
      var s := Render(n);
      assert s[..|s| - 1] == Render(n / 10);
    }
  }

  /** A number written with a unit after it reads as the number alone. */
  lemma MatchFloatIgnoresUnit(s: string, unit: string)
    requires forall i :: 0 <= i < |unit| ==> !IsFloatChar(unit[i])
    ensures MatchFloat(Some(s + unit)) == MatchFloat(Some(s))
  {
    Text.FilterDropsSuffix(s, unit, IsFloatChar);
  }

  /** A whole number reads back as itself. */
  lemma MatchFloatWhole(n: nat)
    ensures MatchFloat(Some(Render(n))) == (true, n as real)
  {
    RenderValue(n);
    assert Text.Filter(Render(n), IsFloatChar) == Render(n);
    assert IndexOf(Render(n), ',') == |Render(n)|;
  }

  /** A negative whole number reads back as itself. */
  lemma MatchFloatNegative(n: nat)
    ensures MatchFloat(Some("-" + Render(n))) == (true, -(n as real))
  {
    RenderValue(n);
    var s := "-" + Render(n);
    assert Text.Filter(s, IsFloatChar) == s;
    assert s[1..] == Render(n);
    assert IndexOf(Render(n), ',') == |Render(n)|;
  }

  /** The value of whole part `a` and fraction digits `b`. */
  function DecimalValue(a: nat, b: nat): real
  {
    a as real + b as real / Pow10(|Render(b)|) as real
  }

  lemma {:induction false} IndexOfAbsent(s: string, c: char)
    requires forall j :: 0 <= j < |s| ==> s[j] != c
    ensures IndexOf(s, c) == |s|
  {
    if |s| > 0 {
      IndexOfAbsent(s[1..], c);
    }
  }

  /** In `w`, the separator, `f`, where `w` has no separator, the first separator follows `w`. */
  lemma {:induction false} IndexOfSeparator(w: string, sep: char, f: string)
    requires forall j :: 0 <= j < |w| ==> w[j] != sep
    ensures IndexOf(w + [sep] + f, sep) == |w|
  {
    if |w| > 0 {
      assert (w + [sep] + f)[1..] == w[1..] + [sep] + f;
      IndexOfSeparator(w[1..], sep, f);
    }
  }

  /** Digits, the separator and digits read as whole part plus fraction. */
  lemma UnsignedDecimal(w: string, sep: char, f: string)
    requires AllDigits(w) && AllDigits(f) && |w| > 0 && |f| > 0 && !Text.IsDigit(sep)
    ensures Unsigned(w + [sep] + f, sep) == Some(Decimal(w, f))
  {
    var s := w + [sep] + f;
    IndexOfSeparator(w, sep, f);
    assert s[..|w|] == w;
    assert s[|w| + 1..] == f;
  }

  /** Digits, a separator and digits pass the filter unchanged. */
  lemma FilterDecimal(w: string, sep: char, f: string)
    requires AllDigits(w) && AllDigits(f) && IsFloatChar(sep)
    ensures Text.Filter(w + [sep] + f, IsFloatChar) == w + [sep] + f
  {
    var s := w + [sep] + f;
    forall i | 0 <= i < |s|
      ensures IsFloatChar(s[i])
    {
      if i < |w| {
        assert s[i] == w[i];
      } else if i > |w| {
        assert s[i] == f[i - |w| - 1];
      }
    }
  }

  /** Digits, a point and digits do not read in French notation. */
  lemma PointNotFrench(w: string, f: string)
    requires AllDigits(w) && AllDigits(f)
    ensures Unsigned(w + ['.'] + f, ',') == None
  {
    var s := w + ['.'] + f;
    forall j | 0 <= j < |s|
      ensures s[j] != ','
    {
      if j < |w| {
        assert s[j] == w[j];
      } else if j > |w| {
        assert s[j] == f[j - |w| - 1];
      }
    }
    IndexOfAbsent(s, ',');
    assert s[|w|] == '.';
  }

  /** Digits, the separator and digits carry no sign. */
  lemma SignedDecimal(w: string, sep: char, sep2: char, f: string)
    requires AllDigits(w) && AllDigits(f) && |w| > 0 && |f| > 0
    ensures Signed(w + [sep] + f, sep2) == Unsigned(w + [sep] + f, sep2)
  {
    var s := w + [sep] + f;
    assert s[0] == w[0];
    assert s[|s| - 1] == f[|f| - 1];
  }

  /** A decimal written with a comma reads back in the French pass. */
  lemma MatchFloatComma(a: nat, b: nat)
    ensures MatchFloat(Some(Render(a) + "," + Render(b))) == (true, DecimalValue(a, b))
  {
    RenderValue(a);
    RenderValue(b);
    var s := Render(a) + [','] + Render(b);
    assert s == Render(a) + "," + Render(b);
    FilterDecimal(Render(a), ',', Render(b));
    SignedDecimal(Render(a), ',', ',', Render(b));
    UnsignedDecimal(Render(a), ',', Render(b));
  }

  /** A decimal written with a point fails the French pass and reads back in the invariant one. */
  lemma MatchFloatPoint(a: nat, b: nat)
    ensures MatchFloat(Some(Render(a) + "." + Render(b))) == (true, DecimalValue(a, b))
  {
    RenderValue(a);
    RenderValue(b);
    var s := Render(a) + ['.'] + Render(b);
    assert s == Render(a) + "." + Render(b);
    FilterDecimal(Render(a), '.', Render(b));
    SignedDecimal(Render(a), '.', ',', Render(b));
    PointNotFrench(Render(a), Render(b));
    SignedDecimal(Render(a), '.', '.', Render(b));
    UnsignedDecimal(Render(a), '.', Render(b));
  }

  /** A negative decimal written with a point reads back, negated, in the invariant pass. */
  lemma MatchFloatNegativePoint(a: nat, b: nat)
    ensures MatchFloat(Some("-" + Render(a) + "." + Render(b))) == (true, -DecimalValue(a, b))
  {
    RenderValue(a);
    RenderValue(b);
    var d := Render(a) + ['.'] + Render(b);
    var s := "-" + d;
    assert s == "-" + Render(a) + "." + Render(b);
    FilterDecimal(Render(a), '.', Render(b));
    Text.FilterAppend("-", d, IsFloatChar);
    assert Text.Filter("-", IsFloatChar) == "-";
    assert s[1..] == d;
    PointNotFrench(Render(a), Render(b));
    UnsignedDecimal(Render(a), '.', Render(b));
  }

  /** The first example of the repository's unit tests for MatchFloat. */
  lemma MatchFloatExamplePoint()
    ensures MatchFloat(Some("0.1")) == (true, 0.1)
  {
    MatchFloatPoint(0, 1);
    assert Render(0) + "." + Render(1) == "0.1";
    assert DecimalValue(0, 1) == 0.1 by {
      assert |Render(1)| == 1 && Pow10(1) == 10;
    }
  }

  /** The second example of the repository's unit tests for MatchFloat. */
  lemma MatchFloatExampleNegative()
    ensures MatchFloat(Some("-1.0")) == (true, -1.0)
  {
    MatchFloatNegativePoint(1, 0);
    assert "-" + Render(1) + "." + Render(0) == "-1.0";
    assert DecimalValue(1, 0) == 1.0;
  }

  /** The unit and comma examples of the repository's unit tests for MatchFloat. */
  lemma MatchFloatExamplesOther()
    ensures MatchFloat(Some("1 m")) == (true, 1.0)
    ensures MatchFloat(Some("0,1")) == (true, 0.1)
  {
    MatchFloatComma(0, 1);
    assert Render(0) + "," + Render(1) == "0,1";
    MatchFloatWhole(1);
    assert Render(1) + " m" == "1 m";
    MatchFloatIgnoresUnit("1", " m");
  }

  /** An integer written as `short` prints it. */
  function RenderInt(x: int): string
  {
    if x < 0 then "-" + Render(-x) else Render(x)
  }

  /** Every `short` reads back as itself. */
  lemma MatchShortRoundTrip(x: int)
    requires -32768 <= x <= 32767
    ensures MatchShort(RenderInt(x)) == (true, x)
  {
    var s := RenderInt(x);
    if x < 0 {
      RenderValue(-x);
      assert s[1..] == Render(-x);
    } else {
      RenderValue(x);
    }
    assert Text.Filter(s, IsShortChar) == s;
  }

  /** An integer outside the range of `short` does not read. */
  lemma MatchShortOverflow(x: int)
    requires x < -32768 || 32767 < x
    ensures MatchShort(RenderInt(x)) == (false, 0)
  {
    var s := RenderInt(x);
    if x < 0 {
      RenderValue(-x);
      assert s[1..] == Render(-x);
    } else {
      RenderValue(x);
    }
    assert Text.Filter(s, IsShortChar) == s;
  }

  /** The examples of the repository's unit tests for MatchShort. */
  lemma MatchShortExamples()
    ensures MatchShort("1") == (true, 1)
    ensures MatchShort("-1") == (true, -1)
    ensures MatchShort("1 m") == (true, 1)
  {
    MatchShortRoundTrip(1);
    assert RenderInt(1) == "1";
    MatchShortRoundTrip(-1);
    assert RenderInt(-1) == "-1";
    Text.FilterDropsSuffix("1", " m", IsShortChar);
    assert "1" + " m" == "1 m";
  }
}

=== FILE: polygon.dfy ===
/**
 * Polygon.cs of SharpOSM: a point list, optionally with holes, the closed-ring
 * test, the even-odd ray-cast point-in-polygon test (pnpoly) and the tri-valued
 * polygon overlap test built on it.
 *
 * A polygon is a value here. The `Points` and `Holes` getters of the source
 * create an empty list on first read, so they never yield null: that is a
 * sequence that is empty until points are added. The list constructor copies
 * its argument, which a value type does by definition.
 */
module Polygons {
  import opened Geometry
  import opened Wrappers

  /** A `Polygon` (outline only) or a `MultiPolygon` (outline plus holes). */
  datatype Polygon =
    | Plain(points: seq<Vector2>)
    | Multi(points: seq<Vector2>, holes: seq<Polygon>)
  {
    /** `Holes` of a MultiPolygon; a plain polygon has none. */
    function Holes(): (hs: seq<Polygon>)
      ensures Multi? ==> hs == holes
      ensures Plain? ==> hs == []
    {
      if Multi? then holes else []
    }
  }

  /** `new Polygon()` / `new MultiPolygon()`: no points, no holes. */
  function Empty(multi: bool): (p: Polygon)
    ensures p.points == [] && p.Holes() == []
    ensures p.Multi? <==> multi
  {
    if multi then Multi([], []) else Plain([])
  }

  /** `new MultiPolygon(initial)`: the points are a copy of `initial`, no holes yet. */
  function MultiOf(initial: seq<Vector2>): (p: Polygon)
    ensures p.Multi? && p.points == initial && p.Holes() == []
  {
    Multi(initial, [])
  }

  /** `MultiPolygon.Holes.Add(hole)`: the hole is appended, the outline is kept. */
  function AddHole(p: Polygon, hole: Polygon): (q: Polygon)
    requires p.Multi?
    ensures q.Multi? && q.points == p.points
    ensures q.Holes() == p.Holes() + [hole]
  {
    Multi(p.points, p.holes + [hole])
  }

  /** `IsClosed`: at least three points, and the first equals the last. */
  predicate IsClosed(pts: seq<Vector2>)
  {
    |pts| >= 3 && pts[0] == pts[|pts| - 1]
  }

  function Reverse<T>(s: seq<T>): (r: seq<T>)
    ensures |r| == |s|
    ensures forall i :: 0 <= i < |s| ==> r[i] == s[|s| - 1 - i]
  {
    seq(|s|, i requires 0 <= i < |s| => s[|s| - 1 - i])
  }

  /** Closedness does not depend on the direction a ring is walked. */
  lemma ClosedReverse(pts: seq<Vector2>)
    ensures IsClosed(Reverse(pts)) <==> IsClosed(pts)
  {
  }

  /** Appending the first point to an open path of two or more points closes it. */
  lemma ClosedByRepeatingFirst(pts: seq<Vector2>)
    requires |pts| >= 2
    ensures IsClosed(pts + [pts[0]])
  {
  }

  // ----- bounding box -----

  /** The smallest value of a non-empty list (`Math.Min` folded over it). */
  function Lo(v: seq<real>): real
    requires |v| > 0
  {
    if |v| == 1 then v[0]
    else
      var rest := Lo(v[1..]);
      if v[0] <= rest then v[0] else rest
  }

  /** The largest value of a non-empty list (`Math.Max` folded over it). */
  function Hi(v: seq<real>): real
    requires |v| > 0
  {
    if |v| == 1 then v[0]
    else
      var rest := Hi(v[1..]);
      if v[0] >= rest then v[0] else rest
  }

  /** `Lo` is a lower bound of the list that the list attains, and `Hi` an upper bound it attains. */
  lemma {:induction false} LoHiBounds(v: seq<real>)
    requires |v| > 0
    ensures forall i :: 0 <= i < |v| ==> Lo(v) <= v[i] <= Hi(v)
    ensures exists i :: 0 <= i < |v| && v[i] == Lo(v)
    ensures exists i :: 0 <= i < |v| && v[i] == Hi(v)
  {
    if |v| > 1 {
      LoHiBounds(v[1..]);
      assert forall i :: 1 <= i < |v| ==> v[i] == v[1..][i - 1];
      var a :| 0 <= a < |v| - 1 && v[1..][a] == Lo(v[1..]);
      var b :| 0 <= b < |v| - 1 && v[1..][b] == Hi(v[1..]);
      assert v[a + 1] == Lo(v[1..]) && v[b + 1] == Hi(v[1..]);
      if v[0] <= Lo(v[1..]) { assert v[0] == Lo(v); } else { assert v[a + 1] == Lo(v); }
      if v[0] >= Hi(v[1..]) { assert v[0] == Hi(v); } else { assert v[b + 1] == Hi(v); }
    } else {
      assert v[0] == Lo(v) && v[0] == Hi(v);
    }
  }

  function Xs(pts: seq<Vector2>): (v: seq<real>)
    ensures |v| == |pts| && forall i :: 0 <= i < |pts| ==> v[i] == pts[i].x
  {
    seq(|pts|, i requires 0 <= i < |pts| => pts[i].x)
  }

  function Ys(pts: seq<Vector2>): (v: seq<real>)
    ensures |v| == |pts| && forall i :: 0 <= i < |pts| ==> v[i] == pts[i].y
  {
    seq(|pts|, i requires 0 <= i < |pts| => pts[i].y)
  }

  /** `p` lies within the axis-aligned bounding box of the points (borders included). */
  predicate InBox(pts: seq<Vector2>, p: Vector2)
    requires |pts| > 0
  {
    !(p.x < Lo(Xs(pts)) || p.x > Hi(Xs(pts)) || p.y < Lo(Ys(pts)) || p.y > Hi(Ys(pts)))
  }

  // ----- ray casting -----

  /** The edge from `a` to `b` has one end strictly above the horizontal through `p` and one not. */
  predicate Straddles(a: Vector2, b: Vector2, p: Vector2)
  {
    (a.y > p.y) != (b.y > p.y)
  }

  /**
   * Where the line through `a` and `b` meets the horizontal through `p`. The
   * division is only ever evaluated for a straddling edge, whose end points
   * differ in y, so the divisor is never zero.
   */
  function CrossX(a: Vector2, b: Vector2, p: Vector2): real
    requires Straddles(a, b, p)
  {
    (b.x - a.x) * (p.y - a.y) / (b.y - a.y) + a.x
  }

  /** The crossing point lies on the line through `a` and `b`. */
  lemma CrossXOnLine(a: Vector2, b: Vector2, p: Vector2)
    requires Straddles(a, b, p)
    ensures (CrossX(a, b, p) - a.x) * (b.y - a.y) == (b.x - a.x) * (p.y - a.y)
  {
  }

  /** The ray from `p` towards +x crosses the edge from `a` to `b`. */
  predicate Crosses(a: Vector2, b: Vector2, p: Vector2)
  {
    Straddles(a, b, p) && p.x < CrossX(a, b, p)
  }

  /** The index paired with `i` by the loop `for (i = 0, j = n - 1; i < n; j = i++)`. */
  function Prev(n: nat, i: nat): (j: nat)
    requires i < n
    ensures j < n
    ensures i == 0 ==> j == n - 1
    ensures i > 0 ==> j + 1 == i
  {
    if i == 0 then n - 1 else i - 1
  }

  /** Edge `i` (from point `i` back to its predecessor) toggles the state. */
  predicate EdgeCrosses(pts: seq<Vector2>, p: Vector2, i: nat)
    requires i < |pts|
  {
    Crosses(pts[i], pts[Prev(|pts|, i)], p)
  }

  /** How many of the edges `0 .. k-1` the ray crosses. */
  function CrossCount(pts: seq<Vector2>, p: Vector2, k: nat): nat
    requires k <= |pts|
  {
    if k == 0 then 0
    else CrossCount(pts, p, k - 1) + (if EdgeCrosses(pts, p, k - 1) then 1 else 0)
  }

  /**
   * `Contains(p)`: false outside the bounding box; inside it, true exactly
   * when the ray from `p` crosses an odd number of edges. `points[0]` is read
   * first, so the polygon must have a point.
   */
  predicate Contains(pts: seq<Vector2>, p: Vector2)
    requires |pts| > 0
  {
    InBox(pts, p) && CrossCount(pts, p, |pts|) % 2 == 1
  }

  /**
   * One coordinate of the first loop of `Contains`: `Math.Min` and `Math.Max`
   * folded over the values, starting from the first one.
   */
  method Range(v: seq<real>) returns (lo: real, hi: real)
    requires |v| > 0
    ensures lo == Lo(v) && hi == Hi(v)
  {
    lo, hi := v[0], v[0];
    var k := 0;
    while k < |v|
      invariant 0 <= k <= |v|
      invariant lo == Lo(v[..if k == 0 then 1 else k])
      invariant hi == Hi(v[..if k == 0 then 1 else k])
    {
      if k > 0 {
        PrefixStep(v, k);
      }
      lo := if v[k] <= lo then v[k] else lo;
      hi := if v[k] >= hi then v[k] else hi;
      k := k + 1;
    }
    assert v[..|v|] == v;
  }

  /** The first loop of `Contains`: the bounding box of the points. */
  method BoundingBox(pts: seq<Vector2>) returns (minX: real, maxX: real, minY: real, maxY: real)
    requires |pts| > 0
    ensures minX == Lo(Xs(pts)) && maxX == Hi(Xs(pts))
    ensures minY == Lo(Ys(pts)) && maxY == Hi(Ys(pts))
  {
    minX, maxX := Range(Xs(pts));
    minY, maxY := Range(Ys(pts));
  }

  /** The edge test as the loop writes it, with `j` trailing `i`, is `EdgeCrosses`. */
  lemma EdgeTest(pts: seq<Vector2>, p: Vector2, i: nat, j: nat)
    requires i < |pts| && j == Prev(|pts|, i)
    ensures EdgeCrosses(pts, p, i) <==>
      ((pts[i].y > p.y) != (pts[j].y > p.y)
        && p.x < (pts[j].x - pts[i].x) * (p.y - pts[i].y) / (pts[j].y - pts[i].y) + pts[i].x)
  {
  }

  /** One more edge flips the parity of the count exactly when the ray crosses it. */
  lemma ParityStep(pts: seq<Vector2>, p: Vector2, i: nat)
    requires i < |pts|
    ensures (CrossCount(pts, p, i + 1) % 2 == 1) <==> ((CrossCount(pts, p, i) % 2 == 1) != EdgeCrosses(pts, p, i))
  {
  }

  /** The second loop of `Contains`: `inside` flips at every edge the ray crosses, `j` trailing `i`. */
  method CrossScan(pts: seq<Vector2>, p: Vector2) returns (inside: bool)
    requires |pts| > 0
    ensures inside <==> CrossCount(pts, p, |pts|) % 2 == 1
  {
    inside := false;
    var i, j := 0, |pts| - 1;
    while i < |pts|
      invariant 0 <= i <= |pts|
      invariant i < |pts| ==> j == Prev(|pts|, i)
      invariant inside <==> CrossCount(pts, p, i) % 2 == 1
    {
      EdgeTest(pts, p, i, j);
      ParityStep(pts, p, i);
      if (pts[i].y > p.y) != (pts[j].y > p.y)
        && p.x < (pts[j].x - pts[i].x) * (p.y - pts[i].y) / (pts[j].y - pts[i].y) + pts[i].x
      {
        inside := !inside;
      }
      j := i;
      i := i + 1;
    }
  }

  /** `Contains(p)` as written: the bounding box, the early `false` outside it, then the scan. */
  method ContainsPoint(pts: seq<Vector2>, p: Vector2) returns (inside: bool)
    requires |pts| > 0
    ensures inside == Contains(pts, p)
    ensures inside ==> Lo(Xs(pts)) <= p.x <= Hi(Xs(pts)) && Lo(Ys(pts)) <= p.y <= Hi(Ys(pts))
  {
    var minX, maxX, minY, maxY := BoundingBox(pts);
    if p.x < minX || p.x > maxX || p.y < minY || p.y > maxY {
      return false;
    }
    inside := CrossScan(pts, p);
  }

  /** Extending a prefix by one element: the new minimum and maximum. */
  lemma PrefixStep(v: seq<real>, k: nat)
    requires 0 < k < |v|
    ensures Lo(v[..k + 1]) == (if v[k] <= Lo(v[..k]) then v[k] else Lo(v[..k]))
    ensures Hi(v[..k + 1]) == (if v[k] >= Hi(v[..k]) then v[k] else Hi(v[..k]))
  {
    var u, w := v[..k], v[..k + 1];
    LoHiBounds(u);
    assert forall i :: 0 <= i < k ==> w[i] == u[i];
    var lo := if v[k] <= Lo(u) then v[k] else Lo(u);
    var hi := if v[k] >= Hi(u) then v[k] else Hi(u);
    var a :| 0 <= a < k && u[a] == Lo(u);
    var b :| 0 <= b < k && u[b] == Hi(u);
    assert w[a] == Lo(u) && w[b] == Hi(u) && w[k] == v[k];
    LoUnique(w, lo);
    HiUnique(w, hi);
  }

  /** A lower bound that occurs in the list is its minimum. */
  lemma LoUnique(v: seq<real>, m: real)
    requires |v| > 0
    requires forall i :: 0 <= i < |v| ==> m <= v[i]
    requires exists i :: 0 <= i < |v| && v[i] == m
    ensures Lo(v) == m
  {
    LoHiBounds(v);
    var i :| 0 <= i < |v| && v[i] == m;
    var k :| 0 <= k < |v| && v[k] == Lo(v);
  }

  /** An upper bound that occurs in the list is its maximum. */
  lemma HiUnique(v: seq<real>, m: real)
    requires |v| > 0
    requires forall i :: 0 <= i < |v| ==> v[i] <= m
    requires exists i :: 0 <= i < |v| && v[i] == m
    ensures Hi(v) == m
  {
    LoHiBounds(v);
    var i :| 0 <= i < |v| && v[i] == m;
    var k :| 0 <= k < |v| && v[k] == Hi(v);
  }

  /** A point left of, right of, below or above every point of the polygon is not contained. */
  lemma OutsideNotContained(pts: seq<Vector2>, p: Vector2)
    requires |pts| > 0
    requires (forall i :: 0 <= i < |pts| ==> p.x < pts[i].x) || (forall i :: 0 <= i < |pts| ==> p.x > pts[i].x)
          || (forall i :: 0 <= i < |pts| ==> p.y < pts[i].y) || (forall i :: 0 <= i < |pts| ==> p.y > pts[i].y)
    ensures !Contains(pts, p)
  {
    var xs, ys := Xs(pts), Ys(pts);
    LoHiBounds(xs);
    LoHiBounds(ys);
    var a :| 0 <= a < |xs| && xs[a] == Lo(xs);
    var b :| 0 <= b < |xs| && xs[b] == Hi(xs);
    var c :| 0 <= c < |ys| && ys[c] == Lo(ys);
    var d :| 0 <= d < |ys| && ys[d] == Hi(ys);
  }

  // ----- ring invariance -----

  /** Two lists with the same elements have the same minimum and maximum. */
  lemma SameRange(v: seq<real>, w: seq<real>)
    requires |v| > 0 && |w| > 0
    requires forall x :: x in v <==> x in w
    ensures Lo(v) == Lo(w) && Hi(v) == Hi(w)
  {
    LoHiBounds(v);
    LoHiBounds(w);
    var a :| 0 <= a < |v| && v[a] == Lo(v);
    var b :| 0 <= b < |v| && v[b] == Hi(v);
    var c :| 0 <= c < |w| && w[c] == Lo(w);
    var d :| 0 <= d < |w| && w[d] == Hi(w);
    assert v[a] in w && v[b] in w && w[c] in v && w[d] in v;
  }

  /**
   * A closed ring (first point repeated at the end, as OSM ways store it) and
   * the same ring without the repetition contain the same points: the extra
   * edge has no height and is never crossed.
   */
  lemma ContainsClosedRing(r: seq<Vector2>, p: Vector2)
    requires |r| > 0
    ensures Contains(r + [r[0]], p) == Contains(r, p)
  {
    ClosedRingBox(r, p);
    ClosedRingCrossings(r, p);
  }

  lemma ClosedRingBox(r: seq<Vector2>, p: Vector2)
    requires |r| > 0
    ensures InBox(r + [r[0]], p) == InBox(r, p)
  {
    var s := r + [r[0]];
    assert Xs(s) == Xs(r) + [Xs(r)[0]];
    assert Ys(s) == Ys(r) + [Ys(r)[0]];
    SameRange(Xs(r), Xs(s));
    SameRange(Ys(r), Ys(s));
  }

  lemma ClosedRingCrossings(r: seq<Vector2>, p: Vector2)
    requires |r| > 0
    ensures CrossCount(r + [r[0]], p, |r| + 1) == CrossCount(r, p, |r|)
  {
    var s, n := r + [r[0]], |r|;
    ClosedRingCount(r, p, n);
    assert EdgeCrosses(s, p, n) == EdgeCrosses(r, p, 0);
  }

  lemma {:induction false} ClosedRingCount(r: seq<Vector2>, p: Vector2, k: nat)
    requires 1 <= k <= |r|
    ensures CrossCount(r + [r[0]], p, k) + (if EdgeCrosses(r, p, 0) then 1 else 0) == CrossCount(r, p, k)
  {
    var s := r + [r[0]];
    if k == 1 {
      assert !EdgeCrosses(s, p, 0);
    } else {
      ClosedRingCount(r, p, k - 1);
      assert EdgeCrosses(s, p, k - 1) == EdgeCrosses(r, p, k - 1);
    }
  }

  /** `r` with its first point moved to the end. */
  function Rotate(r: seq<Vector2>): (q: seq<Vector2>)
    requires |r| > 0
    ensures |q| == |r|
  {
    r[1..] + [r[0]]
  }

  /** The ray cast sees a cycle of edges: starting the ring at another point changes nothing. */
  lemma ContainsRotate(r: seq<Vector2>, p: Vector2)
    requires |r| > 0
    ensures Contains(Rotate(r), p) == Contains(r, p)
  {
    RotateBox(r, p);
    RotateCrossings(r, p);
  }

  lemma RotateBox(r: seq<Vector2>, p: Vector2)
    requires |r| > 0
    ensures InBox(Rotate(r), p) == InBox(r, p)
  {
    var q := Rotate(r);
    assert Xs(r) == [Xs(r)[0]] + Xs(r)[1..];
    assert Ys(r) == [Ys(r)[0]] + Ys(r)[1..];
    assert Xs(q) == Xs(r)[1..] + [Xs(r)[0]];
    assert Ys(q) == Ys(r)[1..] + [Ys(r)[0]];
    SameRange(Xs(r), Xs(q));
    SameRange(Ys(r), Ys(q));
  }

  lemma RotateCrossings(r: seq<Vector2>, p: Vector2)
    requires |r| > 0
    ensures CrossCount(Rotate(r), p, |r|) == CrossCount(r, p, |r|)
  {
    var q, n := Rotate(r), |r|;
    if n > 1 {
      RotateCount(r, p, n - 1);
      assert EdgeCrosses(q, p, n - 1) == EdgeCrosses(r, p, 0);
    } else {
      assert q == r;
    }
  }

  lemma {:induction false} RotateCount(r: seq<Vector2>, p: Vector2, k: nat)
    requires k < |r|
    ensures CrossCount(Rotate(r), p, k) + (if EdgeCrosses(r, p, 0) then 1 else 0) == CrossCount(r, p, k + 1)
  {
    var q := Rotate(r);
    if k > 0 {
      RotateCount(r, p, k - 1);
      assert EdgeCrosses(q, p, k - 1) == EdgeCrosses(r, p, k);
    }
  }

  // ----- Intersects -----

  /** How many of `others` the polygon `pts` contains. */
  function CountContained(pts: seq<Vector2>, others: seq<Vector2>): (c: nat)
    requires |pts| > 0
    ensures c <= |others|
    ensures c == 0 <==> forall i :: 0 <= i < |others| ==> !Contains(pts, others[i])
    ensures c == |others| <==> forall i :: 0 <= i < |others| ==> Contains(pts, others[i])
  {
    if |others| == 0 then 0
    else
      var rest := CountContained(pts, others[1..]);
      assert forall i :: 1 <= i < |others| ==> others[i] == others[1..][i - 1];
      rest + (if Contains(pts, others[0]) then 1 else 0)
  }

  /**
   * `Intersects(other)`: 0 when no point of `other` is contained, -1 when all
   * of them are (and there is one), 1 otherwise. An empty `other` is 0 without
   * a single `Contains` call; a non-empty `other` against a polygon without
   * points makes `Contains` read `points[0]` and throw (None).
   */
  function Intersects(poly: Polygon, other: Polygon): (r: Option<int>)
    ensures r.None? <==> |poly.points| == 0 && |other.points| > 0
    ensures r.Some? ==> -1 <= r.value <= 1
    ensures r == Some(0) <==>
      |other.points| == 0 || (|poly.points| > 0 && forall i :: 0 <= i < |other.points| ==> !Contains(poly.points, other.points[i]))
    ensures r == Some(-1) <==>
      |other.points| > 0 && |poly.points| > 0 && forall i :: 0 <= i < |other.points| ==> Contains(poly.points, other.points[i])
  {
    if |other.points| == 0 then Some(0)
    else if |poly.points| == 0 then None
    else
      var count := CountContained(poly.points, other.points);
      Some(if count == 0 then 0 else if count == |other.points| then -1 else 1)
  }

  /** 1 exactly when some but not all points of `other` are contained. */
  lemma IntersectsPartly(poly: Polygon, other: Polygon)
    requires |poly.points| > 0
    ensures Intersects(poly, other) == Some(1) <==>
      (exists i :: 0 <= i < |other.points| && Contains(poly.points, other.points[i])) &&
      (exists i :: 0 <= i < |other.points| && !Contains(poly.points, other.points[i]))
  {
  }

  // ----- the unit-test scenario -----

  const Square20: Polygon := Plain([Vector2(-10.0, -10.0), Vector2(10.0, -10.0), Vector2(10.0, 10.0), Vector2(-10.0, 10.0)])
  const Square10: Polygon := Plain([Vector2(-5.0, -5.0), Vector2(5.0, -5.0), Vector2(5.0, 5.0), Vector2(-5.0, 5.0)])
  const Offset: Polygon := Plain([Vector2(-5.0, -5.0), Vector2(15.0, -5.0), Vector2(15.0, 5.0), Vector2(-5.0, 5.0)])

  /** The big square contains the small one; not the other way round; the offset rectangle sticks out. */
  lemma SquareScenario()
    ensures Intersects(Square20, Square10) == Some(-1)
    ensures Intersects(Square10, Square20) == Some(0)
    ensures Intersects(Square20, Offset) == Some(1)
  {
    var big, small, off := Square20.points, Square10.points, Offset.points;
    forall i | 0 <= i < 4 ensures Contains(big, small[i]) {
      SquareContains(small[i]);
    }
    forall i | 0 <= i < 4 ensures !Contains(small, big[i]) {
      if big[i].x < -5.0 {
        assert forall j :: 0 <= j < 4 ==> big[i].x < small[j].x;
      } else {
        assert forall j :: 0 <= j < 4 ==> big[i].x > small[j].x;
      }
      OutsideNotContained(small, big[i]);
    }
    SquareContains(off[0]);
    assert forall j :: 0 <= j < 4 ==> off[1].x > big[j].x;
    OutsideNotContained(big, off[1]);
    assert Contains(big, off[0]) && !Contains(big, off[1]);
    IntersectsPartly(Square20, Offset);
  }

  /** Any point strictly inside the big square is contained in it. */
  lemma SquareContains(p: Vector2)
    requires -10.0 < p.x < 10.0 && -10.0 < p.y < 10.0
    ensures Contains(Square20.points, p)
  {
    var pts := Square20.points;
    assert Xs(pts)[0] == -10.0 && Xs(pts)[1] == 10.0 && Ys(pts)[0] == -10.0 && Ys(pts)[2] == 10.0;
    LoUnique(Xs(pts), -10.0);
    HiUnique(Xs(pts), 10.0);
    LoUnique(Ys(pts), -10.0);
    HiUnique(Ys(pts), 10.0);
    assert !EdgeCrosses(pts, p, 0);
    assert !EdgeCrosses(pts, p, 1);
    assert EdgeCrosses(pts, p, 2);
    assert !EdgeCrosses(pts, p, 3);
    assert CrossCount(pts, p, 4) == 1 by {
      assert CrossCount(pts, p, 1) == 0;
      assert CrossCount(pts, p, 2) == 0;
      assert CrossCount(pts, p, 3) == 1;
    }
  }

  /** A bar 30 wide and 2 high, laid across the centre of `Square10`. */
  const Bar: Polygon := Plain([Vector2(-15.0, -1.0), Vector2(15.0, -1.0), Vector2(15.0, 1.0), Vector2(-15.0, 1.0)])

  /** The origin is inside a rectangle centred on it. */
  lemma OriginInside(pts: seq<Vector2>, w: real, h: real)
    requires w > 0.0 && h > 0.0
    requires pts == [Vector2(-w, -h), Vector2(w, -h), Vector2(w, h), Vector2(-w, h)]
    ensures Contains(pts, Vector2(0.0, 0.0))
  {
    var p := Vector2(0.0, 0.0);
    assert Xs(pts)[0] == -w && Xs(pts)[1] == w && Ys(pts)[0] == -h && Ys(pts)[2] == h;
    LoUnique(Xs(pts), -w);
    HiUnique(Xs(pts), w);
    LoUnique(Ys(pts), -h);
    HiUnique(Ys(pts), h);
    assert !EdgeCrosses(pts, p, 0);
    assert !EdgeCrosses(pts, p, 1);
    assert EdgeCrosses(pts, p, 2);
    assert !EdgeCrosses(pts, p, 3);
    assert CrossCount(pts, p, 4) == 1 by {
      assert CrossCount(pts, p, 1) == 0;
      assert CrossCount(pts, p, 2) == 0;
      assert CrossCount(pts, p, 3) == 1;
    }
  }

  /**
   * The bar and `Square10` share the origin, yet no corner of the bar is
   * inside the square, so `Intersects` reports them apart.
   */
  lemma CrossingBar()
    ensures Contains(Square10.points, Vector2(0.0, 0.0)) && Contains(Bar.points, Vector2(0.0, 0.0))
    ensures Intersects(Square10, Bar) == Some(0)
  {
    OriginInside(Square10.points, 5.0, 5.0);
    OriginInside(Bar.points, 15.0, 1.0);
    var sq, bar := Square10.points, Bar.points;
    forall i | 0 <= i < 4 ensures !Contains(sq, bar[i]) {
      if bar[i].x < -5.0 {
        assert forall j :: 0 <= j < 4 ==> bar[i].x < sq[j].x;
      } else {
        assert forall j :: 0 <= j < 4 ==> bar[i].x > sq[j].x;
      }
      OutsideNotContained(sq, bar[i]);
    }
  }
}

=== FILE: provider.dfy ===
/**
 * The building and tree streams of OsmProvider.cs. `Buildings()` empties
 * the consumed way ids, files the relations (`ParseCompounds`) and then
 * emits, in this order, the parts of the multipolygon building parts, of
 * the multipolygon buildings and of the building relations, and last the
 * simple `building:part` and `building` ways. Every stage consumes the
 * ways it emits, so no way is emitted twice. The lazy iterators are
 * modelled as drained sequences; a stage that never returns or throws
 * ends the stream after what it emitted so far (`Halt`).
 *
 * The height draw of `ParsePart` is one parameter for the whole stream.
 */
module Provider {
  import opened Geometry
  import opened Wrappers
  import Colors
  import opened Polygons
  import opened Document
  import opened ShapeData
  import Attributes
  import opened Compounds
  import opened RingAssembly
  import opened Shapes

  datatype State = State(compounds: Dict, ways: set<string>)

  /** What a stage emitted, the state after it, and how it ended. */
  datatype Run = Run(parts: seq<BuildingPart>, st: State, halt: Halt)

  function PartIds(ps: seq<BuildingPart>): (ids: seq<string>)
    ensures |ids| == |ps|
    ensures forall i :: 0 <= i < |ps| ==> ids[i] == ps[i].id
  {
    seq(|ps|, i requires 0 <= i < |ps| => ps[i].id)
  }

  lemma PartIdsAppend(a: seq<BuildingPart>, b: seq<BuildingPart>)
    ensures PartIds(a + b) == PartIds(a) + PartIds(b)
  {
  }

  /** Two stages one after the other emit fresh ids together. */
  lemma FreshParts(a: seq<BuildingPart>, b: seq<BuildingPart>, s0: set<string>, s1: set<string>, s2: set<string>)
    requires FreshIds(PartIds(a), s0, s1) && FreshIds(PartIds(b), s1, s2)
    ensures FreshIds(PartIds(a + b), s0, s2)
  {
    PartIdsAppend(a, b);
    FreshAppend(PartIds(a), PartIds(b), s0, s1, s2);
  }

  // ----- Parts: the "part" members of a building relation -----

  /** What one stage does to a compound: the parts it emitted, its structures and the consumed ids after it. */
  datatype Stage = Stage(parts: seq<BuildingPart>, structs: seq<Structure>, ways: set<string>, halt: Halt)

  /**
   * A part made from the way `w` under the relation's resolved data: the
   * way's tags applied on a copy of the relation's part and roof data.
   */
  function ChildPart(doc: Doc, frame: Frame, w: Way, body: PartData, roof: RoofData, draw: Attributes.HeightDraw,
                     color: Colors.Color): BuildingPart
  {
    NewBuildingPart(w.id, Some(CreateFootprint(doc, frame, w)),
      Attributes.ParsePartData(w.tags, body, draw), Attributes.ParseRoofData(w.tags, roof), color)
  }

  /**
   * The loop of `Parts(compound)` from position `k`: a structure of role
   * `Part` whose id is not consumed and whose way exists is assigned,
   * consumed, and emitted as a green part.
   */
  function PartsFrom(doc: Doc, frame: Frame, draw: Attributes.HeightDraw, body: PartData, roof: RoofData,
                     structs: seq<Structure>, ways: set<string>, k: nat): (r: Stage)
    requires k <= |structs|
    decreases |structs| - k
    ensures r.halt == Finished
    ensures Evolves(structs, r.structs)
    ensures FreshIds(PartIds(r.parts), ways, r.ways)
    ensures forall j :: k <= j < |structs| && structs[j].role == Part && FindWay(doc.ways, structs[j].id).Some? ==>
      structs[j].id in r.ways
    ensures forall i :: 0 <= i < |r.parts| ==>
      FindWay(doc.ways, r.parts[i].id).Some? &&
      r.parts[i] == ChildPart(doc, frame, FindWay(doc.ways, r.parts[i].id).value, body, roof, draw, Colors.Green)
  {
    if k == |structs| then Stage([], structs, ways, Finished)
    else
      var s := structs[k];
      if s.role != Part || s.id in ways || FindWay(doc.ways, s.id).None? then
        PartsFrom(doc, frame, draw, body, roof, structs, ways, k + 1)
      else
        var w := FindWay(doc.ways, s.id).value;
        var structs' := structs[k := s.(unassigned := false)];
        var p := ChildPart(doc, frame, w, body, roof, draw, Colors.Green);
        var rest := PartsFrom(doc, frame, draw, body, roof, structs', ways + {s.id}, k + 1);
        FreshParts([p], rest.parts, ways, ways + {s.id}, rest.ways);
        EvolvesTrans(structs, structs', rest.structs);
        Stage([p] + rest.parts, rest.structs, rest.ways, Finished)
  }

  /** `Parts(compound)`: the relation's data parsed once, each part way's tags applied on a copy. */
  function Parts(doc: Doc, frame: Frame, draw: Attributes.HeightDraw, c: Compound, ways: set<string>): Stage
  {
    PartsFrom(doc, frame, draw, Attributes.ParsePart(c.data.tags, draw), Attributes.ParseRoof(c.data.tags),
      c.structures, ways, 0)
  }

  // ----- Multipolygon: outer rings with their holes -----

  /**
   * The hole loop of `Multipolygon`: each inner ring is added to the outer
   * polygon's holes when the outer contains all its points (`Intersects`
   * is -1). Adding a hole does not move the outline, so every test is
   * against the same points.
   */
  function AddHoles(outer: Polygon, inners: seq<Polygon>): (r: Polygon)
    requires outer.Multi?
    decreases |inners|
    ensures r.Multi? && r.points == outer.points
    ensures forall h :: h in r.holes <==> h in outer.holes || (h in inners && Intersects(outer, h) == Some(-1))
  {
    if |inners| == 0 then outer
    else
      var h := inners[0];
      assert forall x :: x in inners <==> x == h || x in inners[1..];
      if Intersects(outer, h) == Some(-1) then
        var grown := AddHole(outer, h);
        assert forall x :: Intersects(grown, x) == Intersects(outer, x);
        AddHoles(grown, inners[1..])
      else AddHoles(outer, inners[1..])
  }

  /** The rings `Merge` assembled, in order. */
  function Rings(ms: seq<Structure>): (ps: seq<Polygon>)
    requires forall k :: 0 <= k < |ms| ==> ms[k].polygon.Some?
    ensures |ps| == |ms|
    ensures forall k :: 0 <= k < |ms| ==> ps[k] == ms[k].polygon.value
  {
    seq(|ms|, k requires 0 <= k < |ms| => ms[k].polygon.value)
  }

  /** The part of one assembled outer ring: its way's tags on a copy of the relation's data, its holes added. */
  function OuterPart(doc: Doc, s: Structure, inners: seq<Polygon>, body: PartData, roof: RoofData,
                     draw: Attributes.HeightDraw): BuildingPart
    requires Assembled(doc, s, Outer)
  {
    var w := s.data.value;
    NewBuildingPart(s.id, Some(AddHoles(s.polygon.value, inners)),
      Attributes.ParsePartData(w.tags, body, draw), Attributes.ParseRoofData(w.tags, roof), Colors.LightGreen)
  }

  /** `p` is the part of some assembled outer ring with `inners` tried as its holes. */
  ghost predicate OuterPartOf(doc: Doc, p: BuildingPart, inners: seq<Polygon>, body: PartData, roof: RoofData,
                        draw: Attributes.HeightDraw)
  {
    exists s :: Assembled(doc, s, Outer) && s.id == p.id && p == OuterPart(doc, s, inners, body, roof, draw)
  }

  /** The parts of the merged outer rings, in order, each with the given inner rings tried as holes. */
  function OuterParts(doc: Doc, ms: seq<Structure>, inners: seq<Polygon>, body: PartData, roof: RoofData,
                      draw: Attributes.HeightDraw): (ps: seq<BuildingPart>)
    requires forall k :: 0 <= k < |ms| ==> Assembled(doc, ms[k], Outer)
    ensures PartIds(ps) == StructureIds(ms)
    ensures forall i :: 0 <= i < |ps| ==>
      ps[i].footprint.Some? && ps[i].footprint.value.Multi? &&
      IsClosed(ps[i].footprint.value.points) && ps[i].colorCode == Colors.LightGreen
    ensures forall i :: 0 <= i < |ps| ==> OuterPartOf(doc, ps[i], inners, body, roof, draw)
  {
    var ps := seq(|ms|, k requires 0 <= k < |ms| => OuterPart(doc, ms[k], inners, body, roof, draw));
    forall k | 0 <= k < |ps|
      ensures ps[k].footprint.Some? && IsClosed(ps[k].footprint.value.points)
      ensures OuterPartOf(doc, ps[k], inners, body, roof, draw)
    {
      assert ps[k] == OuterPart(doc, ms[k], inners, body, roof, draw);
      assert Assembled(doc, ms[k], Outer) && ms[k].id == ps[k].id;
    }
    ps
  }

  /**
   * `Multipolygon(compound, type)`: the inner rings are merged first (all
   * of them, before anything is emitted), then each outer ring is merged
   * and emitted with the inner rings it contains as holes.
   */
  function Multipolygon(doc: Doc, frame: Frame, draw: Attributes.HeightDraw, c: Compound, ways: set<string>): (r: Stage)
    ensures Evolves(c.structures, r.structs)
    ensures FreshIds(PartIds(r.parts), ways, r.ways)
    ensures forall i :: 0 <= i < |r.parts| ==>
      r.parts[i].footprint.Some? && r.parts[i].footprint.value.Multi? &&
      IsClosed(r.parts[i].footprint.value.points) && r.parts[i].colorCode == Colors.LightGreen
    ensures Merge(doc, frame, c.structures, ways, Inner).halt != Finished ==>
      r.parts == [] && r.halt == Merge(doc, frame, c.structures, ways, Inner).halt
    ensures var inner := Merge(doc, frame, c.structures, ways, Inner);
      inner.halt == Finished ==>
        forall i :: 0 <= i < |r.parts| ==>
          OuterPartOf(doc, r.parts[i], Rings(inner.merged), Attributes.ParsePart(c.data.tags, draw),
                      Attributes.ParseRoof(c.data.tags), draw)
  {
    var body := Attributes.ParsePart(c.data.tags, draw);
    var roof := Attributes.ParseRoof(c.data.tags);
    var inner := Merge(doc, frame, c.structures, ways, Inner);
    if inner.halt != Finished then Stage([], inner.structs, inner.ways, inner.halt)
    else
      var holes := Rings(inner.merged);
      var outer := Merge(doc, frame, inner.structs, inner.ways, Outer);
      var parts := OuterParts(doc, outer.merged, holes, body, roof, draw);
      EvolvesTrans(c.structures, inner.structs, outer.structs);
      Stage(parts, outer.structs, outer.ways, outer.halt)
  }

  /**
   * A hole is assigned exactly when the outer ring contains every point of
   * the inner ring.
   */
  lemma HoleAssignment(outer: Polygon, inners: seq<Polygon>, h: Polygon)
    requires outer.Multi? && outer.holes == []
    requires h in inners
    ensures h in AddHoles(outer, inners).holes <==>
      |h.points| > 0 && |outer.points| > 0 && forall i :: 0 <= i < |h.points| ==> Contains(outer.points, h.points[i])
  {
  }

  /**
   * The holes of every part `Multipolygon` emits are exactly the merged
   * inner rings whose points its outline all contains.
   */
  lemma MultipolygonHoles(doc: Doc, frame: Frame, draw: Attributes.HeightDraw, c: Compound, ways: set<string>,
                          i: nat, h: Polygon)
    requires Merge(doc, frame, c.structures, ways, Inner).halt == Finished
    requires i < |Multipolygon(doc, frame, draw, c, ways).parts|
    ensures var inners := Rings(Merge(doc, frame, c.structures, ways, Inner).merged);
      var f := Multipolygon(doc, frame, draw, c, ways).parts[i].footprint.value;
      h in f.holes <==>
        h in inners && |h.points| > 0 && |f.points| > 0 && forall j :: 0 <= j < |h.points| ==> Contains(f.points, h.points[j])
  {
    var inners := Rings(Merge(doc, frame, c.structures, ways, Inner).merged);
    var p := Multipolygon(doc, frame, draw, c, ways).parts[i];
    var s :| Assembled(doc, s, Outer) && s.id == p.id &&
      p == OuterPart(doc, s, inners, Attributes.ParsePart(c.data.tags, draw), Attributes.ParseRoof(c.data.tags), draw);
    var outer := s.polygon.value;
    assert p.footprint.value == AddHoles(outer, inners);
    if h in inners {
      HoleAssignment(outer, inners, h);
    }
  }

  // ----- Compound and Compounds -----

  /** One compound's own stage, by the type it is processed as. */
  function CompoundStage(doc: Doc, frame: Frame, draw: Attributes.HeightDraw, c: Compound, kind: CompoundType,
                         ways: set<string>): (r: Stage)
    ensures Evolves(c.structures, r.structs)
    ensures FreshIds(PartIds(r.parts), ways, r.ways)
  {
    if kind == Building then Parts(doc, frame, draw, c, ways) else Multipolygon(doc, frame, draw, c, ways)
  }

  /** The state after a compound's stage: its structures updated in place in the dictionary. */
  function Store(st: State, ci: nat, s: Stage): (st': State)
    requires ci < |st.compounds|
    ensures Keys(st'.compounds) == Keys(st.compounds) && st'.ways == s.ways
  {
    var (id, c) := st.compounds[ci];
    State(st.compounds[ci := (id, c.(structures := s.structs))], s.ways)
  }

  /**
   * `Compound(compound, compounds, type)`: the compound's own parts, then,
   * recursively, those of each referenced compound that is in the
   * dictionary, all processed as `type`. The source has no guard against
   * a cycle of references; `fuel` is the depth of nesting the stack
   * allows, and running out of it is `Overflow`.
   */
  function CompoundRun(doc: Doc, frame: Frame, draw: Attributes.HeightDraw, ci: nat, kind: CompoundType,
                       fuel: nat, st: State): (r: Run)
    requires ci < |st.compounds|
    decreases fuel, 0, 0
    ensures Keys(r.st.compounds) == Keys(st.compounds)
    ensures FreshIds(PartIds(r.parts), st.ways, r.st.ways)
  {
    if fuel == 0 then Run([], st, Overflow)
    else
      var c := st.compounds[ci].1;
      var s := CompoundStage(doc, frame, draw, c, kind, st.ways);
      var st' := Store(st, ci, s);
      if s.halt != Finished then Run(s.parts, st', s.halt)
      else
        var rest := RelationsRun(doc, frame, draw, c.relations, kind, fuel - 1, st');
        FreshParts(s.parts, rest.parts, st.ways, st'.ways, rest.st.ways);
        Run(s.parts + rest.parts, rest.st, rest.halt)
  }

  /** The referenced compounds of one compound, in order; a reference not in the dictionary is skipped. */
  function RelationsRun(doc: Doc, frame: Frame, draw: Attributes.HeightDraw, refs: seq<string>, kind: CompoundType,
                        fuel: nat, st: State): (r: Run)
    decreases fuel, 1, |refs|
    ensures Keys(r.st.compounds) == Keys(st.compounds)
    ensures FreshIds(PartIds(r.parts), st.ways, r.st.ways)
  {
    if |refs| == 0 then Run([], st, Finished)
    else
      match Lookup(st.compounds, refs[0])
      case None => RelationsRun(doc, frame, draw, refs[1..], kind, fuel, st)
      case Some(ci) =>
        var first := CompoundRun(doc, frame, draw, ci, kind, fuel, st);
        if first.halt != Finished then first
        else
          var rest := RelationsRun(doc, frame, draw, refs[1..], kind, fuel, first.st);
          FreshParts(first.parts, rest.parts, st.ways, first.st.ways, rest.st.ways);
          Run(first.parts + rest.parts, rest.st, rest.halt)
  }

  /** `Compounds(compounds, type)` from entry `i` on: every compound filed as `type`, in dictionary order. */
  function CompoundsRun(doc: Doc, frame: Frame, draw: Attributes.HeightDraw, kind: CompoundType, fuel: nat,
                        st: State, i: nat): (r: Run)
    requires i <= |st.compounds|
    decreases |st.compounds| - i
    ensures Keys(r.st.compounds) == Keys(st.compounds)
    ensures FreshIds(PartIds(r.parts), st.ways, r.st.ways)
  {
    if i == |st.compounds| then Run([], st, Finished)
    else if st.compounds[i].1.kind != kind then CompoundsRun(doc, frame, draw, kind, fuel, st, i + 1)
    else
      var first := CompoundRun(doc, frame, draw, i, kind, fuel, st);
      if first.halt != Finished then first
      else
        var rest := CompoundsRun(doc, frame, draw, kind, fuel, first.st, i + 1);
        FreshParts(first.parts, rest.parts, st.ways, first.st.ways, rest.st.ways);
        Run(first.parts + rest.parts, rest.st, rest.halt)
  }

  // ----- simple buildings -----

  /** A way emitted by `ParseSimple`, with its footprint and colour. */
  datatype Simple = Simple(id: string, data: Way, polygon: Polygon, color: Colors.Color)

  /** Some tag has the key and a value other than "no". */
  predicate Keyed(tags: seq<Tag>, key: string)
  {
    exists i :: 0 <= i < |tags| && tags[i].k == key && tags[i].v != "no"
  }

  /** The way is one `ParseSimple(key, ...)` looks at: visible and keyed. */
  predicate Selected(w: Way, key: string)
  {
    w.visible && Keyed(w.tags, key)
  }

  /** The ids of the visible ways tagged with the key. */
  function KeyedIds(ws: seq<Way>, key: string): set<string>
  {
    set i | 0 <= i < |ws| && Selected(ws[i], key) :: ws[i].id
  }

  lemma KeyedIdsCons(ws: seq<Way>, key: string)
    requires |ws| > 0
    ensures KeyedIds(ws, key) == (if Selected(ws[0], key) then {ws[0].id} else {}) + KeyedIds(ws[1..], key)
  {
    forall id | id in KeyedIds(ws[1..], key) ensures id in KeyedIds(ws, key) {
      var i :| 0 <= i < |ws[1..]| && Selected(ws[1..][i], key) && ws[1..][i].id == id;
      assert ws[i + 1] == ws[1..][i];
    }
    forall id | id in KeyedIds(ws, key) && id != ws[0].id ensures id in KeyedIds(ws[1..], key) {
      var i :| 0 <= i < |ws| && Selected(ws[i], key) && ws[i].id == id;
      assert ws[1..][i - 1] == ws[i];
    }
  }

  function SimpleIds(ss: seq<Simple>): (ids: seq<string>)
    ensures |ids| == |ss|
    ensures forall i :: 0 <= i < |ss| ==> ids[i] == ss[i].id
  {
    seq(|ss|, i requires 0 <= i < |ss| => ss[i].id)
  }

  lemma SimpleIdsCons(s: Simple, ss: seq<Simple>)
    ensures SimpleIds([s] + ss) == [s.id] + SimpleIds(ss)
  {
  }

  /** What `ParseSimple` makes of a selected way. */
  function SimpleOf(doc: Doc, frame: Frame, w: Way, color: Colors.Color): Simple
  {
    Simple(w.id, w, CreateFootprint(doc, frame, w), color)
  }

  /**
   * `ParseSimple(key, color)` over the ways `ws`: a visible way whose id is
   * not consumed and that carries the key is consumed and emitted with its
   * footprint.
   */
  function ParseSimple(doc: Doc, frame: Frame, ws: seq<Way>, key: string, color: Colors.Color, ways: set<string>)
    : (r: (seq<Simple>, set<string>))
    ensures FreshIds(SimpleIds(r.0), ways, r.1)
    ensures r.1 == ways + KeyedIds(ws, key)
    ensures forall i :: 0 <= i < |r.0| ==> Selected(r.0[i].data, key) && r.0[i] == SimpleOf(doc, frame, r.0[i].data, color)
  {
    if |ws| == 0 then ([], ways)
    else
      var w := ws[0];
      KeyedIdsCons(ws, key);
      if !Selected(w, key) || w.id in ways then ParseSimple(doc, frame, ws[1..], key, color, ways)
      else
        var rest := ParseSimple(doc, frame, ws[1..], key, color, ways + {w.id});
        SimpleEmit(SimpleOf(doc, frame, w, color), rest.0, ways, rest.1);
        ([SimpleOf(doc, frame, w, color)] + rest.0, rest.1)
  }

  /** Emitting a fresh id ahead of ids fresh after it keeps them all fresh. */
  lemma SimpleEmit(s: Simple, rest: seq<Simple>, ways: set<string>, after: set<string>)
    requires s.id !in ways
    requires FreshIds(SimpleIds(rest), ways + {s.id}, after)
    ensures FreshIds(SimpleIds([s] + rest), ways, after)
  {
    SimpleIdsCons(s, rest);
    FreshAppend([s.id], SimpleIds(rest), ways, ways + {s.id}, after);
  }

  /** Every visible way tagged with the key and not consumed before is emitted. */
  lemma {:induction false} ParseSimpleComplete(doc: Doc, frame: Frame, ws: seq<Way>, key: string, color: Colors.Color,
                                               ways: set<string>, id: string)
    requires id in KeyedIds(ws, key) && id !in ways
    ensures id in SimpleIds(ParseSimple(doc, frame, ws, key, color, ways).0)
  {
    var w := ws[0];
    KeyedIdsCons(ws, key);
    if Selected(w, key) && w.id !in ways {
      var rest := ParseSimple(doc, frame, ws[1..], key, color, ways + {w.id});
      SimpleIdsCons(SimpleOf(doc, frame, w, color), rest.0);
      if id != w.id {
        ParseSimpleComplete(doc, frame, ws[1..], key, color, ways + {w.id}, id);
      }
    } else {
      ParseSimpleComplete(doc, frame, ws[1..], key, color, ways, id);
    }
  }

  /** The building `b` is clear of every part: `Intersects` is 0 against each. */
  predicate ClearOf(b: Simple, parts: seq<Simple>)
  {
    forall j :: 0 <= j < |parts| ==> Intersects(b.polygon, parts[j].polygon) == Some(0)
  }

  /**
   * A building is tested on the part's corners only: a part crossing it
   * with every corner outside leaves it clear.
   */
  lemma BarCrossingKept(b: Simple, p: Simple)
    requires b.polygon == Square10 && p.polygon == Bar
    ensures ClearOf(b, [p])
    ensures Contains(b.polygon.points, Vector2(0.0, 0.0)) && Contains(p.polygon.points, Vector2(0.0, 0.0))
  {
    CrossingBar();
  }

  /**
   * The test of one building against the collected parts, stopping at the
   * first part it overlaps (`Intersects` not 0): `Some(true)` keeps the
   * building, `Some(false)` drops it, `None` is a throw of `Contains` (an
   * empty building footprint against a part with points).
   */
  function Clear(b: Simple, parts: seq<Simple>): (r: Option<bool>)
    ensures r == Some(true) <==> ClearOf(b, parts)
  {
    if |parts| == 0 then Some(true)
    else
      match Intersects(b.polygon, parts[0].polygon)
      case None => Option.None
      case Some(x) =>
        if x != 0 then Some(false)
        else
          assert forall j :: 1 <= j < |parts| ==> parts[j] == parts[1..][j - 1];
          Clear(b, parts[1..])
  }

  /** The building loop of `ParseSimples`: the buildings clear of every part, in order, up to a throw. */
  function Keep(blds: seq<Simple>, parts: seq<Simple>): (r: (seq<Simple>, bool))
    ensures forall i :: 0 <= i < |r.0| ==> r.0[i] in blds && ClearOf(r.0[i], parts)
    ensures !r.1 ==> forall i :: 0 <= i < |blds| && ClearOf(blds[i], parts) ==> blds[i] in r.0
  {
    if |blds| == 0 then ([], false)
    else
      var rest := Keep(blds[1..], parts);
      assert forall i :: 1 <= i < |blds| ==> blds[i] == blds[1..][i - 1];
      match Clear(blds[0], parts)
      case None => ([], true)
      case Some(keep) => if keep then ([blds[0]] + rest.0, rest.1) else rest
  }

  /** Ids fresh between two sets stay fresh when the first set shrinks, and a tail is fresh after its head. */
  lemma FreshTail(ids: seq<string>, before: set<string>, after: set<string>)
    requires |ids| > 0 && FreshIds(ids, before, after)
    ensures FreshIds(ids[1..], before + {ids[0]}, after)
  {
    assert forall i :: 1 <= i < |ids| ==> ids[1..][i - 1] == ids[i];
  }

  /** The buildings `Keep` retains are as fresh as the buildings it was given. */
  lemma {:induction false} KeepFresh(blds: seq<Simple>, parts: seq<Simple>, before: set<string>, after: set<string>)
    requires FreshIds(SimpleIds(blds), before, after)
    ensures FreshIds(SimpleIds(Keep(blds, parts).0), before, after)
  {
    if |blds| > 0 {
      var b := blds[0];
      assert SimpleIds(blds)[1..] == SimpleIds(blds[1..]);
      FreshTail(SimpleIds(blds), before, after);
      KeepFresh(blds[1..], parts, before + {b.id}, after);
      var rest := Keep(blds[1..], parts).0;
      match Clear(b, parts)
      case None =>
      case Some(keep) =>
        if keep {
          assert SimpleIds(blds)[0] == b.id;
          SimpleEmit(b, rest, before, after);
        }
    }
  }

  /** The result of `ParseSimples()`: the parts, then the buildings kept, the consumed ids, and whether a test threw. */
  datatype Simples = Simples(parts: seq<Simple>, buildings: seq<Simple>, ways: set<string>, threw: bool)

  /**
   * `ParseSimples()`: every `building:part` way first (light blue), then
   * the `building` ways (blue) that overlap none of those parts. Every
   * building way is consumed, kept or not.
   */
  function ParseSimples(doc: Doc, frame: Frame, ways: set<string>): (r: Simples)
    ensures FreshIds(SimpleIds(r.parts + r.buildings), ways, r.ways)
    ensures r.ways == ways + KeyedIds(doc.ways, "building:part") + KeyedIds(doc.ways, "building")
    ensures forall i :: 0 <= i < |r.parts| ==>
      Selected(r.parts[i].data, "building:part") && r.parts[i].color == Colors.LightBlue
    ensures forall i :: 0 <= i < |r.buildings| ==>
      Selected(r.buildings[i].data, "building") && r.buildings[i].color == Colors.Blue && ClearOf(r.buildings[i], r.parts)
  {
    var p := ParseSimple(doc, frame, doc.ways, "building:part", Colors.LightBlue, ways);
    var b := ParseSimple(doc, frame, doc.ways, "building", Colors.Blue, p.1);
    var k := Keep(b.0, p.0);
    SimplesFresh(p.0, b.0, k.0, ways, p.1, b.1);
    Simples(p.0, k.0, b.1, k.1)
  }

  lemma SimplesFresh(parts: seq<Simple>, blds: seq<Simple>, kept: seq<Simple>, s0: set<string>, s1: set<string>, s2: set<string>)
    requires FreshIds(SimpleIds(parts), s0, s1) && FreshIds(SimpleIds(blds), s1, s2)
    requires kept == Keep(blds, parts).0
    ensures FreshIds(SimpleIds(parts + kept), s0, s2)
  {
    KeepFresh(blds, parts, s1, s2);
    SimpleIdsFresh(parts, kept, s0, s1, s2);
  }

  lemma SimpleIdsFresh(a: seq<Simple>, b: seq<Simple>, s0: set<string>, s1: set<string>, s2: set<string>)
    requires FreshIds(SimpleIds(a), s0, s1) && FreshIds(SimpleIds(b), s1, s2)
    ensures FreshIds(SimpleIds(a + b), s0, s2)
  {
    assert SimpleIds(a + b) == SimpleIds(a) + SimpleIds(b);
    FreshAppend(SimpleIds(a), SimpleIds(b), s0, s1, s2);
  }

  /**
   * When no test throws, a `building` way not consumed before is emitted
   * exactly when it is clear of every emitted part.
   */
  lemma BuildingKeptIff(doc: Doc, frame: Frame, ways: set<string>, i: nat)
    requires i < |ParseSimple(doc, frame, doc.ways, "building", Colors.Blue,
                    ParseSimple(doc, frame, doc.ways, "building:part", Colors.LightBlue, ways).1).0|
    requires !ParseSimples(doc, frame, ways).threw
    ensures var r := ParseSimples(doc, frame, ways);
      var b := ParseSimple(doc, frame, doc.ways, "building", Colors.Blue,
                 ParseSimple(doc, frame, doc.ways, "building:part", Colors.LightBlue, ways).1).0[i];
      b in r.buildings <==> ClearOf(b, r.parts)
  {
  }

  // ----- Buildings -----

  /** A simple way as a building part: the way's own part and roof data. */
  function SimplePart(s: Simple, draw: Attributes.HeightDraw): BuildingPart
  {
    NewBuildingPart(s.id, Some(s.polygon), Attributes.ParsePart(s.data.tags, draw), Attributes.ParseRoof(s.data.tags), s.color)
  }

  function SimpleParts(ss: seq<Simple>, draw: Attributes.HeightDraw): (ps: seq<BuildingPart>)
    ensures PartIds(ps) == SimpleIds(ss)
    ensures forall i :: 0 <= i < |ss| ==> ps[i] == SimplePart(ss[i], draw)
  {
    seq(|ss|, i requires 0 <= i < |ss| => SimplePart(ss[i], draw))
  }

  /** The three compound stages of `Buildings()`: multipolygon parts, multipolygons, building relations. */
  function CompoundStages(doc: Doc, frame: Frame, draw: Attributes.HeightDraw, fuel: nat, d: Dict): (r: Run)
    ensures FreshIds(PartIds(r.parts), {}, r.st.ways)
  {
    var r1 := CompoundsRun(doc, frame, draw, MultipolygonBuildingPart, fuel, State(d, {}), 0);
    if r1.halt != Finished then r1
    else
      var r2 := CompoundsRun(doc, frame, draw, MultipolygonBuilding, fuel, r1.st, 0);
      FreshParts(r1.parts, r2.parts, {}, r1.st.ways, r2.st.ways);
      if r2.halt != Finished then Run(r1.parts + r2.parts, r2.st, r2.halt)
      else
        var r3 := CompoundsRun(doc, frame, draw, Building, fuel, r2.st, 0);
        FreshParts(r1.parts + r2.parts, r3.parts, {}, r2.st.ways, r3.st.ways);
        Run(r1.parts + r2.parts + r3.parts, r3.st, r3.halt)
  }

  /**
   * `Buildings()`: the consumed ids emptied, the relations filed (a
   * repeated relation id throws before anything is emitted), then the
   * compound stages and the simple ways in order. No way id is emitted
   * twice.
   */
  function Buildings(doc: Doc, frame: Frame, draw: Attributes.HeightDraw, fuel: nat): (r: Run)
    ensures Distinct(PartIds(r.parts))
    ensures ParseCompounds(doc.relations).None? ==> r.parts == [] && r.halt == Throws
  {
    match ParseCompounds(doc.relations)
    case None => Run([], State([], {}), Throws)
    case Some(d) =>
      var c := CompoundStages(doc, frame, draw, fuel, d);
      if c.halt != Finished then c
      else
        var s := ParseSimples(doc, frame, c.st.ways);
        var last := SimpleParts(s.parts + s.buildings, draw);
        FreshParts(c.parts, last, {}, c.st.ways, s.ways);
        Run(c.parts + last, State(c.st.compounds, s.ways), if s.threw then Throws else Finished)
  }

  // ----- trees -----

  /** How many tags of a node say natural=tree. */
  function TreeTags(tags: seq<Tag>): (n: nat)
    ensures n <= |tags|
    ensures n == 0 <==> forall i :: 0 <= i < |tags| ==> tags[i] != Tag("natural", "tree")
  {
    if |tags| == 0 then 0
    else
      assert forall i :: 1 <= i < |tags| ==> tags[i] == tags[1..][i - 1];
      (if tags[0] == Tag("natural", "tree") then 1 else 0) + TreeTags(tags[1..])
  }

  /** The tree of a node: green, at the node's position, its data from all the node's tags. */
  function Tree(frame: Frame, n: Node): Shapes.Natural
  {
    NewNatural(n.id, Position(frame, n), Attributes.ParseTree(n.tags))
  }

  /** `Natural()`: for each visible node, one tree per natural=tree tag, in document order. */
  function Trees(frame: Frame, nodes: seq<Node>): (ts: seq<Shapes.Natural>)
    ensures forall i :: 0 <= i < |ts| ==> ts[i].colorCode == Colors.Green && ts[i].mesh.None?
  {
    if |nodes| == 0 then []
    else
      var n := nodes[0];
      (if n.visible then seq(TreeTags(n.tags), _ => Tree(frame, n)) else []) + Trees(frame, nodes[1..])
  }

  /** The trees of two runs of nodes are the trees of each, in order. */
  lemma {:induction false} TreesAppend(frame: Frame, a: seq<Node>, b: seq<Node>)
    ensures Trees(frame, a + b) == Trees(frame, a) + Trees(frame, b)
  {
    if |a| == 0 {
      assert a + b == b;
    } else {
      assert (a + b)[0] == a[0];
      assert (a + b)[1..] == a[1..] + b;
      TreesAppend(frame, a[1..], b);
    }
  }

  /** One node gives as many trees as it has natural=tree tags, when visible, and none otherwise. */
  lemma TreesOfNode(frame: Frame, n: Node)
    ensures |Trees(frame, [n])| == if n.visible then TreeTags(n.tags) else 0
    ensures forall i :: 0 <= i < |Trees(frame, [n])| ==> Trees(frame, [n])[i] == Tree(frame, n)
  {
    assert [n][1..] == [];
  }
}

=== FILE: ring_assembly.dfy ===
/**
 * `Merge` of OsmProvider.cs: the way members of a compound that share a
 * role are assembled into closed rings. The first unassigned member seeds
 * a ring from its way's footprint; while the ring is open, the members are
 * scanned in order for a fragment whose end points meet one of the ring's
 * ends, and the first that does is joined on and marked assigned. The
 * source's inner loop has no exit when a full scan joins nothing; that
 * outcome is `Stuck` here, and the stage halts with `Loops`.
 */
module RingAssembly {
  import opened Geometry
  import opened Wrappers
  import opened Polygons
  import opened Document
  import opened Compounds

  /** How a stage ended: it ran to its end, it never returns, it threw, or it exhausted the stack. */
  datatype Halt = Finished | Loops | Throws | Overflow

  /** The position of the first occurrence of `p`, or the length when there is none. */
  function PointIndex(s: seq<Vector2>, p: Vector2): (i: nat)
    ensures i <= |s|
    ensures i < |s| ==> s[i] == p
    ensures forall j :: 0 <= j < i ==> s[j] != p
  {
    if |s| == 0 then 0
    else if s[0] == p then 0
    else
      assert forall j :: 1 <= j < |s| ==> s[j] == s[1..][j - 1];
      1 + PointIndex(s[1..], p)
  }

  /** `List.Remove(p)`: the first occurrence of `p` is dropped; a list without `p` is unchanged. */
  function RemoveFirst(s: seq<Vector2>, p: Vector2): (r: seq<Vector2>)
    ensures p in s ==> |r| == |s| - 1
    ensures p !in s ==> r == s
  {
    var i := PointIndex(s, p);
    if i == |s| then s else s[..i] + s[i + 1..]
  }

  /** Removing the first point removes exactly the head. */
  lemma RemoveHead(s: seq<Vector2>)
    requires |s| > 0
    ensures RemoveFirst(s, s[0]) == s[1..]
  {
    assert PointIndex(s, s[0]) == 0;
  }

  /** Removing the last point removes exactly the end when that point does not occur earlier. */
  lemma RemoveEnd(s: seq<Vector2>)
    requires |s| > 0
    requires s[|s| - 1] !in s[..|s| - 1]
    ensures RemoveFirst(s, s[|s| - 1]) == s[..|s| - 1]
  {
    assert forall j :: 0 <= j < |s| - 1 ==> s[..|s| - 1][j] == s[j];
    assert PointIndex(s, s[|s| - 1]) == |s| - 1;
  }

  /**
   * When the ring's end point also occurs earlier, `Remove` drops the
   * earlier occurrence and keeps the end: on P, Q, R, Q it leaves P, R, Q.
   */
  lemma RemoveEarlierOccurrence()
    ensures RemoveFirst([Vector2(0.0, 0.0), Vector2(1.0, 0.0), Vector2(1.0, 1.0), Vector2(1.0, 0.0)], Vector2(1.0, 0.0))
         == [Vector2(0.0, 0.0), Vector2(1.0, 1.0), Vector2(1.0, 0.0)]
  {
    var s := [Vector2(0.0, 0.0), Vector2(1.0, 0.0), Vector2(1.0, 1.0), Vector2(1.0, 0.0)];
    assert s[0] != Vector2(1.0, 0.0) && s[1] == Vector2(1.0, 0.0);
    assert PointIndex(s, Vector2(1.0, 0.0)) == 1;
  }

  /**
   * One stitch: the fragment `c` joined to the open ring at the first of
   * four end point matches, tried in this order: the ring's last point is
   * `c`'s first (ring, then `c`), or `c`'s last (ring, then `c` reversed);
   * the ring's first point is `c`'s first (`c` reversed, then the ring), or
   * `c`'s last (`c`, then the ring). The matched point of the ring is
   * removed with `Remove`. None when no end point matches.
   */
  function Stitch(ring: seq<Vector2>, c: seq<Vector2>): (r: Option<seq<Vector2>>)
    requires |ring| > 0 && |c| > 0
    ensures r.None? <==>
      ring[|ring| - 1] != c[0] && ring[|ring| - 1] != c[|c| - 1] && ring[0] != c[0] && ring[0] != c[|c| - 1]
    ensures r.Some? ==> |r.value| == |ring| + |c| - 1
  {
    var first := ring[0];
    var last := ring[|ring| - 1];
    if last == c[0] then Some(RemoveFirst(ring, last) + c)
    else if last == c[|c| - 1] then Some(RemoveFirst(ring, last) + Reverse(c))
    else if first == c[0] then Some(Reverse(c) + RemoveFirst(ring, first))
    else if first == c[|c| - 1] then Some(c + RemoveFirst(ring, first))
    else Option.None
  }

  /**
   * The purpose of a stitch: an open path and a fragment that share both
   * end points, in either direction, make a closed ring.
   */
  lemma StitchCloses(ring: seq<Vector2>, c: seq<Vector2>)
    requires |ring| >= 2 && |c| >= 2
    requires ring[0] != ring[|ring| - 1]
    requires (ring[|ring| - 1] == c[0] && c[|c| - 1] == ring[0]) || (ring[|ring| - 1] == c[|c| - 1] && c[0] == ring[0])
    ensures Stitch(ring, c).Some? && IsClosed(Stitch(ring, c).value)
  {
    var n := |ring|;
    var last := ring[n - 1];
    var i := PointIndex(ring, last);
    assert i > 0;
    var kept := RemoveFirst(ring, last);
    assert kept == ring[..i] + ring[i + 1..];
    assert kept[0] == ring[0];
  }

  /** Two halves of a square, meeting at both ends, stitch into the closed square. */
  lemma StitchSquare()
    ensures Stitch([Vector2(0.0, 0.0), Vector2(1.0, 0.0), Vector2(1.0, 1.0)],
                   [Vector2(1.0, 1.0), Vector2(0.0, 1.0), Vector2(0.0, 0.0)])
         == Some([Vector2(0.0, 0.0), Vector2(1.0, 0.0), Vector2(1.0, 1.0), Vector2(0.0, 1.0), Vector2(0.0, 0.0)])
  {
    var ring := [Vector2(0.0, 0.0), Vector2(1.0, 0.0), Vector2(1.0, 1.0)];
    assert PointIndex(ring, Vector2(1.0, 1.0)) == 2 by {
      assert ring[0] != Vector2(1.0, 1.0) && ring[1] != Vector2(1.0, 1.0);
    }
    assert RemoveFirst(ring, Vector2(1.0, 1.0)) == ring[..2];
    assert ring[..2] + [Vector2(1.0, 1.0), Vector2(0.0, 1.0), Vector2(0.0, 0.0)]
        == [Vector2(0.0, 0.0), Vector2(1.0, 0.0), Vector2(1.0, 1.0), Vector2(0.0, 1.0), Vector2(0.0, 0.0)];
  }

  // ----- the unassigned same-role structures -----

  /** A structure a scan may still join, or `Merge` may still seed from: unassigned and of the role. */
  predicate Candidate(s: Structure, role: PartRole)
  {
    s.unassigned && s.role == role
  }

  /** How many structures are candidates. */
  function Unassigned(structs: seq<Structure>, role: PartRole): (n: nat)
    ensures n <= |structs|
    ensures n == 0 <==> forall j :: 0 <= j < |structs| ==> !Candidate(structs[j], role)
  {
    if |structs| == 0 then 0
    else
      assert forall j :: 1 <= j < |structs| ==> structs[j] == structs[1..][j - 1];
      (if Candidate(structs[0], role) then 1 else 0) + Unassigned(structs[1..], role)
  }

  /** Marking one candidate assigned lowers the count by exactly one. */
  lemma {:induction false} AssignOne(structs: seq<Structure>, i: nat, role: PartRole)
    requires i < |structs| && Candidate(structs[i], role)
    ensures Unassigned(structs[i := structs[i].(unassigned := false)], role) == Unassigned(structs, role) - 1
  {
    var after := structs[i := structs[i].(unassigned := false)];
    if i == 0 {
      assert after[1..] == structs[1..];
    } else {
      assert after[1..] == structs[1..][i - 1 := structs[1..][i - 1].(unassigned := false)];
      AssignOne(structs[1..], i - 1, role);
    }
  }

  /** `b` is `a` later on: the same members (ids and roles), and an assigned member stays assigned. */
  predicate Evolves(a: seq<Structure>, b: seq<Structure>)
  {
    && |a| == |b|
    && forall j :: 0 <= j < |a| ==> b[j].id == a[j].id && b[j].role == a[j].role && (b[j].unassigned ==> a[j].unassigned)
  }

  lemma EvolvesTrans(a: seq<Structure>, b: seq<Structure>, c: seq<Structure>)
    requires Evolves(a, b) && Evolves(b, c)
    ensures Evolves(a, c)
  {
  }

  /** Members only ever get assigned, so the count never grows. */
  lemma {:induction false} EvolvesCount(a: seq<Structure>, b: seq<Structure>, role: PartRole)
    requires Evolves(a, b)
    ensures Unassigned(b, role) <= Unassigned(a, role)
  {
    if |a| > 0 {
      assert Evolves(a[1..], b[1..]) by {
        forall j | 0 <= j < |a| - 1
          ensures b[1..][j].id == a[1..][j].id && b[1..][j].role == a[1..][j].role
          ensures b[1..][j].unassigned ==> a[1..][j].unassigned
        {
          assert a[1..][j] == a[j + 1] && b[1..][j] == b[j + 1];
        }
      }
      EvolvesCount(a[1..], b[1..], role);
    }
  }

  // ----- the scan for a fitting fragment -----

  /** The footprint of the way with that id, if there is such a way. */
  function Fragment(doc: Doc, frame: Frame, id: string): (r: Option<seq<Vector2>>)
    ensures r.Some? <==> FindWay(doc.ways, id).Some?
    ensures r.Some? ==> r.value == FootprintPoints(frame, doc.nodes, FindWay(doc.ways, id).value.refs)
  {
    match FindWay(doc.ways, id)
    case Some(w) => Some(FootprintPoints(frame, doc.nodes, w.refs))
    case None => Option.None
  }

  /**
   * The fragment of every structure, by position. Assigning structures
   * changes no id, so a compound's fragments stay the same all through
   * `Merge`.
   */
  function Fragments(doc: Doc, frame: Frame, structs: seq<Structure>): (fs: seq<Option<seq<Vector2>>>)
    ensures |fs| == |structs|
    ensures forall j :: 0 <= j < |structs| ==> fs[j] == Fragment(doc, frame, structs[j].id)
  {
    seq(|structs|, j requires 0 <= j < |structs| => Fragment(doc, frame, structs[j].id))
  }

  /** A member the scan passes over: not a candidate, no way, or a fragment that does not fit the ring. */
  predicate Misses(ring: seq<Vector2>, s: Structure, f: Option<seq<Vector2>>, role: PartRole)
    requires |ring| > 0
  {
    Candidate(s, role) && f.Some? ==> |f.value| > 0 && Stitch(ring, f.value).None?
  }

  /** The ids a scan of positions `k` up to `stop` consumes: every candidate whose way exists. */
  function Scanned(structs: seq<Structure>, frags: seq<Option<seq<Vector2>>>, role: PartRole, k: nat, stop: nat): set<string>
    requires k <= stop <= |structs| == |frags|
  {
    set j | k <= j < stop && Candidate(structs[j], role) && frags[j].Some? :: structs[j].id
  }

  lemma ScannedStep(structs: seq<Structure>, frags: seq<Option<seq<Vector2>>>, role: PartRole, k: nat, stop: nat)
    requires k < stop <= |structs| == |frags|
    ensures Scanned(structs, frags, role, k, stop) ==
      (if Candidate(structs[k], role) && frags[k].Some? then {structs[k].id} else {})
      + Scanned(structs, frags, role, k + 1, stop)
  {
  }

  lemma ScannedEmpty(structs: seq<Structure>, frags: seq<Option<seq<Vector2>>>, role: PartRole, k: nat)
    requires k <= |structs| == |frags|
    ensures Scanned(structs, frags, role, k, k) == {}
  {
  }

  datatype ScanResult =
    | NoMatch(consumed: set<string>)
    | Matched(ring: seq<Vector2>, index: nat, consumed: set<string>)
    | Failed(index: nat, consumed: set<string>)

  /** Where a scan stopped: the member it joined or failed on, or the end. */
  function Stop(r: ScanResult, n: nat): nat
  {
    if r.NoMatch? then n else r.index
  }

  /** One past where a scan stopped: the end of the members it consumed from. */
  function End(r: ScanResult, n: nat): nat
  {
    if r.NoMatch? then n else r.index + 1
  }

  /**
   * The `foreach` over the compound's structures from position `k`, with
   * `frags` their fragments: each candidate whose way exists is consumed,
   * then its fragment is tried; the first fragment that fits is joined
   * (`Matched`). A fragment without points makes `First()` throw (`Failed`).
   */
  function Scan(ring: seq<Vector2>, structs: seq<Structure>, frags: seq<Option<seq<Vector2>>>, role: PartRole, k: nat)
    : (r: ScanResult)
    requires |ring| > 0 && k <= |structs| == |frags|
    decreases |structs| - k
    ensures !r.NoMatch? ==> k <= r.index < |structs|
    ensures !r.NoMatch? ==> Candidate(structs[r.index], role) && frags[r.index].Some?
    ensures r.Failed? ==> |frags[r.index].value| == 0
    ensures r.Matched? ==> |frags[r.index].value| > 0 && Stitch(ring, frags[r.index].value) == Some(r.ring)
  {
    if k == |structs| then NoMatch({})
    else
      var s := structs[k];
      if !Candidate(s, role) || frags[k].None? then Scan(ring, structs, frags, role, k + 1)
      else
        var c := frags[k].value;
        if |c| == 0 then Failed(k, {s.id})
        else if Stitch(ring, c).Some? then Matched(Stitch(ring, c).value, k, {s.id})
        else
          match Scan(ring, structs, frags, role, k + 1)
          case NoMatch(ids) => NoMatch({s.id} + ids)
          case Matched(joined, i, ids) => Matched(joined, i, {s.id} + ids)
          case Failed(i, ids) => Failed(i, {s.id} + ids)
  }

  /** One scan step: a member passed over leaves the rest of the scan as it is, having consumed it if it is a candidate with a way. */
  lemma ScanSkips(ring: seq<Vector2>, structs: seq<Structure>, frags: seq<Option<seq<Vector2>>>, role: PartRole, k: nat)
    requires |ring| > 0 && k < |structs| == |frags|
    requires Misses(ring, structs[k], frags[k], role)
    ensures Stop(Scan(ring, structs, frags, role, k), |structs|) == Stop(Scan(ring, structs, frags, role, k + 1), |structs|)
    ensures End(Scan(ring, structs, frags, role, k), |structs|) == End(Scan(ring, structs, frags, role, k + 1), |structs|)
    ensures Scan(ring, structs, frags, role, k).consumed ==
      (if Candidate(structs[k], role) && frags[k].Some? then {structs[k].id} else {}) + Scan(ring, structs, frags, role, k + 1).consumed
  {
  }

  /** One scan step: a member not passed over is where the scan stops, and the only one it consumes. */
  lemma ScanStops(ring: seq<Vector2>, structs: seq<Structure>, frags: seq<Option<seq<Vector2>>>, role: PartRole, k: nat)
    requires |ring| > 0 && k < |structs| == |frags|
    requires !Misses(ring, structs[k], frags[k], role)
    ensures Stop(Scan(ring, structs, frags, role, k), |structs|) == k
    ensures End(Scan(ring, structs, frags, role, k), |structs|) == k + 1
    ensures Scan(ring, structs, frags, role, k).consumed == {structs[k].id}
  {
  }

  /** The scan takes the FIRST fitting member: every member before the one it stops at is passed over. */
  lemma {:induction false} ScanFirst(ring: seq<Vector2>, structs: seq<Structure>, frags: seq<Option<seq<Vector2>>>, role: PartRole, k: nat)
    requires |ring| > 0 && k <= |structs| == |frags|
    decreases |structs| - k
    ensures forall j :: k <= j < Stop(Scan(ring, structs, frags, role, k), |structs|) ==> Misses(ring, structs[j], frags[j], role)
  {
    if k < |structs| {
      if Misses(ring, structs[k], frags[k], role) {
        ScanSkips(ring, structs, frags, role, k);
        ScanFirst(ring, structs, frags, role, k + 1);
      } else {
        ScanStops(ring, structs, frags, role, k);
      }
    }
  }

  /**
   * Consumed-id bookkeeping: the scan consumes every candidate whose way
   * exists up to and including the one it stops at, whether its fragment
   * fits or not.
   */
  lemma {:induction false} ScanConsumes(ring: seq<Vector2>, structs: seq<Structure>, frags: seq<Option<seq<Vector2>>>, role: PartRole, k: nat)
    requires |ring| > 0 && k <= |structs| == |frags|
    decreases |structs| - k
    ensures Scan(ring, structs, frags, role, k).consumed
         == Scanned(structs, frags, role, k, End(Scan(ring, structs, frags, role, k), |structs|))
  {
    if k == |structs| {
      ScannedEmpty(structs, frags, role, k);
    } else {
      var e := End(Scan(ring, structs, frags, role, k), |structs|);
      if Misses(ring, structs[k], frags[k], role) {
        ScanSkips(ring, structs, frags, role, k);
        ScanConsumes(ring, structs, frags, role, k + 1);
        ScannedStep(structs, frags, role, k, e);
      } else {
        ScanStops(ring, structs, frags, role, k);
        ScannedStep(structs, frags, role, k, k + 1);
        ScannedEmpty(structs, frags, role, k + 1);
      }
    }
  }

  // ----- closing one ring -----

  datatype CloseResult =
    | Closed(ring: seq<Vector2>, structs: seq<Structure>, consumed: set<string>)
    | Stuck(ring: seq<Vector2>, structs: seq<Structure>, consumed: set<string>)
    | Broken(structs: seq<Structure>, consumed: set<string>)

  /**
   * The inner `while (true)`: return the ring once it is closed; otherwise
   * read its end points (an empty ring makes `First()` throw), scan, join
   * the fitting fragment and go round again. A scan that joins nothing
   * leaves ring and structures as they were, so the source repeats the same
   * scan forever: `Stuck`.
   */
  function Close(ring: seq<Vector2>, structs: seq<Structure>, frags: seq<Option<seq<Vector2>>>, role: PartRole)
    : (r: CloseResult)
    requires |structs| == |frags|
    decreases Unassigned(structs, role)
    ensures Evolves(structs, r.structs)
    ensures r.Closed? ==> IsClosed(r.ring)
    ensures r.Stuck? ==> |r.ring| > 0 && !IsClosed(r.ring) && Scan(r.ring, r.structs, frags, role, 0).NoMatch?
  {
    if IsClosed(ring) then Closed(ring, structs, {})
    else if |ring| == 0 then Broken(structs, {})
    else
      match Scan(ring, structs, frags, role, 0)
      case NoMatch(ids) => Stuck(ring, structs, ids)
      case Failed(_, ids) => Broken(structs, ids)
      case Matched(joined, i, ids) =>
        AssignOne(structs, i, role);
        var r := Close(joined, structs[i := structs[i].(unassigned := false)], frags, role);
        match r
        case Closed(done, ss, more) => Closed(done, ss, ids + more)
        case Stuck(open, ss, more) => Stuck(open, ss, ids + more)
        case Broken(ss, more) => Broken(ss, ids + more)
  }

  /** A stuck ring is one no member can extend: a further pass passes over every member, so the loop repeats forever. */
  lemma StuckForever(ring: seq<Vector2>, structs: seq<Structure>, frags: seq<Option<seq<Vector2>>>, role: PartRole)
    requires |structs| == |frags|
    requires Close(ring, structs, frags, role).Stuck?
    ensures var r := Close(ring, structs, frags, role);
      forall j :: 0 <= j < |r.structs| ==> Misses(r.ring, r.structs[j], frags[j], role)
  {
    var r := Close(ring, structs, frags, role);
    ScanFirst(r.ring, r.structs, frags, role, 0);
  }

  // ----- Merge -----

  /** The first candidate, as the LINQ query `FirstOrDefault` finds it. */
  function FirstCandidate(structs: seq<Structure>, role: PartRole): (r: Option<nat>)
    ensures r.None? <==> forall j :: 0 <= j < |structs| ==> !Candidate(structs[j], role)
    ensures r.Some? ==> r.value < |structs| && Candidate(structs[r.value], role)
    ensures r.Some? ==> forall j :: 0 <= j < r.value ==> !Candidate(structs[j], role)
  {
    if |structs| == 0 then Option.None
    else if Candidate(structs[0], role) then Some(0)
    else
      assert forall j :: 1 <= j < |structs| ==> structs[j] == structs[1..][j - 1];
      var r := FirstCandidate(structs[1..], role);
      if r.Some? then Some(r.value + 1) else Option.None
  }

  /**
   * A structure as `Merge` yields it: assigned, of the role, its data the
   * way of its id, its polygon a multipolygon without holes on a closed ring.
   */
  predicate Assembled(doc: Doc, s: Structure, role: PartRole)
  {
    && !s.unassigned
    && s.role == role
    && s.data.Some? && FindWay(doc.ways, s.id) == s.data
    && s.polygon.Some? && s.polygon.value.Multi? && s.polygon.value.holes == []
    && IsClosed(s.polygon.value.points)
  }

  function StructureIds(ss: seq<Structure>): (ids: seq<string>)
    ensures |ids| == |ss|
    ensures forall i :: 0 <= i < |ss| ==> ids[i] == ss[i].id
  {
    seq(|ss|, i requires 0 <= i < |ss| => ss[i].id)
  }

  datatype MergeResult = MergeResult(merged: seq<Structure>, structs: seq<Structure>, ways: set<string>, halt: Halt)

  /** The seed at position `i` with its ring closed: assigned, with its way and its ring as a multipolygon. */
  function Seal(ss: seq<Structure>, i: nat, way: Way, ring: seq<Vector2>): (r: seq<Structure>)
    requires i < |ss|
    ensures |r| == |ss| && r[i] == ss[i].(data := Some(way), polygon := Some(MultiOf(ring)))
    ensures forall j :: 0 <= j < |ss| && j != i ==> r[j] == ss[j]
  {
    ss[i := ss[i].(data := Some(way), polygon := Some(MultiOf(ring)))]
  }

  /**
   * One round of `Merge` after the seed at position `i` is found with its
   * way: the seed is assigned and its ring closed against the other members.
   */
  function Seed(doc: Doc, frame: Frame, structs: seq<Structure>, i: nat, way: Way, role: PartRole): (c: CloseResult)
    requires i < |structs| && Candidate(structs[i], role)
    ensures Evolves(structs, c.structs)
    ensures Unassigned(c.structs, role) < Unassigned(structs, role)
    ensures !c.structs[i].unassigned
    ensures c.Closed? ==> IsClosed(c.ring)
  {
    var seeded := structs[i := structs[i].(unassigned := false)];
    AssignOne(structs, i, role);
    assert Evolves(structs, seeded);
    var c := Close(FootprintPoints(frame, doc.nodes, way.refs), seeded, Fragments(doc, frame, seeded), role);
    EvolvesCount(seeded, c.structs, role);
    EvolvesTrans(structs, seeded, c.structs);
    c
  }

  /**
   * `Merge(compound, role)` over the compound's structures and the consumed
   * way ids. It stops, without error, when there is no candidate left, when
   * the next seed's id is already consumed, or when its way is missing.
   * Otherwise the seed is consumed and assigned, its ring is closed, and the
   * seed is yielded with its way and ring. A stuck ring never returns
   * (`Loops`); an empty ring or fragment throws (`Throws`).
   */
  function Merge(doc: Doc, frame: Frame, structs: seq<Structure>, ways: set<string>, role: PartRole)
    : (r: MergeResult)
    decreases Unassigned(structs, role)
    ensures Evolves(structs, r.structs)
    ensures r.halt == Finished || r.halt == Loops || r.halt == Throws
    ensures FreshIds(StructureIds(r.merged), ways, r.ways)
    ensures forall k :: 0 <= k < |r.merged| ==> Assembled(doc, r.merged[k], role)
    ensures |r.merged| <= Unassigned(structs, role) - Unassigned(r.structs, role)
  {
    match FirstCandidate(structs, role)
    case None => MergeResult([], structs, ways, Finished)
    case Some(i) =>
      var s := structs[i];
      if s.id in ways then MergeResult([], structs, ways, Finished)
      else
        match FindWay(doc.ways, s.id)
        case None => MergeResult([], structs, ways, Finished)
        case Some(way) =>
          var c := Seed(doc, frame, structs, i, way, role);
          var ways' := ways + {s.id} + c.consumed;
          if c.Stuck? then MergeResult([], c.structs, ways', Loops)
          else if c.Broken? then MergeResult([], c.structs, ways', Throws)
          else
            var ss := Seal(c.structs, i, way, c.ring);
            EvolvesCount(c.structs, ss, role);
            var rest := Merge(doc, frame, ss, ways', role);
            MergeStep(doc, ss[i], role, rest, ways, ways');
            assert Assembled(doc, ss[i], role) by {
              assert ss[i].id == s.id && !ss[i].unassigned && ss[i].role == role;
            }
            EvolvesTrans(structs, c.structs, ss);
            EvolvesTrans(structs, ss, rest.structs);
            AssembledCons(doc, ss[i], rest.merged, role);
            MergeResult([ss[i]] + rest.merged, rest.structs, rest.ways, rest.halt)
  }

  lemma AssembledCons(doc: Doc, done: Structure, rest: seq<Structure>, role: PartRole)
    requires Assembled(doc, done, role)
    requires forall k :: 0 <= k < |rest| ==> Assembled(doc, rest[k], role)
    ensures forall k :: 0 <= k < |[done] + rest| ==> Assembled(doc, ([done] + rest)[k], role)
  {
  }

  /** The bookkeeping of one `Merge` round: the sealed seed before the rest keeps ids fresh. */
  lemma MergeStep(doc: Doc, done: Structure, role: PartRole, rest: MergeResult, ways: set<string>, ways': set<string>)
    requires done.id !in ways && ways + {done.id} <= ways'
    requires FreshIds(StructureIds(rest.merged), ways', rest.ways)
    ensures FreshIds(StructureIds([done] + rest.merged), ways, rest.ways)
  {
    FreshAppend([done.id], StructureIds(rest.merged), ways, ways', rest.ways);
    assert StructureIds([done] + rest.merged) == [done.id] + StructureIds(rest.merged);
  }
}

=== FILE: shapedata.dfy ===
/**
 * The attribute records of Building.cs and Natural.cs (Simple 3D Buildings
 * tagging): the shape enumerations, `Surface`, `PartData`, `RoofData` and
 * `NaturalData`. They are structs in the source, copied on assignment, which
 * is what datatype values are. Single-precision floats are reals; shorts
 * are integers in the 16-bit range.
 */
module ShapeData {
  import Wrappers
  import Colors
  import Text

  /** A `short`. */
  type Short = x: int | -32768 <= x <= 32767

  datatype BuildingShape = None | Cylinder | Pyramidal

  datatype RoofShape =
    | None | Flat | Skillion | Gabled | Halfhipped | Hipped | Pyramidal
    | Gambrel | Mansard | Dome | Onion | Round | Saltbox

  datatype RoofOrientation = None | Along | Across

  /** Colour and material of a body or roof; `default(Surface)` has `Color.Empty` and no material. */
  datatype Surface = Surface(color: Colors.Color, material: Wrappers.Option<string>)

  datatype PartData = PartData(
    shape: BuildingShape,
    name: Wrappers.Option<string>,
    volume: bool,
    height: real,
    min_height: real,
    levels: Short,
    min_level: Short,
    surface: Surface)

  datatype RoofData = RoofData(
    shape: RoofShape,
    orientation: RoofOrientation,
    height: real,
    angle: real,
    levels: Short,
    direction: real,
    surface: Surface)

  datatype NaturalData = NaturalData(
    genus: Wrappers.Option<string>,
    species: Wrappers.Option<string>,
    leaf_type: Wrappers.Option<string>,
    circumference: real,
    height: real)

  /** `default(Color)`. */
  const EmptyColor: Colors.Color := Colors.Named("Empty")

  const DefaultSurface: Surface := Surface(EmptyColor, Wrappers.None)

  /** `default(PartData)`: every field zero, false or null. */
  const DefaultPart: PartData := PartData(BuildingShape.None, Wrappers.None, false, 0.0, 0.0, 0, 0, DefaultSurface)

  /** `default(RoofData)`. */
  const DefaultRoof: RoofData := RoofData(RoofShape.None, RoofOrientation.None, 0.0, 0.0, 0, 0.0, DefaultSurface)

  /** `default(NaturalData)`. */
  const DefaultNatural: NaturalData := NaturalData(Wrappers.None, Wrappers.None, Wrappers.None, 0.0, 0.0)

  /** The member names of `BuildingShape`, with their members, in declaration order. */
  const BuildingShapeNames: seq<(string, BuildingShape)> :=
    [("None", BuildingShape.None), ("Cylinder", BuildingShape.Cylinder), ("Pyramidal", BuildingShape.Pyramidal)]

  /** The member names of `RoofShape`, with their members, in declaration order. */
  const RoofShapeNames: seq<(string, RoofShape)> :=
    [("None", RoofShape.None), ("Flat", RoofShape.Flat), ("Skillion", RoofShape.Skillion),
     ("Gabled", RoofShape.Gabled), ("Halfhipped", RoofShape.Halfhipped), ("Hipped", RoofShape.Hipped),
     ("Pyramidal", RoofShape.Pyramidal), ("Gambrel", RoofShape.Gambrel), ("Mansard", RoofShape.Mansard),
     ("Dome", RoofShape.Dome), ("Onion", RoofShape.Onion), ("Round", RoofShape.Round),
     ("Saltbox", RoofShape.Saltbox)]

  /**
   * `Enum.TryParse(value, true, out result)` for a member name: the first
   * member whose name equals `value` ignoring case, else nothing (and the out
   * field then receives the default member).
   */
  function ParseEnum<T(==)>(names: seq<(string, T)>, value: string): (r: Wrappers.Option<T>)
    ensures r.Some? <==> exists i :: 0 <= i < |names| && Text.Lower(names[i].0) == Text.Lower(value)
    ensures r.Some? ==> exists i :: 0 <= i < |names| && Text.Lower(names[i].0) == Text.Lower(value) && names[i].1 == r.value
  {
    if |names| == 0 then Wrappers.None
    else if Text.Lower(names[0].0) == Text.Lower(value) then Wrappers.Some(names[0].1)
    else
      var r := ParseEnum(names[1..], value);
      assert forall i :: 1 <= i < |names| ==> names[i] == names[1..][i - 1];
      if r.Some? then
        var i :| 0 <= i < |names| - 1 && Text.Lower(names[1..][i].0) == Text.Lower(value) && names[1..][i].1 == r.value;
        assert names[i + 1] == names[1..][i];
        r
      else r
  }

  /** The building shape written into the out field: the parsed member, or `None` when parsing fails. */
  function BuildingShapeOf(value: string): BuildingShape
  {
    ParseEnum(BuildingShapeNames, value).GetOr(BuildingShape.None)
  }

  /** The roof shape written into the out field: the parsed member, or `None` when parsing fails. */
  function RoofShapeOf(value: string): RoofShape
  {
    ParseEnum(RoofShapeNames, value).GetOr(RoofShape.None)
  }

  /** The first member whose name matches ignoring case is the one parsed. */
  lemma {:induction false} ParseEnumFinds<T>(names: seq<(string, T)>, value: string, i: nat)
    requires i < |names| && Text.Lower(names[i].0) == Text.Lower(value)
    requires forall j :: 0 <= j < i ==> Text.Lower(names[j].0) != Text.Lower(value)
    ensures ParseEnum(names, value) == Wrappers.Some(names[i].1)
  {
    if i > 0 {
      assert forall j :: 1 <= j < |names| ==> names[j] == names[1..][j - 1];
      ParseEnumFinds(names[1..], value, i - 1);
    }
  }

  /** Member names are recognised in any letter case. */
  lemma ShapeNameAnyCase()
    ensures BuildingShapeOf("CYLINDER") == BuildingShape.Cylinder
  {
    assert Text.Lower("CYLINDER") == "cylinder" == Text.Lower("Cylinder");
    assert Text.Lower("None") == "none";
    ParseEnumFinds(BuildingShapeNames, "CYLINDER", 1);
  }

  /** A value that names no member resets the field to `None`. */
  lemma UnknownShapeName()
    ensures BuildingShapeOf("cone") == BuildingShape.None
  {
    assert Text.Lower("cone") == "cone";
    assert Text.Lower("None") == "none" && Text.Lower("Cylinder") == "cylinder" && Text.Lower("Pyramidal") == "pyramidal";
  }
}

=== FILE: shapes.dfy ===
/**
 * The shapes a provider yields (Shape.cs, Building.cs, Natural.cs): an id and
 * a colour code, the attribute data, and a mesh built on first request and
 * kept. A getter that fills a cache is modelled as a function returning the
 * value read and the object after the read.
 */
module Shapes {
  import opened Geometry
  import opened Wrappers
  import Colors
  import opened Polygons
  import opened Meshes
  import opened ShapeData
  import ModelBuilder

  /** A `BuildingPart`: `footprint` and `mesh` are the private, possibly null, backing fields. */
  datatype BuildingPart = BuildingPart(
    id: string,
    colorCode: Colors.Color,
    footprint: Option<Polygon>,
    body: PartData,
    roof: RoofData,
    mesh: Option<Mesh>)

  /** The `BuildingPart` constructor: the fields as given, no mesh yet. */
  function NewBuildingPart(id: string, footprint: Option<Polygon>, body: PartData, roof: RoofData, color: Colors.Color): (b: BuildingPart)
    ensures b.id == id && b.colorCode == color && b.footprint == footprint
    ensures b.body == body && b.roof == roof && b.mesh.None?
  {
    BuildingPart(id, color, footprint, body, roof, Option.None)
  }

  /** The `Footprint` getter: the stored polygon, or a new empty one that is stored from then on. */
  function GetFootprint(b: BuildingPart): (r: (Polygon, BuildingPart))
    ensures r.1.footprint == Some(r.0)
    ensures b.footprint.Some? ==> r == (b.footprint.value, b)
    ensures b.footprint.None? ==> r.0 == Plain([]) && r.1 == b.(footprint := Some(Plain([])))
  {
    if b.footprint.Some? then (b.footprint.value, b)
    else (Plain([]), b.(footprint := Some(Plain([]))))
  }

  /**
   * The `Mesh` getter: the stored mesh if there is one; otherwise, for a
   * volume, the mesh ModelBuilder makes of the footprint (read through its
   * getter) and stores, which may be null. A part that is not a volume
   * never gets a mesh. When `CreateMesh` throws, the exception leaves the
   * getter: nothing is stored but the footprint the getter read.
   */
  function GetMesh(b: BuildingPart, triangulate: Polygon -> ModelBuilder.Triangulation, unit: Vector3 -> Vector3)
    : (r: (ModelBuilder.Built, BuildingPart))
    ensures r.0.Returned? ==> r.1.mesh == r.0.mesh
    ensures r.0.Thrown? ==> b.mesh.None? && b.body.volume && r.1 == GetFootprint(b).1
    ensures b.mesh.Some? ==> r == (ModelBuilder.Returned(b.mesh), b)
    ensures b.mesh.None? && !b.body.volume ==> r == (ModelBuilder.Returned(Option.None), b)
    ensures r.1.id == b.id && r.1.body == b.body && r.1.roof == b.roof && r.1.colorCode == b.colorCode
  {
    if b.mesh.None? && b.body.volume then
      var (poly, b') := GetFootprint(b);
      match ModelBuilder.CreateMesh(poly, b.body, b.roof, triangulate(poly), unit)
      case Thrown => (ModelBuilder.Thrown, b')
      case Returned(m) => (ModelBuilder.Returned(m), b'.(mesh := m))
    else (ModelBuilder.Returned(b.mesh), b)
  }

  /** A mesh, once built, is what every later read returns, and reading changes nothing more. */
  lemma MeshCached(b: BuildingPart, triangulate: Polygon -> ModelBuilder.Triangulation, unit: Vector3 -> Vector3)
    requires GetMesh(b, triangulate, unit).0.Returned? && GetMesh(b, triangulate, unit).0.mesh.Some?
    ensures var (m, b') := GetMesh(b, triangulate, unit); GetMesh(b', triangulate, unit) == (m, b')
  {
  }

  /**
   * A read that builds nothing leaves the cache empty, so the next read tries
   * again; with the same triangulation it ends the same way, and the footprint
   * it read stays stored.
   */
  lemma NullMeshRetried(b: BuildingPart, triangulate: Polygon -> ModelBuilder.Triangulation, unit: Vector3 -> Vector3)
    requires b.mesh.None? && b.body.volume
    requires !(GetMesh(b, triangulate, unit).0.Returned? && GetMesh(b, triangulate, unit).0.mesh.Some?)
    ensures var (m, b') := GetMesh(b, triangulate, unit);
      b'.mesh.None? && b'.footprint.Some? && GetMesh(b', triangulate, unit) == (m, b')
  {
  }

  /**
   * A volume whose footprint has fewer than three points, the empty one
   * stored for a null footprint included, throws from every read of its
   * mesh and never gets one.
   */
  lemma ShortFootprintThrows(b: BuildingPart, triangulate: Polygon -> ModelBuilder.Triangulation, unit: Vector3 -> Vector3)
    requires b.mesh.None? && b.body.volume
    requires b.footprint.None? || |b.footprint.value.points| < 3
    ensures var (m, b') := GetMesh(b, triangulate, unit);
      m.Thrown? && b'.mesh.None? && GetMesh(b', triangulate, unit) == (m, b')
  {
    var (poly, b') := GetFootprint(b);
    ModelBuilder.ShortOutlineThrows(poly, b.body, b.roof, triangulate(poly), unit);
  }

  /** The footprint getter reads the same polygon every time and stores it once. */
  lemma FootprintStable(b: BuildingPart)
    ensures var (p, b') := GetFootprint(b); GetFootprint(b') == (p, b')
  {
  }

  /** The mesh of a fresh part is the ModelBuilder outcome for its footprint, or null when it is not a volume. */
  lemma FreshPartMesh(id: string, poly: Polygon, body: PartData, roof: RoofData, color: Colors.Color,
                      triangulate: Polygon -> ModelBuilder.Triangulation, unit: Vector3 -> Vector3)
    ensures var b := NewBuildingPart(id, Some(poly), body, roof, color);
      GetMesh(b, triangulate, unit).0 ==
        if body.volume then ModelBuilder.CreateMesh(poly, body, roof, triangulate(poly), unit)
        else ModelBuilder.Returned(Option.None)
  {
  }

  /** A `Natural`: a tree with its anchor on the tile, its data and the mesh backing field. */
  datatype Natural = Natural(id: string, colorCode: Colors.Color, anchor: Vector2, data: NaturalData, mesh: Option<Mesh>)

  /** `new Natural(id)`: green, anchor and data at their defaults. */
  function NewNaturalId(id: string): (n: Natural)
    ensures n.id == id && n.colorCode == Colors.Green && n.mesh.None?
    ensures n.anchor == Vector2(0.0, 0.0) && n.data == DefaultNatural
  {
    Natural(id, Colors.Green, Vector2(0.0, 0.0), DefaultNatural, Option.None)
  }

  /** `new Natural(id, anchor, data)`: green, with the given anchor and data. */
  function NewNatural(id: string, anchor: Vector2, data: NaturalData): (n: Natural)
    ensures n.id == id && n.colorCode == Colors.Green && n.mesh.None?
    ensures n.anchor == anchor && n.data == data
  {
    Natural(id, Colors.Green, anchor, data, Option.None)
  }

  /** The `Mesh` getter of a natural: built on first read, never null, then kept. */
  function GetNaturalMesh(n: Natural, unit: Vector3 -> Vector3): (r: (Mesh, Natural))
    ensures r.1.mesh == Some(r.0)
    ensures n.mesh.Some? ==> r == (n.mesh.value, n)
    ensures r.1 == n.(mesh := Some(r.0))
  {
    if n.mesh.Some? then (n.mesh.value, n)
    else
      var m := ModelBuilder.TreeMesh(n.anchor, n.data, unit);
      (m, n.(mesh := Some(m)))
  }

  /** Every read of a tree's mesh returns the mesh of its anchor and data, and only the first read changes the tree. */
  lemma NaturalMeshStable(n: Natural, unit: Vector3 -> Vector3)
    requires n.mesh.None?
    ensures var (m, n') := GetNaturalMesh(n, unit);
      && m == ModelBuilder.TreeMesh(n.anchor, n.data, unit)
      && GetNaturalMesh(n', unit) == (m, n')
  {
  }
}

=== FILE: text.dfy ===
/**
 * The few string operations the source applies to tag keys, member roles and
 * attribute values. Lower-casing is ASCII only.
 */
module Text {

  function LowerChar(c: char): char
  {
    if 'A' <= c <= 'Z' then (c as int + 32) as char else c
  }

  /** `string.ToLower()` restricted to ASCII letters. */
  function Lower(s: string): (r: string)
    ensures |r| == |s|
    ensures forall i :: 0 <= i < |s| ==> r[i] == LowerChar(s[i])
  {
    seq(|s|, i requires 0 <= i < |s| => LowerChar(s[i]))
  }

  /** Lower-casing twice is lower-casing once. */
  lemma LowerIdempotent(s: string)
    ensures Lower(Lower(s)) == Lower(s)
  {
  }

  /** The characters of `s` that `keep` accepts, in order (a regex replace of the rest by ""). */
  function Filter(s: string, keep: char -> bool): (r: string)
    ensures |r| <= |s|
    ensures forall i :: 0 <= i < |r| ==> keep(r[i])
    ensures (forall i :: 0 <= i < |s| ==> keep(s[i])) ==> r == s
  {
    if |s| == 0 then ""
    else if keep(s[0]) then [s[0]] + Filter(s[1..], keep)
    else Filter(s[1..], keep)
  }

  /** Filtering distributes over concatenation. */
  lemma {:induction false} FilterAppend(s: string, t: string, keep: char -> bool)
    ensures Filter(s + t, keep) == Filter(s, keep) + Filter(t, keep)
  {
    if |s| > 0 {
      assert (s + t)[0] == s[0];
      assert (s + t)[1..] == s[1..] + t;
      FilterAppend(s[1..], t, keep);
    } else {
      assert s + t == t;
    }
  }

  /** A suffix made only of dropped characters (a unit such as " m") does not change the filtered text. */
  lemma {:induction false} FilterDropsSuffix(s: string, t: string, keep: char -> bool)
    requires forall i :: 0 <= i < |t| ==> !keep(t[i])
    ensures Filter(s + t, keep) == Filter(s, keep)
  {
    FilterAppend(s, t, keep);
    FilterNone(t, keep);
  }

  lemma {:induction false} FilterNone(t: string, keep: char -> bool)
    requires forall i :: 0 <= i < |t| ==> !keep(t[i])
    ensures Filter(t, keep) == ""
  {
    if |t| > 0 {
      FilterNone(t[1..], keep);
    }
  }

  /** Dropping one rejected character between two kept runs joins the runs. */
  lemma FilterDropsOne(a: string, c: char, b: string, keep: char -> bool)
    requires forall i :: 0 <= i < |a| ==> keep(a[i])
    requires forall i :: 0 <= i < |b| ==> keep(b[i])
    requires !keep(c)
    ensures Filter(a + [c] + b, keep) == a + b
  {
    FilterAppend(a, [c] + b, keep);
    assert a + [c] + b == a + ([c] + b);
    assert ([c] + b)[1..] == b;
  }

  predicate IsDigit(c: char)
  {
    '0' <= c <= '9'
  }

  predicate IsLowerLetter(c: char)
  {
    'a' <= c <= 'z'
  }
}

=== FILE: wrappers.dfy ===
/** Optional values, standing in for the nullable references of the source. */
module Wrappers {

  datatype Option<+T> = None | Some(value: T) {

    /** The wrapped value, or `default` when absent. */
    function GetOr(default: T): T
    {
      match this
      case Some(v) => v
      case None => default
    }
  }
}
